=== FILE: README.md ===
# hex-ray in Dafny

A model of the core of hex-ray, a command-line hex viewer written in Rust.
It has four front ends over one byte-formatting layer:

- `view` prints a boxed (or, with `--simple`, plain) hex dump: an octal
  offset column, a grouped column of byte values and a grouped ASCII column.
- `output` prints the bare stream of formatted byte values with a separator.
- The older `Args::dump` of `src/print.rs` prints the first version of the
  boxed dump.
- Two full-screen viewers: the older `tui` (rows and a quit key, with an
  unused four-arrow handler) and the `inspect` byte browser, which has a
  selection, a scrolled page, and Home/End/PageUp/PageDown.

Each source file becomes one Dafny module:

| module | source file |
|---|---|
| `UtilsFormat` | `src/utils/format.rs` |
| `LegacyFormat` | `src/format.rs` |
| `UtilsHelpers` | `src/utils/helpers.rs` |
| `LegacyHelpers` | `src/helpers.rs` |
| `UtilsAnsi` | `src/utils/ansi.rs` |
| `ViewCmd` | `src/cli/cmd/view.rs` |
| `OutputCmd` | `src/cli/cmd/output.rs` |
| `LegacyPrint` | `src/print.rs` |
| `TuiRow` | `src/cli/cmd/tui/row.rs` |
| `TuiApp` | `src/cli/cmd/tui/app.rs` |
| `TuiEvents` | `src/cli/cmd/tui/events.rs` |
| `InspectApp` | `src/cli/cmd/inspect/app.rs` |
| `InspectEvents` | `src/cli/cmd/inspect/events.rs` |

Six modules hold what several files share:

- `Base`: `u8`, `usize` bounds, `Option` and `Result`, and Rust's ASCII predicates.
- `Numerals`: fixed-width digit strings and reading them back.
- `Columns`: the grouping loop, `if k > 0 && k % group_size == 0 { push(sep) }`, that every column and border uses.
- `DumpCells`: the cells of the hex and ASCII columns, and the boxed row.
- `Reading`: the read loop that every command runs.
- `Keys`: the terminal key events.

How the side effects are modelled:

- **Reading.** The reader is a sequence of replies: some bytes, or an I/O
  error. When the replies run out, the stream is at its end. One pass of the
  loop is `Reading.Step`. Every command reads into the first
  `min(bytes_remaining, size)` bytes of one reused buffer, so the buffer keeps
  the bytes of earlier reads after `bytes_read`. The rows get the whole buffer,
  as in the source.
- **Output.** Each `println!` becomes one string of a returned sequence; each
  `print!` of `output` is appended to one string.
- **Colour.** Whether colour is on is a parameter. `View::init` sets
  `NO_COLOR=true`, and the model passes on what `is_color_enabled` would then
  see (`ViewCmd.EnvAfterInit`).
- **Panics.** A panic (an invalid format name, a `usize` underflow, a
  terminal too low for `App::new`, a division by a group size of 0) is a
  `None` result. Underflows are modelled as a debug build (overflow checks
  on) behaves: each one panics. The column and border functions themselves take a group
  size that can be divided by (`Columns.GroupOk`); the `Guarded…` functions
  return `None` where the source divides by 0.
- **Wrap-around.** The older printer's row label `self.offset as usize +
  total_bytes_read` wraps modulo 2^64, as a release build does. This label
  is the only place where the model follows a release build.
- **Terminal events.** These are a sequence. A session's `run` loop consumes
  them one per pass.

### Where the code and its description differ

The model follows the code in each of these cases:

- **`is_printable_ascii_character`** is `is_ascii_graphic() || !is_ascii_whitespace()`.
  Only the five ASCII whitespace bytes are "unprintable". Control bytes such as
  NUL and DEL, and every byte above 0x7F, are printed as themselves (`byte as char`).
- **Control+End in `inspect`** sets the page to `row(total_bytes) - rows_per_page + 1`.
  Rust evaluates this left to right, so it underflows whenever
  `row(total_bytes) < rows_per_page`, including on any file shorter than a page.
  With overflow checks on (a debug build) that is a panic.
- **End without Control** adds `size - col - 1` and is not clamped. From the
  last, short row it goes past `total_bytes`.
- **Down** is not clamped either.
- **PageDown** in the last page sets the selection to `total_bytes + 1`, one
  past the one-past-the-end position. It underflows when the data is shorter
  than a page, which panics with overflow checks on. It can also leave the selection off the page it scrolls to.
- **`src/cli/cmd/tui/events.rs`** has the names of its two horizontal
  handlers swapped: Right calls `move_selection_left`, which increments the
  selection, and Left calls `move_selection_right`, which decrements it. Each
  key therefore moves the selection the way its label says, and the handlers'
  doc comments ("next", "previous") match their bodies.
- **The two `From<String>` tables disagree.** `src/format.rs` maps `#hex`,
  `#octal`, … to the unprefixed variants. `src/utils/format.rs` maps them to
  the prefixed ones and accepts more aliases.
- **The two legacy borders differ in width.** The top border of `src/print.rs`
  groups its hex section by 4 whatever the group size, so it is only as wide
  as the bottom border when both groupings give the same number of separators.
  Its rows' padding slots carry no group separators.

## Model

| member | source | states |
|---|---|---|
| UtilsFormat.FormatByte | src/utils/format.rs:38-64 | each variant's rendering of a byte is exactly `size()` characters wide |
| UtilsFormat.FormatDecodes | src/utils/format.rs:38-50 | every rendering is the variant's prefix followed by digits of its base, in its letter case, that read back as the byte |
| UtilsFormat.DigitsAt | src/utils/format.rs:38-50 | a rendering found anywhere inside a longer text still decodes to its byte |
| UtilsFormat.FormatByteShape | src/utils/format.rs:38-64 | every variant writes its prefix, then zero-padded digits filling the rest of `size()` |
| UtilsFormat.ByteFits | src/utils/format.rs:38-64 | every byte fits in the digit width of every variant, so zero padding never truncates |
| UtilsFormat.PrefixedVariants | src/utils/format.rs:41-47 | a prefixed variant is its prefix in front of the unprefixed rendering, and is that much wider |
| UtilsFormat.NamesListed | src/utils/format.rs:22-31 | the accepted names of each variant, derived from the bare names of its base, are exactly those of its match arm |
| UtilsFormat.FromStringMatchesNames | src/utils/format.rs:20-35 | `UtilsFormat.FromString` selects a variant if and only if the string is one of that variant's names; anything else panics |
| UtilsFormat.FromStringSound | src/utils/format.rs:20-35 | a string accepted for a variant is one of its names |
| UtilsFormat.FromStringComplete | src/utils/format.rs:20-35 | every name of a variant selects it |
| UtilsFormat.NamesSelect | src/utils/format.rs:22-31 | each name of each variant selects that variant |
| UtilsFormat.SelectsHex | src/utils/format.rs:23 | `hex`, `x` and `hexadecimal` select lower-case hex |
| UtilsFormat.SelectsHexWithPrefix | src/utils/format.rs:24 | the `#` forms of the hex names select prefixed hex |
| UtilsFormat.SelectsUpperHex | src/utils/format.rs:25 | `HEX`, `X`, `Hex` and `Hexadecimal` select upper-case hex |
| UtilsFormat.SelectsUpperHexWithPrefix | src/utils/format.rs:26 | their `#` forms select prefixed upper-case hex |
| UtilsFormat.SelectsBinary | src/utils/format.rs:27 | `binary`, `b` and `bin` select binary |
| UtilsFormat.SelectsBinaryWithPrefix | src/utils/format.rs:28 | their `#` forms select prefixed binary |
| UtilsFormat.SelectsOctal | src/utils/format.rs:29 | `octal`, `o` and `oct` select octal |
| UtilsFormat.SelectsOctalWithPrefix | src/utils/format.rs:30 | their `#` forms select prefixed octal |
| UtilsFormat.SelectsDecimal | src/utils/format.rs:31 | `decimal`, `d` and `dec` select decimal |
| UtilsFormat.NoPrefixedDecimal | src/utils/format.rs:31-32 | a `#` in front of a decimal name is refused: there is no prefixed decimal |
| UtilsFormat.Hashed | src/utils/format.rs:24-30 | the `#`-names are the bare names, one for one and in order, each with a `#` in front |
| LegacyFormat.FromStringMatchesNames | src/format.rs:20-45 | `LegacyFormat.FromString`, the older table, accepts exactly each base's word, `#`-word and letter for the unprefixed variant, and only `#`-letter for the prefixed one |
| LegacyFormat.FromStringSound | src/format.rs:20-45 | an accepted string is one of the rule's names |
| LegacyFormat.FromStringComplete | src/format.rs:20-45 | every name of the rule is accepted for its variant |
| LegacyFormat.PrefixedOnlyByHashLetter | src/format.rs:26-38 | a prefixed variant is selected exactly by `#x`, `#X`, `#b` and `#o` |
| LegacyFormat.DiffersFromUtilsTable | src/format.rs:22-42 | the two tables disagree on `#hex`, `#octal`, `hexadecimal` and `#decimal` |
| LegacyFormat.AcceptedFormatsRoundTrip | src/format.rs:48-74 | whatever name is accepted, the rendering is `size()` wide and decodes back to the byte |
| UtilsHelpers.IsPrintableAsciiCharacter | src/utils/helpers.rs:10-12 | a byte is printable exactly when it is not tab, line feed, form feed, carriage return or space |
| UtilsHelpers.GraphicBytesArePrintable | src/utils/helpers.rs:10-12 | every graphic byte `!`..`~` is printable |
| UtilsHelpers.ControlAndHighBytesArePrintable | src/utils/helpers.rs:10-12 | non-whitespace control bytes, DEL and the upper half also count as printable |
| UtilsHelpers.GetReaderAndOffset | src/utils/helpers.rs:18-55 | stdin starts at 0; a non-negative offset is kept; a negative one counts back from the end of the file, and fails when it would go before the start |
| LegacyHelpers.AgreesWithUtils | src/helpers.rs:7-9 | the older printable test agrees with the newer one on all 256 bytes |
| LegacyHelpers.PrintableExactly | src/helpers.rs:7-9 | the older test is false exactly on the five ASCII whitespace bytes |
| UtilsAnsi.ColorDisabledExactly | src/utils/ansi.rs:9-11 | `UtilsAnsi.IsColorEnabled` is false exactly when NO_COLOR is set to one of the sixteen case variants of `true` |
| UtilsAnsi.Ansi | src/utils/ansi.rs:62-80 | with colour off the text is unchanged; with colour on it is 9 characters longer and `Unpaint` recovers the colour code and the original text |
| UtilsAnsi.UnpaintPainted | src/utils/ansi.rs:62-80 | wrapping text in the SGR sequence of a colour and the reset can be undone |
| UtilsAnsi.SgrOfColor | src/utils/ansi.rs:17-56 | Black and White are SGR parameters 30 and 37, written as two decimal digits |
| Numerals.Digits | src/utils/format.rs:40-48 | zero-padded fixed-width digits: exactly `width` characters, each a digit of the base in the requested case |
| Numerals.DigitsRoundTrip | src/utils/format.rs:40-48 | fixed-width digits read back as the value whenever it fits in the width |
| Numerals.Decimal | src/cli/cmd/view.rs:264 | `{}` of an unsigned integer: at least one decimal digit, no leading zero |
| Numerals.DecimalRoundTrip | src/cli/cmd/view.rs:264 | the decimal text reads back as the number |
| Columns.SepsClosedForm | src/cli/cmd/view.rs:129-134 | a row of `n` cells has `(n - 1) / group_size` group separators |
| Columns.Join | src/cli/cmd/view.rs:180-198 | the grouping loop's text is as wide as its cells plus one separator per group start |
| Columns.UniformWidth | src/cli/cmd/view.rs:191-198 | cells that are all `w` wide take `n * w` characters |
| Columns.JoinCell | src/cli/cmd/view.rs:180-198 | in a row of equal-width cells, cell `k` is found intact at its grouped position |
| Columns.JoinAllChar | src/cli/cmd/view.rs:129-143 | joining runs of rules with a rule separator gives a run of rules |
| Columns.Copies | src/cli/cmd/view.rs:129-134 | the cells of a loop that pushes the same text every time: `n` equal cells |
| DumpCells.HexCell | src/cli/cmd/view.rs:185-187 | without colour a written cell is the byte's rendering and a space |
| DumpCells.HexCells | src/cli/cmd/view.rs:180-198 | both hex-column loops together give one cell per byte of the buffer |
| DumpCells.HexCellsAt | src/cli/cmd/view.rs:180-198 | cell `k` is the byte's cell before `bytes_read` and `size() + 1` spaces after it |
| DumpCells.PlainHexCellAt | src/cli/cmd/view.rs:180-198 | without colour, cell `k` is the rendering and a space, or blanks past `bytes_read` |
| DumpCells.HexCellsUniform | src/cli/cmd/view.rs:180-198 | without colour every hex cell is `size() + 1` wide, written or padding |
| DumpCells.AsciiCell | src/cli/cmd/view.rs:215-222 | without colour, a read byte is itself when printable and the middle dot otherwise |
| DumpCells.AsciiCells | src/cli/cmd/view.rs:208-226 | the ASCII loop gives one cell per byte of the buffer |
| DumpCells.AsciiCellsAt | src/cli/cmd/view.rs:208-226 | cell `k` is the byte's cell before `bytes_read` and a space after it |
| DumpCells.AsciiCellsUniform | src/cli/cmd/view.rs:208-226 | without colour every ASCII cell is one character |
| DumpCells.HexCellText | src/cli/cmd/view.rs:185-187 | a hex cell found in a line holds the rendering, whose digits decode to the byte, then a space |
| DumpCells.RepeatDot | src/cli/cmd/view.rs:169-171 | pushing the one-dot string `n` times gives `n` dots |
| DumpCells.Boxed | src/cli/cmd/view.rs:157 | a boxed row with a nine-character offset has its four bars at 0, 12, after the hex column and at the end |
| DumpCells.BoxedParts | src/cli/cmd/view.rs:157 | each of the three columns can be read back from its place in a boxed row |
| Reading.Drain | src/cli/cmd/view.rs:90-102 | the read loop from any state never consumes more than the bytes still allowed |
| Reading.StepStops | src/cli/cmd/view.rs:90-97 | a pass of `Reading.Step` stops with an error exactly on a failed read while bytes are still allowed; otherwise only on an exhausted limit or an empty read |
| Reading.StepGoes | src/cli/cmd/view.rs:92-97 | a pass of `Reading.Step` that reads asks for `min(bytes_remaining, size)`, gets at least one byte, and leaves the older bytes behind the new ones |
| Reading.DrainGo | src/cli/cmd/view.rs:90-102 | a pass that reads is followed by the rest of the loop, with the budget reduced by what it read |
| Reading.DrainStop | src/cli/cmd/view.rs:90-97 | a pass that stops ends the loop, reporting whether a read failed |
| Reading.DrainChunk | src/cli/cmd/view.rs:90-102 | every iteration is the loop body applied to the budget and buffer left by the iterations before it |
| Reading.DrainStops | src/cli/cmd/view.rs:90-102 | the loop ends at the first failed read (which it reports), empty read, or exhausted limit |
| Reading.DrainReads | src/cli/cmd/view.rs:90-101 | iteration `k` found budget left, read from the `k`-th reply, and got at least one byte |
| Reading.Loop | src/cli/cmd/view.rs:80-102 | from a zeroed buffer, at most `limit` bytes are consumed in all, and every buffer keeps its length |
| Reading.Offsets | src/cli/cmd/view.rs:99-100 | each row's offset is the start offset plus the bytes of all earlier reads |
| Reading.OffsetsContiguous | src/cli/cmd/view.rs:99-100 | consecutive rows are contiguous in the stream |
| Reading.Stream | src/cli/cmd/output.rs:73-76 | the consumed stream is as long as the reads' total |
| Reading.TotalAppend | src/cli/cmd/view.rs:100 | byte counts add up across consecutive runs of reads |
| Keys.Pressed | src/cli/cmd/inspect/events.rs:7-17 | only key presses reach the handlers; releases, repeats and other events do not |
| ViewCmd.ColorOn | src/cli/cmd/view.rs:60-66 | `--no-color` or `--simple` turns colour off; otherwise NO_COLOR decides |
| ViewCmd.FormatOffset | src/cli/cmd/view.rs:162-174 | simple mode gives eight characters `00000` and three octal digits; boxed mode without colour gives a space, five dots and the digits; both read back as `offset mod 256` |
| ViewCmd.FormatHexValues | src/cli/cmd/view.rs:177-201 | without colour the hex column is `size() + 1` per slot plus one space per group start, whatever `bytes_read` is |
| ViewCmd.HexColumnSlots | src/cli/cmd/view.rs:177-201 | slot `k` holds the rendering and a space when it was read, and `size() + 1` spaces when it was not |
| ViewCmd.FormatAsciiRepresentation | src/cli/cmd/view.rs:204-229 | without colour the ASCII column is one character per slot plus a space per group start |
| ViewCmd.AsciiColumnSlots | src/cli/cmd/view.rs:204-229 | slot `k` holds the byte itself when read and printable, the dot when read and not printable, and a space past `bytes_read` |
| ViewCmd.BorderRules | src/cli/cmd/view.rs:129-143 | the border's column sections are runs of rules exactly as wide as the columns they top |
| ViewCmd.FrameShape | src/cli/cmd/view.rs:125-145 | a border has its corners and junctions at 0, 12, after the hex section and at the end, and rules everywhere else |
| ViewCmd.Border | src/cli/cmd/view.rs:120-147 | a border of `ViewCmd.TopLine` or `ViewCmd.BottomLine` is as wide as a boxed row and holds rules everywhere but its four glyphs |
| ViewCmd.BordersMatch | src/cli/cmd/view.rs:231-258 | `ViewCmd.TopLine` and `ViewCmd.BottomLine` are equally wide and differ only in their four glyphs |
| ViewCmd.RowAlignsWithBorders | src/cli/cmd/view.rs:150-159 | a boxed row of `ViewCmd.PrintLine` for a full buffer is as wide as the border, with its bars under the corners and junctions, however few bytes were read |
| ViewCmd.PrintTotal | src/cli/cmd/view.rs:260-265 | nothing in simple mode; otherwise one line, `Read `, decimal digits, ` bytes` and a blank line, whose digits read back as the count |
| ViewCmd.PrintFileName | src/cli/cmd/view.rs:110-118 | nothing in simple mode; otherwise one line, `Source: ` followed by the path, or by `STDIN` when reading standard input |
| ViewCmd.StdinNamedLikeFile | src/cli/cmd/view.rs:110-118 | standard input and a file named `STDIN` give the same header line |
| ViewCmd.TableRows | src/cli/cmd/view.rs:90-102 | one printed row per read |
| ViewCmd.TableRowAt | src/cli/cmd/view.rs:99 | row `k` prints read `k`'s buffer and count at its stream offset |
| ViewCmd.AssembleRow | src/cli/cmd/view.rs:87-105 | the rows come right after the header, in order |
| ViewCmd.DumpRow | src/cli/cmd/view.rs:75-108 | line `header + k` of `ViewCmd.Dump` is read `k` printed at the start offset plus the bytes before it |
| ViewCmd.DumpShape | src/cli/cmd/view.rs:75-108 | `ViewCmd.Dump` prints two header lines unless simple, one line per read, then the bottom border and total only when no read failed; the total is the bytes read |
| ViewCmd.GuardedDump | src/cli/cmd/view.rs:120-201 | a group size of 0 panics exactly when a border is drawn (not simple) or a row is printed, for rows of two or more bytes; otherwise the dump is as above, and a simple dump with no rows prints nothing |
| OutputCmd.EmitLength | src/cli/cmd/output.rs:73-76 | every byte prints `size()` characters plus the separator |
| OutputCmd.EmitAppend | src/cli/cmd/output.rs:73-76 | printing two runs of bytes prints their concatenation |
| OutputCmd.EmitSplit | src/cli/cmd/output.rs:73-76 | the text around byte `k` is the text before it, its cell, and the text after it |
| OutputCmd.EmitAt | src/cli/cmd/output.rs:73-76 | byte `k` is printed at `k * (size() + separator)`: its rendering, which decodes to the byte, then the separator |
| OutputCmd.Take | src/cli/cmd/output.rs:73 | `take(bytes_read)` yields `min(bytes_read, len)` bytes |
| OutputCmd.PrintedStream | src/cli/cmd/output.rs:64-79 | printing read by read prints the consumed stream, byte by byte |
| OutputCmd.ReadsFit | src/cli/cmd/output.rs:60-68 | no read returns more than 16 bytes, the buffer's length |
| OutputCmd.Consumed | src/cli/cmd/output.rs:62-79 | the consumed stream is at most `limit` bytes long |
| OutputCmd.DumpText | src/cli/cmd/output.rs:55-81 | the output of `OutputCmd.Dump` is the rendering and separator of every consumed byte, in order, and its length follows; an I/O error is reported |
| OutputCmd.DumpStops | src/cli/cmd/output.rs:64-72 | the loop ends at the first failed or empty read, or when the limit is used up |
| OutputCmd.DumpReads | src/cli/cmd/output.rs:64-72 | each read asks for `min(bytes_remaining, 16)` and gets at least one byte |
| LegacyPrint.StartOffset | src/print.rs:32 | `offset as usize` keeps a non-negative `i64` and wraps a negative one to `2^64 + offset` |
| LegacyPrint.FrameShape | src/print.rs:42-63 | the older border's corners and junctions stand at 0, 12, after the hex section and at the end |
| LegacyPrint.Section | src/print.rs:45-59 | a border section is `size` runs of the cell plus one separator per group start |
| LegacyPrint.BorderWidths | src/print.rs:42-159 | `LegacyPrint.TopLine` groups its hex section by 4 and `LegacyPrint.BottomLine` by the group size; they are equally wide exactly when both give the same number of separators |
| LegacyPrint.BordersDiffer | src/print.rs:42-159 | with 16 bytes in groups of 8 the top border is 4 characters wider than the bottom one |
| LegacyPrint.FormatOffset | src/print.rs:74-86 | without colour, a space, five dots and three octal digits that read back as `offset mod 256` |
| LegacyPrint.HexWritten | src/print.rs:92-100 | the written part of the hex column is `size() + 1` per byte taken plus one space per group start |
| LegacyPrint.HexWrittenAt | src/print.rs:92-100 | byte `k` taken sits at its grouped slot of the written part, rendered and followed by a space |
| LegacyPrint.HexColumnWritten | src/print.rs:89-108 | byte `k` taken sits at its grouped slot of the whole hex column of `LegacyPrint.FormatHexValues`, rendered and followed by a space |
| LegacyPrint.HexColumnPadding | src/print.rs:103-105 | padding slots are three spaces each, back to back, with no group separators |
| LegacyPrint.FormatAsciiRepresentation | src/print.rs:111-136 | without colour the ASCII column is one character per slot plus a space per group start |
| LegacyPrint.AsciiColumnSlots | src/print.rs:111-136 | slot `k` holds the byte when read and printable, the dot when read and not printable, and a space past `bytes_read` |
| LegacyPrint.TextShape | src/print.rs:66-71 | the row text that `LegacyPrint.PrintLine` prints has bars at 0, 12, after the two-space-padded hex column and at the end, and each column can be read back |
| LegacyPrint.Lines | src/print.rs:9-40 | the printed lines are the top border, one row per call, and the bottom border when the dump reached it |
| LegacyPrint.Calls | src/print.rs:23-35 | one `print_line` call per read, with that read's buffer and count |
| LegacyPrint.DumpShape | src/print.rs:9-40 | `LegacyPrint.Dump` prints the top border, a row per read, and the bottom border exactly when no read failed; at most `limit` bytes are read |
| LegacyPrint.GuardedDump | src/print.rs:42-63 | a group size of 0 panics before the first read exactly when a row has two or more bytes; otherwise the dump is as above |
| LegacyPrint.DumpCalls | src/print.rs:9-40 | `LegacyPrint.Dump` makes exactly one `print_line` call per read, in the order of the reads |
| LegacyPrint.DumpRow | src/print.rs:23-35 | the call for read `k` prints its whole buffer and count, labelled with the signed offset plus the bytes read before it, modulo 2^64 as `self.offset as usize + total_bytes_read` wraps |
| LegacyPrint.CallAt | src/print.rs:32 | a call's label is the signed offset plus the earlier bytes, wrapped to a `usize`, and the plain sum when it stays below 2^64 |
| LegacyPrint.WrappedSum | src/print.rs:32 | adding to `offset as usize` with wrap-around is adding to the signed offset with wrap-around |
| LegacyPrint.NegativeOffsetWraps | src/print.rs:32 | from offset -1, the second 16-byte read is labelled 15: the sum passes `usize::MAX` after one byte |
| LegacyPrint.LowByte | src/print.rs:32-75 | converting `as usize` and then `as u8` keeps the low byte of the signed offset sum |
| LegacyPrint.CallLabel | src/print.rs:32-75 | row `k` is labelled with the low byte of the signed offset plus the bytes before it |
| LegacyPrint.DumpReads | src/print.rs:23-30 | each read asks for `min(bytes_remaining, size)` and gets at least one byte |
| TuiRow.FormatOffset | src/cli/cmd/tui/row.rs:30-42 | a space, five dots and three octal digits that read back as `offset mod 256` |
| TuiRow.FormatHexValues | src/cli/cmd/tui/row.rs:44-68 | three characters per slot plus a space per group start |
| TuiRow.HexCellAt | src/cli/cmd/tui/row.rs:44-68 | slot `k` holds the byte's two hex digits and a space when read, three spaces otherwise |
| TuiRow.HexColumnWritten | src/cli/cmd/tui/row.rs:44-68 | a byte that was read appears as two lower-case digits that decode to it, then a space |
| TuiRow.HexColumnPadding | src/cli/cmd/tui/row.rs:58-65 | slots from `bytes_read` on are three spaces |
| TuiRow.FormatAsciiRepresentation | src/cli/cmd/tui/row.rs:71-95 | one character per slot plus a space per group start |
| TuiRow.AsciiColumnSlots | src/cli/cmd/tui/row.rs:71-95 | slot `k` holds the byte when read and printable, the dot when read and not printable, and a space otherwise |
| TuiRow.SlotsAligned | src/cli/cmd/tui/row.rs:44-95 | the hex and ASCII columns put their group separators before the same slots |
| TuiRow.ToStringBars | src/cli/cmd/tui/row.rs:23-28 | the line of `TuiRow.ToString` is as wide as its columns plus 19, with bars at the edges and between the columns |
| TuiRow.ToStringParts | src/cli/cmd/tui/row.rs:23-28 | each column can be read back from its place in the line |
| TuiRow.GuardedToString | src/cli/cmd/tui/row.rs:44-95 | a group size of 0 panics exactly when the row holds two or more bytes; otherwise the line is `to_string`'s |
| TuiApp.ParsedRows | src/cli/cmd/tui/app.rs:45-59 | one row per read |
| TuiApp.ParsedRowAt | src/cli/cmd/tui/app.rs:54 | row `k` carries read `k`'s buffer and count, and the same offset `parse` was given |
| TuiApp.ParseGo | src/cli/cmd/tui/app.rs:49-58 | a pass that reads pushes its row and counts its bytes, and the rest of the loop pushes the rest |
| TuiApp.ParseStop | src/cli/cmd/tui/app.rs:45-53 | a pass that stops leaves exactly the rows and count of the whole loop |
| TuiApp.Parse | src/cli/cmd/tui/app.rs:28-62 | the loop as written appends one row per read and adds up the bytes; on an I/O error it reports failure and keeps what was pushed |
| TuiApp.HandleKeyEvent | src/cli/cmd/tui/app.rs:93-98 | `q` sets `exit` and nothing else; every other key leaves the state unchanged |
| TuiApp.Exit | src/cli/cmd/tui/app.rs:100-102 | only `exit` changes, and it becomes true |
| TuiApp.HandleEvents | src/cli/cmd/tui/app.rs:81-91 | a non-key event, a release or a repeat leaves the app unchanged; exit is set afterwards exactly when it was set or the event is a press of `q`; nothing but exit changes |
| TuiApp.Run | src/cli/cmd/tui/app.rs:64-74 | a session never changes anything but `exit` |
| TuiApp.RunExits | src/cli/cmd/tui/app.rs:64-102 | a session ends with `exit` set exactly when it was already set or one of its events presses `q` |
| TuiEvents.MoveSelectionUp | src/cli/cmd/tui/events.rs:36-40 | one row back, only when the selection is strictly past the first row's width |
| TuiEvents.MoveSelectionRight | src/cli/cmd/tui/events.rs:43-47 | one byte back, saturating at 0 |
| TuiEvents.MoveSelectionDown | src/cli/cmd/tui/events.rs:50-54 | one row on, only while that stays before `total_bytes` |
| TuiEvents.MoveSelectionLeft | src/cli/cmd/tui/events.rs:57-61 | one byte on while before the last byte; panics (`None`) exactly when there are no bytes |
| TuiEvents.Exit | src/cli/cmd/tui/events.rs:64-66 | only `exit` changes |
| TuiEvents.HandleKeyEvent | src/cli/cmd/tui/events.rs:20-29 | no key changes the row size or byte count; only Right on empty data panics |
| TuiEvents.HandleEvents | src/cli/cmd/tui/events.rs:7-17 | a non-key event, a release or a repeat leaves the selection unchanged, a press goes to the key handler, and the only panic is a pressed Right over empty data |
| TuiEvents.ArrowKeysMoveAsLabelled | src/cli/cmd/tui/events.rs:24-26 | Right increments and Left decrements the selection, each within the bytes there are |
| TuiEvents.KeyKeepsInRange | src/cli/cmd/tui/events.rs:20-61 | from a selection on a byte, every key keeps it on a byte and none panics |
| TuiEvents.QuitOnly | src/cli/cmd/tui/events.rs:20-29 | `q` sets `exit` and changes nothing else; no other key sets it |
| TuiEvents.UpUndoesDown | src/cli/cmd/tui/events.rs:36-54 | Up undoes a Down that moved, except from byte 0, where the strict test keeps Up from moving |
| InspectApp.New | src/cli/cmd/inspect/app.rs:20-29 | panics exactly on a terminal less than 6 rows high; otherwise the page holds the larger of 10 and the height less 6, and everything else starts at its default |
| InspectApp.RowColRoundTrip | src/cli/cmd/inspect/app.rs:83-95 | with `InspectApp.RowOf`, `InspectApp.ColOf` and `InspectApp.Rows`, every index is the start of its row plus its column, and the column is inside the row |
| InspectApp.RowsRowCol | src/cli/cmd/inspect/app.rs:83-95 | `InspectApp.RowOf` and `InspectApp.ColOf` recover the row and column of any position `InspectApp.Rows(n) + c` inside a row |
| InspectApp.ParsedRows | src/cli/cmd/inspect/app.rs:47-64 | one row per read |
| InspectApp.ParsedRowAt | src/cli/cmd/inspect/app.rs:58 | row `k` holds read `k`'s whole buffer at the start offset plus the bytes read before it |
| InspectApp.ParseGo | src/cli/cmd/inspect/app.rs:52-63 | a pass that reads pushes its row at the current offset and counts its bytes |
| InspectApp.ParseStop | src/cli/cmd/inspect/app.rs:47-55 | a pass that stops leaves exactly the rows and count of the whole loop |
| InspectApp.Parse | src/cli/cmd/inspect/app.rs:32-67 | the loop as written appends one row per read and adds up the bytes, changing nothing else; on an I/O error it reports failure and keeps what was pushed |
| InspectEvents.RowBelow | src/cli/cmd/inspect/app.rs:83-95 | an index lies before row `n` exactly when its row is before `n` |
| InspectEvents.RowAdd | src/cli/cmd/inspect/app.rs:83-95 | moving `n` rows down adds `n` to the row and keeps the column |
| InspectEvents.RowSub | src/cli/cmd/inspect/app.rs:83-95 | moving `n` rows up from row `n` or below subtracts `n` from the row and keeps the column |
| InspectEvents.AdjustScrollView | src/cli/cmd/inspect/events.rs:132-143 | only the page position changes |
| InspectEvents.AdjustCases | src/cli/cmd/inspect/events.rs:132-143 | a selection above the page becomes its top row (or the row above, when it starts its row); one below becomes its bottom row; one on the page leaves it |
| InspectEvents.ScrollBack | src/cli/cmd/inspect/events.rs:134-136 | how many rows the page scrolls back for a selection above it |
| InspectEvents.AdjustShowsSelection | src/cli/cmd/inspect/events.rs:132-143 | with at least two rows per page, the selection is on the page afterwards, wherever it was |
| InspectEvents.AdjustMissesWithOneRowPage | src/cli/cmd/inspect/events.rs:134-136 | with one row per page it is not: a concrete state whose selection ends up off the page |
| InspectEvents.MoveSelectionUp | src/cli/cmd/inspect/events.rs:43-50 | only the selection and page change |
| InspectEvents.UpMoves | src/cli/cmd/inspect/events.rs:43-50 | Up moves to the same column one row up, and does nothing in row 0 |
| InspectEvents.MoveSelectionLeft | src/cli/cmd/inspect/events.rs:53-59 | one byte back, saturating at 0 |
| InspectEvents.MoveSelectionDown | src/cli/cmd/inspect/events.rs:62-68 | only the selection and page change |
| InspectEvents.DownMoves | src/cli/cmd/inspect/events.rs:62-68 | Down moves to the same column one row down while before the row of `total_bytes`, and does nothing there |
| InspectEvents.MoveSelectionRight | src/cli/cmd/inspect/events.rs:71-77 | one byte on, only while before `total_bytes` |
| InspectEvents.MoveSelectionToHome | src/cli/cmd/inspect/events.rs:80-87 | Control alone goes to byte 0 and the top page; otherwise column 0 of the same row, with the page unchanged |
| InspectEvents.MoveSelectionToEnd | src/cli/cmd/inspect/events.rs:90-98 | Control alone selects `total_bytes` with its row at the bottom of the page, and panics exactly when `row(total_bytes) < rows_per_page`, i.e. the data ends on the first page; otherwise the last column of the same row |
| InspectEvents.ScrollUp | src/cli/cmd/inspect/events.rs:101-112 | the page moves up a page, saturating at the top |
| InspectEvents.ScrollUpMoves | src/cli/cmd/inspect/events.rs:101-112 | past the first page the selection moves a page of rows up and keeps its column; otherwise it goes to byte 0 |
| InspectEvents.ScrollDown | src/cli/cmd/inspect/events.rs:115-129 | panics exactly when the data is shorter than a page; otherwise the page stays or moves down one page |
| InspectEvents.ScrollDownMoves | src/cli/cmd/inspect/events.rs:115-129 | in the last page the selection becomes `total_bytes + 1`; earlier it moves a page of rows down and keeps its column |
| InspectEvents.Exit | src/cli/cmd/inspect/events.rs:146-148 | only `exit` changes |
| InspectEvents.HandleKeyEvent | src/cli/cmd/inspect/events.rs:20-36 | no key changes the configuration, rows, byte count or page height; only End and PageDown can panic |
| InspectEvents.QuitKeys | src/cli/cmd/inspect/events.rs:33 | exactly Esc and `q` end the session, and they change nothing else |
| InspectEvents.UnboundKeyIgnored | src/cli/cmd/inspect/events.rs:34 | a key with no binding leaves the state as it is |
| InspectEvents.KeyKeepsWindow | src/cli/cmd/inspect/events.rs:20-143 | with at least two rows per page, every key but PageDown keeps the selected row on the page |
| InspectEvents.ScrollUpShows | src/cli/cmd/inspect/events.rs:101-112 | PageUp keeps the selected row on the page |
| InspectEvents.PageDownLeavesWindow | src/cli/cmd/inspect/events.rs:115-129 | PageDown does not: a concrete state whose selection leaves the page |
| InspectEvents.KeyKeepsInRange | src/cli/cmd/inspect/events.rs:20-112 | Up, Left, Right, Home, Control+End and PageUp keep the selection at most `total_bytes` |
| InspectEvents.DownLeavesRange | src/cli/cmd/inspect/events.rs:62-68 | Down does not: a concrete state whose selection goes past `total_bytes` |
| InspectEvents.EndLeavesRange | src/cli/cmd/inspect/events.rs:90-98 | nor does End without Control |
| InspectEvents.HomeIdempotent | src/cli/cmd/inspect/events.rs:80-87 | Home twice is Home once |
| InspectEvents.EndIdempotent | src/cli/cmd/inspect/events.rs:90-98 | End without Control twice is End once |
| InspectEvents.UpUndoesDown | src/cli/cmd/inspect/events.rs:43-68 | Up undoes a Down that moved |
| InspectEvents.LeftUndoesRight | src/cli/cmd/inspect/events.rs:53-77 | Left undoes a Right that moved |
| InspectEvents.HandleEvents | src/cli/cmd/inspect/events.rs:7-17 | a non-key event, a release or a repeat leaves the app unchanged, a press goes to the key handler, only a pressed End or PageDown can panic, and no event changes the configuration, data or page height |
| InspectEvents.Run | src/cli/cmd/inspect/app.rs:70-80 | a session never changes the configuration, rows, byte count or page height |
| InspectEvents.RunKeepsWindow | src/cli/cmd/inspect/app.rs:70-80 | a session without PageDown keeps the selected row on the page throughout, on pages of at least two rows |
| InspectEvents.RunStopsOnQuit | src/cli/cmd/inspect/app.rs:70-80 | after Esc or `q` the rest of the session is ignored |

## Left out

- Terminal drawing (ratatui widgets, `render`, `src/cli/cmd/*/ui.rs`) and reading terminal events: events are a sequence given to `Run`.
- `src/cli/cmd/inspect/row.rs` is not part of this model. `InspectApp.Row` records only the arguments `parse` passes to `Row::new`.
- File I/O: opening, seeking and reading are not modelled. `UtilsHelpers.GetReaderAndOffset` takes the file's size as a parameter. The reader is a sequence of replies.
- Command-line parsing (clap): each command's arguments are a datatype. Only the `From<String>` of the format is modelled.
- Writing NO_COLOR in `View::init`: the variable's value is a parameter.
- The colour trait and format field of `src/print.rs`: it imports `Color` and `Colorable` from `crate::cli` and reads `self.format`, but src/cli.rs defines neither name nor a `format` field on `Args`. `LegacyPrint` assumes they behave like src/utils/ansi.rs and src/utils/format.rs. Every `LegacyPrint` contract is stated without colour, so none depends on this.
- Unicode: `UtilsAnsi.ToLower` lower-cases ASCII letters only. Full Unicode case mapping is not modelled.
- `usize` overflow in `view`, `output` and `inspect`: counts and offsets are unbounded. There the start offset is at most the file's size and the bytes read are at most the limit, so an overflow would take more than 2^64 bytes of input.
- Release-build underflow: InspectApp.New, InspectEvents.MoveSelectionToEnd, InspectEvents.ScrollDown and TuiEvents.MoveSelectionLeft return `None` where a `usize` subtraction goes below 0, as a debug build panics. A release build wraps there instead of panicking. `App::new` then gets a page height near 2^64. Control+End gets the scroll offset `row(total_bytes) + 1 - rows_per_page` modulo 2^64: 0 when `row(total_bytes) == rows_per_page - 1`, near 2^64 otherwise. PageDown takes its "one page down" branch. Right on empty `tui` data increments the selection. The model does not state these release-build results.
- LegacyPrint.DumpRow: the label wraps modulo 2^64 as a release build does. A debug build panics instead as soon as the sum passes `usize::MAX`, which from a negative offset happens once `-offset` bytes have been read (standard input is not seeked). Only the label's low byte is printed, and `LegacyPrint.CallLabel` states that byte.
- A row size of 0 in `inspect`: `row` and `col` divide by it and panic. The inspect handlers require `size > 0`.
- Columns.GroupOk: `-g 0` is accepted by the argument parser, and then every grouping loop divides by it. The column, border and row functions of `ViewCmd`, `LegacyPrint` and `TuiRow` require a group size they can divide by, or a column of at most one cell. The panic itself is modelled only at the top, by `ViewCmd.GuardedDump`, `LegacyPrint.GuardedDump` and `TuiRow.GuardedToString`, and the lines printed before it are dropped.
- `View::execute` and `Output::execute` only chain `get_reader_and_offset` and `dump`. `Output::dump` never uses the start offset it is given.
- The colour case of the column layouts:
  - ViewCmd.FormatHexValues: its width is stated without colour only. With colour every rendering gains the 9 characters of its SGR wrapping.
  - ViewCmd.FormatAsciiRepresentation: its width is stated without colour only, for the same reason.
  - LegacyPrint.FormatAsciiRepresentation: its width is stated without colour only, for the same reason.
  - LegacyPrint.HexWritten: its width is stated without colour only, for the same reason.
- LegacyPrint.HexColumnWritten: places the rendering of byte `k` in the column but does not itself state that the digits decode to the byte. That follows from UtilsFormat.DigitsAt.
- ViewCmd.FormatOffset: its digits are stated to decode only in simple mode or without colour. With colour they sit inside an SGR wrapping.
- LegacyPrint.FormatOffset: its digits are stated to decode only without colour, for the same reason.

=== FILE: ansi.dfy ===
/** src/utils/ansi.rs: whether colour is on, the two colours in use, and the
    wrapping of text in an SGR (Select Graphic Rendition, ECMA-48 section
    8.3.117) sequence introduced by the CSI "ESC [" of ECMA-48 section 5.4.
    The environment variable is read by the caller and passed in. */
module UtilsAnsi {
  import opened Base
  import Numerals

  datatype Color = Black | White

  /** `color as u8`. */
  function Code(c: Color): nat {
    match c
    case Black => 30
    case White => 37
  }

  const ESC: char := 27 as char

  /** ASCII lower-casing, as `to_lowercase` acts on ASCII letters. */
  function LowerChar(c: char): char {
    if 'A' <= c <= 'Z' then (c as int + 32) as char else c
  }

  function ToLower(s: string): (r: string)
    ensures |r| == |s|
    ensures forall i | 0 <= i < |s| :: r[i] == LowerChar(s[i])
  {
    seq(|s|, i requires 0 <= i < |s| => LowerChar(s[i]))
  }

  /** `is_color_enabled`, given the value of NO_COLOR (`None` when unset or
      not valid Unicode): colour is off only when the value lower-cases to "true". */
  function IsColorEnabled(noColor: Option<string>): bool {
    !(noColor.Some? && ToLower(noColor.value) == "true")
  }

  /** Colour is off exactly for the sixteen case variants of "true"; in
      particular NO_COLOR=1 or an empty NO_COLOR leaves it on. */
  lemma ColorDisabledExactly(noColor: Option<string>)
    ensures !IsColorEnabled(noColor) <==>
      && noColor.Some?
      && |noColor.value| == 4
      && (noColor.value[0] == 't' || noColor.value[0] == 'T')
      && (noColor.value[1] == 'r' || noColor.value[1] == 'R')
      && (noColor.value[2] == 'u' || noColor.value[2] == 'U')
      && (noColor.value[3] == 'e' || noColor.value[3] == 'E')
  {
    if noColor.Some? && |noColor.value| == 4 {
      var l := ToLower(noColor.value);
      if l == "true" {
        assert l[0] == 't' && l[1] == 'r' && l[2] == 'u' && l[3] == 'e';
      }
    }
  }

  /** The SGR control sequence selecting parameter `code`: ESC [ code m. */
  function Sgr(code: nat): string {
    [ESC, '['] + Numerals.Decimal(code) + "m"
  }

  /** `Colorable::ansi`, identical for `&str` and `String`. */
  function Ansi(s: string, c: Color, enabled: bool): (r: string)
    ensures !enabled ==> r == s
    ensures enabled ==> |r| == |s| + 9 && Unpaint(r) == Some((Code(c), s))
  {
    if enabled then
      UnpaintPainted(s, c);
      Sgr(Code(c)) + s + Sgr(0)
    else s
  }

  lemma SgrOfColor(c: Color)
    ensures Sgr(Code(c)) == [ESC, '[', '3', if c == Black then '0' else '7', 'm']
    ensures Sgr(0) == [ESC, '[', '0', 'm']
  {
    assert Numerals.Decimal(3) == ['3'];
    assert Numerals.Decimal(30) == ['3', '0'];
    assert Numerals.Decimal(37) == ['3', '7'];
    assert Numerals.Decimal(0) == ['0'];
  }

  lemma UnpaintPainted(s: string, c: Color)
    ensures Unpaint(Sgr(Code(c)) + s + Sgr(0)) == Some((Code(c), s))
  {
    SgrOfColor(c);
    var r := Sgr(Code(c)) + s + Sgr(0);
    assert r[5..|r| - 4] == s;
    assert r[|r| - 4..] == [ESC, '[', '0', 'm'];
    var d := r[2..4];
    assert d == [d[0]] + [d[1]];
    assert d[..1] == [d[0]];
    Numerals.ValueSnoc([d[0]], d[1], 10);
    Numerals.ValueSnoc([], d[0], 10);
    assert [] + [d[0]] == [d[0]];
  }

  /** Takes a string apart as ESC [ d d m text ESC [ 0 m, returning the
      two-digit parameter and the text. */
  function Unpaint(r: string): Option<(nat, string)> {
    if && |r| >= 9
       && r[0] == ESC && r[1] == '[' && '0' <= r[2] <= '9' && '0' <= r[3] <= '9' && r[4] == 'm'
       && r[|r| - 4..] == [ESC, '[', '0', 'm']
    then Some((Numerals.Value(r[2..4], 10), r[5..|r| - 4]))
    else None
  }
}

=== FILE: base.dfy ===
/** Vocabulary shared by every module: bytes, the machine-integer bounds the
    program relies on, Option/Result, and the two `u8` classification methods
    of Rust's standard library that the printable-byte test is built from. */
module Base {

  /** An unsigned 8-bit value (Rust `u8`). */
  type byte = x: int | 0 <= x < 256

  /** `usize` on a 64-bit target. */
  const USIZE_MODULUS: nat := 0x1_0000_0000_0000_0000
  const USIZE_MAX: nat := USIZE_MODULUS - 1

  /** Bounds of Rust `i64`. */
  const I64_MIN: int := -0x8000_0000_0000_0000
  const I64_MAX: int := 0x7FFF_FFFF_FFFF_FFFF

  datatype Option<+T> = None | Some(value: T) {
    function GetOr(default: T): T {
      match this
      case Some(v) => v
      case None => default
    }
  }

  /** A fallible result; `Err` stands for an `std::io::Error` propagated with `?`. */
  datatype Result<+T> = Ok(value: T) | Err

  function Min(a: nat, b: nat): nat {
    if a <= b then a else b
  }

  /** Rust `usize::saturating_sub`. */
  function SaturatingSub(a: nat, b: nat): nat {
    if a >= b then a - b else 0
  }

  /** `vec![0; n]`. */
  function Zeros(n: nat): seq<byte> {
    seq(n, _ => 0)
  }

  /** `c.to_string().repeat(n)` for a single character `c`. */
  function RepeatChar(c: char, n: nat): (r: string)
    ensures |r| == n
    ensures forall i | 0 <= i < n :: r[i] == c
  {
    if n == 0 then [] else RepeatChar(c, n - 1) + [c]
  }

  /** `s.repeat(n)`, or a loop pushing `s` `n` times. */
  function Repeat(s: string, n: nat): (r: string)
    ensures |r| == n * |s|
  {
    if n == 0 then "" else Repeat(s, n - 1) + s
  }

  /** Rust `u8::is_ascii_graphic`: '!' (0x21) through '~' (0x7E). */
  predicate IsAsciiGraphic(b: byte) {
    0x21 <= b <= 0x7E
  }

  /** Rust `u8::is_ascii_whitespace`: space, tab, line feed, form feed and
      carriage return. Vertical tab (0x0B) is deliberately not included. */
  predicate IsAsciiWhitespace(b: byte) {
    b == 0x20 || b == 0x09 || b == 0x0A || b == 0x0C || b == 0x0D
  }

  lemma MulAtLeast(k: nat, d: nat)
    requires k >= 1
    ensures k * d >= d
  {
    assert k * d == (k - 1) * d + d;
  }

  lemma MulDiff(q: nat, q': nat, d: nat)
    requires q' < q
    ensures q * d - q' * d == (q - q') * d
  {
  }

  /** Quotient and remainder are determined by any decomposition with an
      in-range remainder. */
  lemma DivModUnique(a: nat, d: nat, q: nat, r: nat)
    requires d > 0 && r < d && a == q * d + r
    ensures a / d == q && a % d == r
  {
    var q', r' := a / d, a % d;
    assert a == q' * d + r';
    if q' < q {
      MulDiff(q, q', d);
      MulAtLeast(q - q', d);
      assert false;
    } else if q' > q {
      MulDiff(q', q, d);
      MulAtLeast(q' - q, d);
      assert false;
    }
  }
}

=== FILE: cells.dfy ===
/** The per-byte cells of the hex and ASCII columns, as the dump renderers
    write them: a written byte in the hex column is its formatted value
    painted white and a trailing space; a slot past `bytes_read` is blank.
    In the ASCII column a written byte is itself when printable and a
    black middle dot otherwise; a slot past `bytes_read` is one space. */
module DumpCells {
  import opened Base
  import opened UtilsFormat
  import UtilsAnsi
  import UtilsHelpers
  import LegacyHelpers
  import Columns
  import Numerals

  /** The middle dot '·' (U+00B7) standing for an unprintable byte. */
  const DOT: char := '·'

  /** One written byte of the hex column. */
  function HexCell(f: Format, b: byte, color: bool): (r: string)
    ensures !color ==> r == FormatByte(f, b) + " "
  {
    UtilsAnsi.Ansi(FormatByte(f, b), UtilsAnsi.White, color) + " "
  }

  /** The cells of both hex-column loops: `take(bytes_read)` of the slice,
      then `size() + 1` spaces for each slot from `bytes_read` to the end. */
  function HexCells(chunk: seq<byte>, bytesRead: nat, f: Format, color: bool): (r: seq<string>)
    ensures |r| == |chunk|
  {
    seq(|chunk|, k requires 0 <= k < |chunk| =>
      if k < bytesRead then HexCell(f, chunk[k], color) else RepeatChar(' ', Size(f) + 1))
  }

  /** The printable test of the caller's source file. */
  function Printable(b: byte, legacy: bool): bool {
    if legacy then LegacyHelpers.IsPrintableAsciiCharacter(b)
    else UtilsHelpers.IsPrintableAsciiCharacter(b)
  }

  /** One written byte of the ASCII column: `byte as char`, or the dot. */
  function AsciiCell(b: byte, legacy: bool, color: bool): (r: string)
    ensures !color ==> r == if Printable(b, legacy) then [b as char] else [DOT]
  {
    if Printable(b, legacy) then UtilsAnsi.Ansi([b as char], UtilsAnsi.White, color)
    else UtilsAnsi.Ansi([DOT], UtilsAnsi.Black, color)
  }

  /** The cells of the ASCII-column loop over the whole slice. */
  function AsciiCells(chunk: seq<byte>, bytesRead: nat, legacy: bool, color: bool): (r: seq<string>)
    ensures |r| == |chunk|
  {
    seq(|chunk|, k requires 0 <= k < |chunk| =>
      if k < bytesRead then AsciiCell(chunk[k], legacy, color) else " ")
  }

  lemma HexCellsAt(chunk: seq<byte>, bytesRead: nat, f: Format, color: bool, k: nat)
    requires k < |chunk|
    ensures HexCells(chunk, bytesRead, f, color)[k]
      == if k < bytesRead then HexCell(f, chunk[k], color) else RepeatChar(' ', Size(f) + 1)
  {
  }

  /** Without colour, a cell of a byte read is its rendering and a space. */
  lemma PlainHexCellAt(chunk: seq<byte>, bytesRead: nat, f: Format, k: nat)
    requires k < |chunk|
    ensures HexCells(chunk, bytesRead, f, false)[k]
      == if k < bytesRead then FormatByte(f, chunk[k]) + " " else RepeatChar(' ', Size(f) + 1)
  {
    HexCellsAt(chunk, bytesRead, f, false, k);
  }

  /** Without colour every hex cell is `size() + 1` characters wide. */
  lemma HexCellsUniform(chunk: seq<byte>, bytesRead: nat, f: Format)
    ensures Columns.Uniform(HexCells(chunk, bytesRead, f, false), Size(f) + 1)
  {
    var cells := HexCells(chunk, bytesRead, f, false);
    forall k | 0 <= k < |cells|
      ensures |cells[k]| == Size(f) + 1
    {
      HexCellsAt(chunk, bytesRead, f, false, k);
    }
  }

  lemma AsciiCellsAt(chunk: seq<byte>, bytesRead: nat, legacy: bool, color: bool, k: nat)
    requires k < |chunk|
    ensures AsciiCells(chunk, bytesRead, legacy, color)[k]
      == if k < bytesRead then AsciiCell(chunk[k], legacy, color) else " "
  {
  }

  /** Without colour every ASCII cell is one character. */
  lemma AsciiCellsUniform(chunk: seq<byte>, bytesRead: nat, legacy: bool)
    ensures Columns.Uniform(AsciiCells(chunk, bytesRead, legacy, false), 1)
  {
    var cells := AsciiCells(chunk, bytesRead, legacy, false);
    forall k | 0 <= k < |cells|
      ensures |cells[k]| == 1
    {
      AsciiCellsAt(chunk, bytesRead, legacy, false, k);
    }
  }

  /** A cell `s + " "` found at `p` holds `s`. */
  lemma CellText(r: string, p: nat, s: string)
    requires p + |s| + 1 <= |r| && r[p..p + |s| + 1] == s + " "
    ensures r[p..p + |s|] == s
  {
    assert r[p..p + |s|] == r[p..p + |s| + 1][..|s|];
  }

  /** A hex cell `format(b) + " "` found at `p` holds the rendering of `b`,
      whose digits after the prefix read back as `b`, and then a space. */
  lemma HexCellText(r: string, p: nat, f: Format, b: byte)
    requires p + Size(f) + 1 <= |r| && r[p..p + Size(f) + 1] == FormatByte(f, b) + " "
    ensures r[p..p + Size(f)] == FormatByte(f, b)
    ensures r[p + Size(f)] == ' '
    ensures Numerals.Value(r[p + |Prefix(f)|..p + Size(f)], Radix(f)) == b
  {
    FormatByteShape(f, b);
    CellText(r, p, FormatByte(f, b));
    assert r[p + Size(f)] == r[p..p + Size(f) + 1][Size(f)];
    DigitsAt(r, p, f, b);
  }

  /** Repeating the one-character string of the dot is the run of dots. */
  lemma {:induction false} RepeatDot(n: nat)
    ensures Repeat([DOT], n) == RepeatChar(DOT, n)
  {
    if n > 0 {
      RepeatDot(n - 1);
    }
  }

  /** The box-drawing light horizontal '─' (U+2500). */
  const RULE: char := '─'

  /** The light vertical '│' (U+2502) between columns. */
  const BAR: char := '│'

  /** A boxed table row, `"│ {} │ {} │ {} │"`. */
  function BoxedRow(off: string, hex: string, ascii: string): string {
    [BAR, ' '] + off + [' ', BAR, ' '] + hex + [' ', BAR, ' '] + ascii + [' ', BAR]
  }

  /** With a nine-character offset the bars of a boxed row stand at 0, 12,
      after the hex column and at the end. */
  lemma Boxed(off: string, hex: string, ascii: string)
    requires |off| == 9
    ensures |BoxedRow(off, hex, ascii)| == 19 + |hex| + |ascii|
    ensures BoxedRow(off, hex, ascii)[0] == BAR && BoxedRow(off, hex, ascii)[12] == BAR
    ensures BoxedRow(off, hex, ascii)[15 + |hex|] == BAR && BoxedRow(off, hex, ascii)[18 + |hex| + |ascii|] == BAR
  {
    var r := BoxedRow(off, hex, ascii);
    var a := [BAR, ' '] + off + [' ', BAR, ' '];
    var b := a + hex + [' ', BAR, ' '];
    assert r == b + ascii + [' ', BAR];
    assert r[12] == a[12];
    assert r[15 + |hex|] == b[15 + |hex|];
  }

  /** Each column of a boxed row can be read back at its place. */
  lemma BoxedParts(off: string, hex: string, ascii: string)
    requires |off| == 9
    ensures |BoxedRow(off, hex, ascii)| == 19 + |hex| + |ascii|
    ensures BoxedRow(off, hex, ascii)[2..11] == off
    ensures BoxedRow(off, hex, ascii)[14..14 + |hex|] == hex
    ensures BoxedRow(off, hex, ascii)[17 + |hex|..17 + |hex| + |ascii|] == ascii
  {
    var r := BoxedRow(off, hex, ascii);
    var a := [BAR, ' '] + off + [' ', BAR, ' '];
    var b := a + hex + [' ', BAR, ' '];
    assert r == b + ascii + [' ', BAR];
    assert r[..|b|] == b;
    assert r[2..11] == a[2..11];
    assert r[14..14 + |hex|] == b[14..14 + |hex|];
  }
}

=== FILE: columns.dfy ===
/** The column builders every renderer shares: a row of `len` cells is
    written in index order, and before every cell `k > 0` with
    `k % group_size == 0` a group separator is pushed. `Join` is that loop;
    the lemmas say how wide its result is and where each cell lands. */
module Columns {
  import opened Base

  /** `group_size` is only divided by when a row has a second cell. */
  predicate GroupOk(n: nat, g: nat) {
    g > 0 || n <= 1
  }

  /** `k > 0 && k % group_size == 0`; the `&&` keeps `k == 0` from dividing. */
  predicate IsGroupStart(k: nat, g: nat)
    requires k > 0 ==> g > 0
  {
    k > 0 && k % g == 0
  }

  /** The number of separators among the first `n` cells. */
  function Seps(n: nat, g: nat): nat
    requires GroupOk(n, g)
  {
    if n == 0 then 0 else Seps(n - 1, g) + (if IsGroupStart(n - 1, g) then 1 else 0)
  }

  lemma DivStep(m: nat, g: nat)
    requires g > 0
    ensures (m + 1) / g == m / g + (if (m + 1) % g == 0 then 1 else 0)
  {
    var q, r := m / g, m % g;
    assert m == q * g + r;
    if r + 1 < g {
      DivModUnique(m + 1, g, q, r + 1);
    } else {
      assert m + 1 == (q + 1) * g + 0;
      DivModUnique(m + 1, g, q + 1, 0);
    }
  }

  /** A row of `n >= 1` cells has `(n - 1) / group_size` separators: 16 cells
      in groups of 4 have 3. */
  lemma {:induction false} SepsClosedForm(n: nat, g: nat)
    requires n >= 1 && g > 0
    ensures Seps(n, g) == (n - 1) / g
  {
    if n == 1 {
      assert Seps(0, g) == 0;
    } else {
      SepsClosedForm(n - 1, g);
      DivStep(n - 2, g);
      assert Seps(n, g) == Seps(n - 1, g) + (if (n - 1) % g == 0 then 1 else 0);
    }
  }

  /** Total length of some cells. */
  function Width(cells: seq<string>): nat {
    if cells == [] then 0 else Width(cells[..|cells| - 1]) + |cells[|cells| - 1]|
  }

  /** The separator pushed before cell `k`. */
  function SepBefore(k: nat, g: nat, sep: string): string
    requires k > 0 ==> g > 0
  {
    if IsGroupStart(k, g) then sep else ""
  }

  /** The loop `for k in 0..n { if k > 0 && k % g == 0 { push(sep) } push(cells[k]) }`. */
  function Join(cells: seq<string>, g: nat, sep: string): (r: string)
    requires GroupOk(|cells|, g)
    ensures |r| == Width(cells) + Seps(|cells|, g) * |sep|
  {
    if cells == [] then ""
    else
      var n := |cells| - 1;
      var head := Join(cells[..n], g, sep);
      var extra := if IsGroupStart(n, g) then 1 else 0;
      assert |SepBefore(n, g, sep)| == extra * |sep|;
      assert (Seps(n, g) + extra) * |sep| == Seps(n, g) * |sep| + extra * |sep|;
      head + SepBefore(n, g, sep) + cells[n]
  }

  /** Every cell has width `w`. */
  predicate Uniform(cells: seq<string>, w: nat) {
    forall k | 0 <= k < |cells| :: |cells[k]| == w
  }

  lemma {:induction false} UniformWidth(cells: seq<string>, w: nat)
    requires Uniform(cells, w)
    ensures Width(cells) == |cells| * w
  {
    if cells != [] {
      UniformWidth(cells[..|cells| - 1], w);
    }
  }

  /** Where cell `k` of a uniform row begins: `k` cells and the separators
      up to and including its own. */
  function Start(k: nat, w: nat, g: nat, sepWidth: nat): nat
    requires GroupOk(k + 1, g)
  {
    k * w + Seps(k + 1, g) * sepWidth
  }

  /** In a row of equal-width cells, cell `k` can be read back at `Start(k)`. */
  lemma {:induction false} JoinCell(cells: seq<string>, g: nat, sep: string, w: nat, k: nat)
    requires GroupOk(|cells|, g) && Uniform(cells, w) && k < |cells|
    ensures Start(k, w, g, |sep|) + w <= |Join(cells, g, sep)|
    ensures Join(cells, g, sep)[Start(k, w, g, |sep|)..Start(k, w, g, |sep|) + w] == cells[k]
  {
    var n := |cells| - 1;
    var init := cells[..n];
    var head := Join(init, g, sep);
    var s := SepBefore(n, g, sep);
    assert Join(cells, g, sep) == head + s + cells[n];
    UniformWidth(init, w);
    if k == n {
      assert Start(k, w, g, |sep|) == |head| + |s|;
    } else {
      JoinCell(init, g, sep, w, k);
      assert init[k] == cells[k];
    }
  }

  /** All characters of `s` are `c`. */
  predicate AllChar(s: string, c: char) {
    forall i | 0 <= i < |s| :: s[i] == c
  }

  /** Joining runs of `c` with a separator of `c`s gives a run of `c`s. */
  lemma {:induction false} JoinAllChar(cells: seq<string>, g: nat, sep: string, c: char)
    requires GroupOk(|cells|, g)
    requires forall k | 0 <= k < |cells| :: AllChar(cells[k], c)
    requires AllChar(sep, c)
    ensures AllChar(Join(cells, g, sep), c)
  {
    if cells != [] {
      JoinAllChar(cells[..|cells| - 1], g, sep, c);
    }
  }

  /** `n` copies of `s`, the cells of a loop that pushes the same text each time. */
  function Copies(s: string, n: nat): (r: seq<string>)
    ensures |r| == n && Uniform(r, |s|)
    ensures forall k | 0 <= k < n :: r[k] == s
  {
    seq(n, _ => s)
  }
}

=== FILE: helpers.dfy ===
/** src/utils/helpers.rs: the printable-byte test used by the ASCII columns
    and the start-offset arithmetic of `get_reader_and_offset`. Opening the
    file and seeking are I/O; the file's size is a parameter here. */
module UtilsHelpers {
  import opened Base

  /** `is_printable_ascii_character`: graphic or not whitespace. Since no
      graphic byte is whitespace, only the five whitespace bytes fail. */
  function IsPrintableAsciiCharacter(b: byte): (r: bool)
    ensures r <==> b !in {0x09, 0x0A, 0x0C, 0x0D, 0x20}
  {
    IsAsciiGraphic(b) || !IsAsciiWhitespace(b)
  }

  /** The graphic range '!'..'~' is printable ... */
  lemma GraphicBytesArePrintable(b: byte)
    requires 0x21 <= b <= 0x7E
    ensures IsPrintableAsciiCharacter(b)
  {
  }

  /** ... and so is every control byte that is not whitespace (NUL, vertical
      tab, DEL, ...) and every byte of the upper half. */
  lemma ControlAndHighBytesArePrintable(b: byte)
    requires b < 0x09 || b == 0x0B || 0x0E <= b < 0x20 || b >= 0x7F
    ensures IsPrintableAsciiCharacter(b)
  {
  }

  /** Where the bytes come from: standard input, or a file of known size. */
  datatype Source = Stdin | File(fileSize: nat)

  /** The starting offset `get_reader_and_offset` reports. A non-negative
      offset is a seek from the start and is returned as given; a negative one
      is a seek back from the end, which fails (`Err`) when it would go before
      the start of the file. */
  function GetReaderAndOffset(src: Source, offset: int): (r: Result<nat>)
    requires I64_MIN <= offset <= I64_MAX
    requires src.File? ==> src.fileSize <= I64_MAX
    ensures src.Stdin? ==> r == Ok(0)
    ensures src.File? && offset >= 0 ==> r == Ok(offset)
    ensures src.File? && offset < 0 ==> (r.Ok? <==> -offset <= src.fileSize)
    ensures src.File? && offset < 0 && r.Ok? ==> r.value <= src.fileSize && src.fileSize - r.value == -offset
  {
    match src
    case Stdin => Ok(0)
    case File(fileSize) =>
      if offset >= 0 then Ok(offset)
      else if fileSize + offset < 0 then Err
      else Ok(fileSize + offset)
  }
}

/** src/helpers.rs: the older copy of the printable-byte test. */
module LegacyHelpers {
  import opened Base
  import UtilsHelpers

  function IsPrintableAsciiCharacter(b: byte): bool {
    IsAsciiGraphic(b) || !IsAsciiWhitespace(b)
  }

  /** The two copies agree on all 256 bytes. */
  lemma AgreesWithUtils()
    ensures forall b: byte :: IsPrintableAsciiCharacter(b) == UtilsHelpers.IsPrintableAsciiCharacter(b)
  {
  }

  /** False exactly for tab, line feed, form feed, carriage return and space. */
  lemma PrintableExactly(b: byte)
    ensures IsPrintableAsciiCharacter(b) <==> b !in {0x09, 0x0A, 0x0C, 0x0D, 0x20}
  {
  }
}

=== FILE: inspect_app.dfy ===
/** src/cli/cmd/inspect/app.rs: the state of the interactive browser, its
    constructor, the ingestion loop `parse`, and the `row`/`col`/`rows`
    index helpers the key handlers are written with. */
module InspectApp {
  import opened Base
  import Reading

  /** The two configuration fields the browser reads: `cfg.size` (bytes per
      row) and `cfg.limit`. */
  datatype Config = Config(size: nat, limit: Option<nat>)

  /** The arguments `parse` passes to `Row::new`: the whole buffer, stale
      bytes after `bytes_read` included, and the offset of its first byte.
      The Row type itself (src/cli/cmd/inspect/row.rs) is not part of this
      model. */
  datatype Row = Row(buffer: seq<byte>, offset: nat)

  datatype App = App(
    cfg: Config,
    data: seq<Row>,
    totalBytes: nat,
    selected: nat,
    scrollOffset: nat,
    rowsPerPage: nat,
    exit: bool)

  /** `App::new`. `terminal_height` is a `u16`; `terminal_height as usize - 6`
      underflows, and in a debug build panics (`None`), on a terminal less than 6 rows high.
      Everything but the configuration and the page height starts at its
      default. */
  function New(cfg: Config, terminalHeight: nat): (r: Option<App>)
    requires terminalHeight < 0x1_0000
    ensures r.None? <==> terminalHeight < 6
    ensures r.Some? ==> r.value.rowsPerPage >= 10 && r.value.rowsPerPage >= terminalHeight - 6
    ensures r.Some? ==> r.value.rowsPerPage == 10 || r.value.rowsPerPage == terminalHeight - 6
    ensures r.Some? ==> r.value.cfg == cfg && r.value.data == [] && r.value.totalBytes == 0
    ensures r.Some? ==> r.value.selected == 0 && r.value.scrollOffset == 0 && !r.value.exit
  {
    if terminalHeight < 6 then None
    else
      var rowsPerPage := if 10 >= terminalHeight - 6 then 10 else terminalHeight - 6;
      Some(App(cfg, [], 0, 0, 0, rowsPerPage, false))
  }

  /** `row(index)`: the row an index falls in. */
  function RowOf(size: nat, index: nat): nat
    requires size > 0
  {
    index / size
  }

  /** `col(index)`: the column an index falls in. */
  function ColOf(size: nat, index: nat): nat
    requires size > 0
  {
    index % size
  }

  /** `rows(n)`: the index where row `n` begins. */
  function Rows(size: nat, n: nat): nat {
    n * size
  }

  /** Every index is the start of its row plus its column, and the column
      is inside the row. */
  lemma RowColRoundTrip(size: nat, index: nat)
    requires size > 0
    ensures Rows(size, RowOf(size, index)) + ColOf(size, index) == index
    ensures ColOf(size, index) < size
  {
  }

  /** Column `c` of row `n` is found again by `row` and `col`. */
  lemma RowsRowCol(size: nat, n: nat, c: nat)
    requires c < size
    ensures RowOf(size, Rows(size, n) + c) == n
    ensures ColOf(size, Rows(size, n) + c) == c
  {
    DivModUnique(Rows(size, n) + c, size, n, c);
  }

  /** The rows `parse` pushes for the reads `chunks` when the first read's
      offset is `start`: one per read, in order, each at the offset after
      the bytes of the reads before it. */
  function ParsedRows(chunks: seq<Reading.Chunk>, start: nat): (r: seq<Row>)
    ensures |r| == |chunks|
  {
    if chunks == [] then []
    else [Row(chunks[0].buffer, start)] + ParsedRows(chunks[1..], start + chunks[0].count)
  }

  lemma ParsedRowsCons(c: Reading.Chunk, rest: seq<Reading.Chunk>, start: nat)
    ensures ParsedRows([c] + rest, start) == [Row(c.buffer, start)] + ParsedRows(rest, start + c.count)
  {
    assert ([c] + rest)[1..] == rest;
  }

  /** Row `k` holds read `k`'s buffer, at the start offset plus the bytes of
      the reads before it. */
  lemma {:induction false} ParsedRowAt(chunks: seq<Reading.Chunk>, start: nat, k: nat)
    requires k < |chunks|
    ensures ParsedRows(chunks, start)[k] == Row(chunks[k].buffer, start + Reading.Total(chunks[..k]))
  {
    if k > 0 {
      var rest := chunks[1..];
      ParsedRowAt(rest, start + chunks[0].count, k - 1);
      assert [chunks[0]] + rest == chunks;
      Reading.TotalConsPrefix(chunks[0], rest, k);
    }
  }

  /** Mid-way through `parse`: the rows and byte count the whole loop `d`
      adds to `prior` and `base` are the ones already pushed (`data`,
      `totalBytes`) followed by the ones the loop resumed at call `i`, with
      `remaining` bytes allowed and `buffer`, will push; and that resumed
      loop ends the way `d` does. */
  predicate Remains(d: Reading.Drained, replies: seq<Reading.Reply>, i: nat, size: nat, remaining: nat,
                    buffer: seq<byte>, prior: seq<Row>, base: nat, offset: nat, data: seq<Row>, totalBytes: nat)
  {
    && |buffer| == size
    && d.failed == Reading.Drain(replies, i, size, remaining, buffer).failed
    && prior + ParsedRows(d.chunks, offset + base)
       == data + ParsedRows(Reading.Drain(replies, i, size, remaining, buffer).chunks, offset + totalBytes)
    && base + Reading.Total(d.chunks)
       == totalBytes + Reading.Total(Reading.Drain(replies, i, size, remaining, buffer).chunks)
  }

  /** A pass that reads `c` pushes its row at the current offset and counts
      its bytes. */
  lemma ParseGo(d: Reading.Drained, replies: seq<Reading.Reply>, i: nat, size: nat, remaining: nat,
                buffer: seq<byte>, prior: seq<Row>, base: nat, offset: nat, data: seq<Row>, totalBytes: nat,
                c: Reading.Chunk)
    requires Remains(d, replies, i, size, remaining, buffer, prior, base, offset, data, totalBytes)
    requires Reading.Step(Reading.Answer(replies, i), size, remaining, buffer) == Reading.Go(c)
    ensures c.count <= remaining
    ensures Remains(d, replies, i + 1, size, remaining - c.count, c.buffer, prior, base, offset,
                    data + [Row(c.buffer, offset + totalBytes)], totalBytes + c.count)
  {
    Reading.DrainGo(replies, i, size, remaining, buffer, c);
    var rest := Reading.Drain(replies, i + 1, size, remaining - c.count, c.buffer).chunks;
    ParsedRowsCons(c, rest, offset + totalBytes);
    Reading.TotalCons(c, rest);
    var row := Row(c.buffer, offset + totalBytes);
    assert data + ([row] + ParsedRows(rest, offset + totalBytes + c.count))
      == (data + [row]) + ParsedRows(rest, offset + totalBytes + c.count);
  }

  /** A pass that stops ends the loop with everything pushed. */
  lemma ParseStop(d: Reading.Drained, replies: seq<Reading.Reply>, i: nat, size: nat, remaining: nat,
                  buffer: seq<byte>, prior: seq<Row>, base: nat, offset: nat, data: seq<Row>, totalBytes: nat,
                  failed: bool)
    requires Remains(d, replies, i, size, remaining, buffer, prior, base, offset, data, totalBytes)
    requires Reading.Step(Reading.Answer(replies, i), size, remaining, buffer) == Reading.Stop(failed)
    ensures d.failed == failed
    ensures data == prior + ParsedRows(d.chunks, offset + base)
    ensures totalBytes == base + Reading.Total(d.chunks)
  {
    assert data + [] == data;
  }

  /** `App::parse`, the loop as written, over the reader's replies; one
      pass of its body (the `read` into the first `min(bytes_remaining,
      size)` bytes and the `n == 0` exit) is `Reading.Step`. The state it
      leaves is returned even when a read fails (`ok` false): the rows
      pushed before the error stay, as they do in `self`. */
  method Parse(app: App, replies: seq<Reading.Reply>, offset: nat) returns (res: App, ok: bool)
    ensures ok == !Reading.Loop(replies, app.cfg.size, app.cfg.limit).failed
    ensures res.data == app.data + ParsedRows(Reading.Loop(replies, app.cfg.size, app.cfg.limit).chunks,
                                              offset + app.totalBytes)
    ensures res.totalBytes == app.totalBytes + Reading.Total(Reading.Loop(replies, app.cfg.size, app.cfg.limit).chunks)
    ensures res.(data := app.data, totalBytes := app.totalBytes) == app
  {
    var size: nat := app.cfg.size;
    var buffer := Zeros(size);
    var bytesRemaining: nat := Reading.Budget(app.cfg.limit);
    var i: nat := 0;
    ghost var d := Reading.Loop(replies, size, app.cfg.limit);
    var data := app.data;
    var totalBytes: nat := app.totalBytes;
    while true
      invariant Remains(d, replies, i, size, bytesRemaining, buffer, app.data, app.totalBytes, offset, data, totalBytes)
      decreases bytesRemaining
    {
      match Reading.Step(Reading.Answer(replies, i), size, bytesRemaining, buffer)
      case Stop(failed) =>
        ParseStop(d, replies, i, size, bytesRemaining, buffer, app.data, app.totalBytes, offset, data, totalBytes, failed);
        return app.(data := data, totalBytes := totalBytes), !failed;
      case Go(c) =>
        ParseGo(d, replies, i, size, bytesRemaining, buffer, app.data, app.totalBytes, offset, data, totalBytes, c);
        data := data + [Row(c.buffer, offset + totalBytes)];
        totalBytes := totalBytes + c.count;
        bytesRemaining := bytesRemaining - c.count;
        buffer := c.buffer;
        i := i + 1;
    }
  }
}

=== FILE: inspect_events.dfy ===
/** src/cli/cmd/inspect/events.rs: the key handlers of the interactive
    browser. The selection is a byte index; rows are `cfg.size` bytes wide;
    the page shows rows `scroll_offset .. scroll_offset + rows_per_page`.

    `row` and `col` divide by `cfg.size`, so every handler that uses them
    requires a positive row size. Two handlers subtract with `usize` where
    the difference can be negative, which panics in a debug build (a
    release build wraps); they return `None` for those states. */
module InspectEvents {
  import opened Base
  import opened InspectApp
  import opened Keys

  /** The page holds the selected row. */
  predicate Shows(app: App)
    requires app.cfg.size > 0
  {
    app.scrollOffset <= RowOf(app.cfg.size, app.selected) < app.scrollOffset + app.rowsPerPage
  }

  /** `rows(a) <= rows(b)` when `a <= b`. */
  lemma RowsMono(size: nat, a: nat, b: nat)
    requires a <= b
    ensures Rows(size, a) <= Rows(size, b)
  {
    assert Rows(size, b) == Rows(size, a) + (b - a) * size;
  }

  /** An index lies before row `n` exactly when its row is before `n`. */
  lemma RowBelow(size: nat, index: nat, n: nat)
    requires size > 0
    ensures index < Rows(size, n) <==> RowOf(size, index) < n
  {
    var r := RowOf(size, index);
    RowColRoundTrip(size, index);
    if r < n {
      RowsMono(size, r + 1, n);
      assert Rows(size, r + 1) == Rows(size, r) + size;
    } else {
      RowsMono(size, n, r);
    }
  }

  /** Moving an index `n` rows down keeps its column. */
  lemma RowAdd(size: nat, index: nat, n: nat)
    requires size > 0
    ensures RowOf(size, index + Rows(size, n)) == RowOf(size, index) + n
    ensures ColOf(size, index + Rows(size, n)) == ColOf(size, index)
  {
    var r, c := RowOf(size, index), ColOf(size, index);
    RowColRoundTrip(size, index);
    assert index + Rows(size, n) == Rows(size, r + n) + c;
    RowsRowCol(size, r + n, c);
  }

  /** Moving an index `n` rows up, when it is at least in row `n`, keeps its
      column. */
  lemma RowSub(size: nat, index: nat, n: nat)
    requires size > 0 && Rows(size, n) <= index
    ensures RowOf(size, index) >= n
    ensures RowOf(size, index - Rows(size, n)) == RowOf(size, index) - n
    ensures ColOf(size, index - Rows(size, n)) == ColOf(size, index)
  {
    RowBelow(size, index, n);
    var r, c := RowOf(size, index), ColOf(size, index);
    RowAdd(size, index - Rows(size, n), n);
  }

  /** `adjust_scroll_view`: scroll so that the page holds the selection
      again, if it moved off the page. */
  function AdjustScrollView(app: App): (r: App)
    requires app.cfg.size > 0
    ensures r == app.(scrollOffset := r.scrollOffset)
  {
    var size, sel, scroll := app.cfg.size, app.selected, app.scrollOffset;
    if sel < Rows(size, scroll) then
      var rowsToScroll := RowOf(size, Rows(size, scroll + 1) - sel);
      app.(scrollOffset := SaturatingSub(scroll, rowsToScroll))
    else if sel >= Rows(size, app.rowsPerPage + scroll) then
      var rowsToScroll := RowOf(size, sel - Rows(size, app.rowsPerPage + scroll)) + 1;
      app.(scrollOffset := scroll + rowsToScroll)
    else app
  }

  /** Where `adjust_scroll_view` leaves the page, by the row `r` and the
      column of the selection: a selection above the page becomes its top
      row, except that a selection in column 0 keeps the row above it in
      view; a selection below the page becomes its bottom row; a selection
      on the page leaves it alone. */
  lemma AdjustCases(app: App)
    requires app.cfg.size > 0
    ensures var r := RowOf(app.cfg.size, app.selected);
      && (r < app.scrollOffset ==>
           AdjustScrollView(app).scrollOffset
             == if ColOf(app.cfg.size, app.selected) == 0 then SaturatingSub(r, 1) else r)
      && (app.scrollOffset <= r < app.scrollOffset + app.rowsPerPage ==>
           AdjustScrollView(app).scrollOffset == app.scrollOffset)
      && (r >= app.scrollOffset + app.rowsPerPage ==>
           AdjustScrollView(app).scrollOffset == r - app.rowsPerPage + 1)
  {
    var size, sel, scroll, page := app.cfg.size, app.selected, app.scrollOffset, app.rowsPerPage;
    var r, c := RowOf(size, sel), ColOf(size, sel);
    RowColRoundTrip(size, sel);
    RowBelow(size, sel, scroll);
    RowBelow(size, sel, page + scroll);
    if r < scroll {
      ScrollBack(size, sel, scroll);
    } else if r >= scroll + page {
      RowSub(size, sel, page + scroll);
    }
  }

  /** The rows `adjust_scroll_view` scrolls back by for a selection in row
      `r` above the page at `scroll`: `scroll - r`, and one more when the
      selection starts its row. */
  lemma ScrollBack(size: nat, sel: nat, scroll: nat)
    requires size > 0 && RowOf(size, sel) < scroll
    ensures Rows(size, scroll + 1) >= sel
    ensures RowOf(size, Rows(size, scroll + 1) - sel)
      == if ColOf(size, sel) == 0 then scroll + 1 - RowOf(size, sel) else scroll - RowOf(size, sel)
  {
    var r, c := RowOf(size, sel), ColOf(size, sel);
    RowColRoundTrip(size, sel);
    MulDiff(scroll + 1, r, size);
    if c == 0 {
      assert Rows(size, scroll + 1) - sel == Rows(size, scroll + 1 - r) + 0;
      RowsRowCol(size, scroll + 1 - r, 0);
    } else {
      assert Rows(size, scroll + 1) - sel == Rows(size, scroll - r) + (size - c);
      RowsRowCol(size, scroll - r, size - c);
    }
  }

  /** With at least two rows on the page, `adjust_scroll_view` always
      leaves the selection on it, wherever the selection was. */
  lemma AdjustShowsSelection(app: App)
    requires app.cfg.size > 0 && app.rowsPerPage >= 2
    ensures Shows(AdjustScrollView(app))
  {
    AdjustCases(app);
  }

  /** With one row per page it does not: the selection at the start of row
      1 with the page at row 2 scrolls the page to row 0. */
  lemma AdjustMissesWithOneRowPage()
    ensures var app := App(Config(16, None), [], 32, 16, 2, 1, false);
      !Shows(AdjustScrollView(app))
  {
    var app := App(Config(16, None), [], 32, 16, 2, 1, false);
    assert Rows(16, 3) - 16 == 32;
  }

  /** `move_selection_up`: one row up, if there is a row above. */
  function MoveSelectionUp(app: App): (r: App)
    requires app.cfg.size > 0
    ensures r == app.(selected := r.selected, scrollOffset := r.scrollOffset)
  {
    if RowOf(app.cfg.size, app.selected) >= 1 then
      AdjustScrollView(app.(selected := SaturatingSub(app.selected, Rows(app.cfg.size, 1))))
    else app
  }

  /** Up moves to the same column of the row above, and does nothing in
      row 0. */
  lemma UpMoves(app: App)
    requires app.cfg.size > 0
    ensures var r := MoveSelectionUp(app); var size := app.cfg.size;
      if RowOf(size, app.selected) >= 1 then
        && r.selected == app.selected - size
        && RowOf(size, r.selected) == RowOf(size, app.selected) - 1
        && ColOf(size, r.selected) == ColOf(size, app.selected)
      else r == app
  {
    var size := app.cfg.size;
    if RowOf(size, app.selected) >= 1 {
      RowBelow(size, app.selected, 1);
      RowSub(size, app.selected, 1);
    }
  }

  /** `move_selection_left`: one byte back, unless at the first byte. */
  function MoveSelectionLeft(app: App): (r: App)
    requires app.cfg.size > 0
    ensures r == app.(selected := r.selected, scrollOffset := r.scrollOffset)
    ensures r.selected == SaturatingSub(app.selected, 1)
  {
    if app.selected > 0 then AdjustScrollView(app.(selected := SaturatingSub(app.selected, 1)))
    else app
  }

  /** `move_selection_down`: one row down, while the selection's row is
      before the row of index `total_bytes`. */
  function MoveSelectionDown(app: App): (r: App)
    requires app.cfg.size > 0
    ensures r == app.(selected := r.selected, scrollOffset := r.scrollOffset)
  {
    if RowOf(app.cfg.size, app.selected) < RowOf(app.cfg.size, app.totalBytes) then
      AdjustScrollView(app.(selected := app.selected + Rows(app.cfg.size, 1)))
    else app
  }

  /** Down moves to the same column of the row below, and does nothing in
      the row of `total_bytes`. */
  lemma DownMoves(app: App)
    requires app.cfg.size > 0
    ensures var r := MoveSelectionDown(app); var size := app.cfg.size;
      if RowOf(size, app.selected) < RowOf(size, app.totalBytes) then
        && r.selected == app.selected + size
        && RowOf(size, r.selected) == RowOf(size, app.selected) + 1
        && ColOf(size, r.selected) == ColOf(size, app.selected)
      else r == app
  {
    RowAdd(app.cfg.size, app.selected, 1);
  }

  /** `move_selection_right`: one byte on, while before `total_bytes`. */
  function MoveSelectionRight(app: App): (r: App)
    requires app.cfg.size > 0
    ensures r == app.(selected := r.selected, scrollOffset := r.scrollOffset)
    ensures r.selected == if app.selected < app.totalBytes then app.selected + 1 else app.selected
  {
    if app.selected < app.totalBytes then AdjustScrollView(app.(selected := app.selected + 1))
    else app
  }

  /** `move_selection_to_home`: with Control alone, the first byte and the
      top of the data; otherwise the first byte of the selection's row,
      with the page left where it is. */
  function MoveSelectionToHome(app: App, modifiers: set<Modifier>): (r: App)
    requires app.cfg.size > 0
    ensures r == app.(selected := r.selected, scrollOffset := r.scrollOffset)
    ensures IsControl(modifiers) ==> r.selected == 0 && r.scrollOffset == 0
    ensures !IsControl(modifiers) ==>
      && r.scrollOffset == app.scrollOffset
      && RowOf(app.cfg.size, r.selected) == RowOf(app.cfg.size, app.selected)
      && ColOf(app.cfg.size, r.selected) == 0
  {
    if IsControl(modifiers) then app.(selected := 0, scrollOffset := 0)
    else
      RowColRoundTrip(app.cfg.size, app.selected);
      RowsRowCol(app.cfg.size, RowOf(app.cfg.size, app.selected), 0);
      app.(selected := app.selected - ColOf(app.cfg.size, app.selected))
  }

  /** `move_selection_to_end`: with Control alone, index `total_bytes` and
      a page whose bottom row is its row, which underflows (`None`) when
      `row(total_bytes) < rows_per_page`, i.e. the data ends on the first
      page; otherwise the last byte of the selection's row, with the page
      left where it is. */
  function MoveSelectionToEnd(app: App, modifiers: set<Modifier>): (r: Option<App>)
    requires app.cfg.size > 0
    ensures r.None? <==> IsControl(modifiers) && RowOf(app.cfg.size, app.totalBytes) < app.rowsPerPage
    ensures r.Some? ==> r.value == app.(selected := r.value.selected, scrollOffset := r.value.scrollOffset)
    ensures r.Some? && IsControl(modifiers) ==>
      && r.value.selected == app.totalBytes
      && r.value.scrollOffset + app.rowsPerPage == RowOf(app.cfg.size, app.totalBytes) + 1
    ensures r.Some? && !IsControl(modifiers) ==>
      && r.value.scrollOffset == app.scrollOffset
      && RowOf(app.cfg.size, r.value.selected) == RowOf(app.cfg.size, app.selected)
      && ColOf(app.cfg.size, r.value.selected) == app.cfg.size - 1
  {
    var size := app.cfg.size;
    if IsControl(modifiers) then
      if RowOf(size, app.totalBytes) < app.rowsPerPage then None
      else Some(app.(selected := app.totalBytes,
                     scrollOffset := RowOf(size, app.totalBytes) - app.rowsPerPage + 1))
    else
      RowColRoundTrip(size, app.selected);
      RowsRowCol(size, RowOf(size, app.selected), size - 1);
      Some(app.(selected := app.selected + (size - ColOf(size, app.selected) - 1)))
  }

  /** `scroll_up`: the selection a page up, or the first byte when it is
      within the first page (and past it by at most nothing); the page one
      page up, or at the top. */
  function ScrollUp(app: App): (r: App)
    requires app.cfg.size > 0
    ensures r == app.(selected := r.selected, scrollOffset := r.scrollOffset)
    ensures r.scrollOffset == SaturatingSub(app.scrollOffset, app.rowsPerPage)
  {
    var page := Rows(app.cfg.size, app.rowsPerPage);
    app.(selected := if app.selected > page then SaturatingSub(app.selected, page) else 0,
         scrollOffset := SaturatingSub(app.scrollOffset, app.rowsPerPage))
  }

  /** Page up moves the selection a whole page of rows up, keeping its
      column, when it is past the first page; otherwise to the first
      byte. */
  lemma ScrollUpMoves(app: App)
    requires app.cfg.size > 0
    ensures var r := ScrollUp(app); var size := app.cfg.size;
      if app.selected > Rows(size, app.rowsPerPage) then
        && RowOf(size, r.selected) == RowOf(size, app.selected) - app.rowsPerPage
        && ColOf(size, r.selected) == ColOf(size, app.selected)
      else r.selected == 0
  {
    if app.selected > Rows(app.cfg.size, app.rowsPerPage) {
      RowSub(app.cfg.size, app.selected, app.rowsPerPage);
    }
  }

  /** `scroll_down`: `total_bytes - rows(rows_per_page)` underflows
      (`None`) when the data is shorter than a page. In the last page the
      selection becomes `total_bytes + 1`, otherwise it moves a page down;
      the page moves down a page when the selection has left it. */
  function ScrollDown(app: App): (r: Option<App>)
    requires app.cfg.size > 0
    ensures r.None? <==> app.totalBytes < Rows(app.cfg.size, app.rowsPerPage)
    ensures r.Some? ==> r.value == app.(selected := r.value.selected, scrollOffset := r.value.scrollOffset)
    ensures r.Some? ==>
      r.value.scrollOffset == app.scrollOffset || r.value.scrollOffset == app.scrollOffset + app.rowsPerPage
  {
    var size := app.cfg.size;
    var page := Rows(size, app.rowsPerPage);
    if app.totalBytes < page then None
    else
      var sel := if app.selected >= app.totalBytes - page then app.totalBytes + 1 else app.selected + page;
      var scroll := if sel >= Rows(size, app.rowsPerPage + app.scrollOffset)
                    then app.scrollOffset + app.rowsPerPage else app.scrollOffset;
      Some(app.(selected := sel, scrollOffset := scroll))
  }

  /** Page down in the last page puts the selection one past index
      `total_bytes`; earlier it moves it a page of rows down, keeping its
      column. */
  lemma ScrollDownMoves(app: App)
    requires app.cfg.size > 0 && app.totalBytes >= Rows(app.cfg.size, app.rowsPerPage)
    ensures var r := ScrollDown(app).value; var size := app.cfg.size;
      if app.selected + Rows(size, app.rowsPerPage) >= app.totalBytes then
        r.selected == app.totalBytes + 1
      else
        && RowOf(size, r.selected) == RowOf(size, app.selected) + app.rowsPerPage
        && ColOf(size, r.selected) == ColOf(size, app.selected)
  {
    RowAdd(app.cfg.size, app.selected, app.rowsPerPage);
  }

  /** `exit`. */
  function Exit(app: App): (r: App)
    ensures r.exit && r.(exit := app.exit) == app
  {
    app.(exit := true)
  }

  /** `handle_key_event`; `None` is a handler that panics. */
  function HandleKeyEvent(app: App, key: KeyEvent): (r: Option<App>)
    requires app.cfg.size > 0
    ensures r.Some? ==> r.value.cfg == app.cfg && r.value.data == app.data
    ensures r.Some? ==> r.value.totalBytes == app.totalBytes && r.value.rowsPerPage == app.rowsPerPage
    ensures r.None? ==> key.code == End || key.code == PageDown
  {
    match key.code
    case Up => Some(MoveSelectionUp(app))
    case Right => Some(MoveSelectionRight(app))
    case Down => Some(MoveSelectionDown(app))
    case Left => Some(MoveSelectionLeft(app))
    case Home => Some(MoveSelectionToHome(app, key.modifiers))
    case End => MoveSelectionToEnd(app, key.modifiers)
    case PageUp => Some(ScrollUp(app))
    case PageDown => ScrollDown(app)
    case Esc => Some(Exit(app))
    case Char(c) => if c == 'q' then Some(Exit(app)) else Some(app)
    case Other => Some(app)
  }

  /** Only Esc and `q` end the session, and they change nothing else. */
  lemma QuitKeys(app: App, key: KeyEvent)
    requires app.cfg.size > 0 && !app.exit
    ensures HandleKeyEvent(app, key).Some? && HandleKeyEvent(app, key).value.exit
      <==> key.code == Esc || key.code == Char('q')
    ensures key.code == Esc || key.code == Char('q') ==> HandleKeyEvent(app, key) == Some(app.(exit := true))
  {
  }

  /** A key with no binding leaves the state as it is. */
  lemma UnboundKeyIgnored(app: App, key: KeyEvent)
    requires app.cfg.size > 0
    requires key.code == Other || (key.code.Char? && key.code.c != 'q')
    ensures HandleKeyEvent(app, key) == Some(app)
  {
  }

  /** With at least two rows on a page, every key but PageDown that does
      not panic keeps the selected row on the page. */
  lemma KeyKeepsWindow(app: App, key: KeyEvent)
    requires app.cfg.size > 0 && app.rowsPerPage >= 2 && Shows(app)
    requires key.code != PageDown && HandleKeyEvent(app, key).Some?
    ensures Shows(HandleKeyEvent(app, key).value)
  {
    var size := app.cfg.size;
    match key.code
    case Up =>
      if RowOf(size, app.selected) >= 1 {
        AdjustShowsSelection(app.(selected := SaturatingSub(app.selected, Rows(size, 1))));
      }
    case Right =>
      if app.selected < app.totalBytes {
        AdjustShowsSelection(app.(selected := app.selected + 1));
      }
    case Down =>
      if RowOf(size, app.selected) < RowOf(size, app.totalBytes) {
        AdjustShowsSelection(app.(selected := app.selected + Rows(size, 1)));
      }
    case Left =>
      if app.selected > 0 {
        AdjustShowsSelection(app.(selected := SaturatingSub(app.selected, 1)));
      }
    case Home =>
      if IsControl(key.modifiers) {
        assert RowOf(size, 0) == 0;
      }
    case End =>
    case PageUp => ScrollUpShows(app);
    case Esc =>
    case Char(_) =>
    case Other =>
  }

  /** Page up keeps the selected row on the page. */
  lemma ScrollUpShows(app: App)
    requires app.cfg.size > 0 && app.rowsPerPage >= 1 && Shows(app)
    ensures Shows(ScrollUp(app))
  {
    var size, page := app.cfg.size, app.rowsPerPage;
    ScrollUpMoves(app);
    RowBelow(size, app.selected, page + 1);
    assert RowOf(size, 0) == 0;
  }

  /** Page down does not: a page of ten sixteen-byte rows at the top, the
      selection on byte 159 of 319, moves the selection to index 320 (row
      20) and the page to rows 10 to 19. */
  lemma PageDownLeavesWindow()
    ensures var app := App(Config(16, None), [], 319, 159, 0, 10, false);
      && Shows(app)
      && ScrollDown(app) == Some(app.(selected := 320, scrollOffset := 10))
      && !Shows(ScrollDown(app).value)
  {
  }

  /** The selection never exceeds `total_bytes`. */
  predicate InRange(app: App) {
    app.selected <= app.totalBytes
  }

  /** Up, Left, Right, Home, Control+End and PageUp keep the selection in
      range. */
  lemma KeyKeepsInRange(app: App, key: KeyEvent)
    requires app.cfg.size > 0 && InRange(app) && HandleKeyEvent(app, key).Some?
    requires key.code != Down && key.code != PageDown
    requires key.code == End ==> IsControl(key.modifiers)
    ensures InRange(HandleKeyEvent(app, key).value)
  {
    if key.code == Up {
      UpMoves(app);
    }
  }

  /** Down does not: sixteen-byte rows, 20 bytes, the selection on byte 15
      moves to index 31. */
  lemma DownLeavesRange()
    ensures var app := App(Config(16, None), [], 20, 15, 0, 10, false);
      && InRange(app)
      && MoveSelectionDown(app).selected == 31
      && !InRange(MoveSelectionDown(app))
  {
    var app := App(Config(16, None), [], 20, 15, 0, 10, false);
    DownMoves(app);
  }

  /** Nor does End: byte 17 of 20 moves to index 31. */
  lemma EndLeavesRange()
    ensures var app := App(Config(16, None), [], 20, 17, 0, 10, false);
      && InRange(app)
      && MoveSelectionToEnd(app, {}) == Some(app.(selected := 31))
  {
  }

  /** Home twice is Home once. */
  lemma HomeIdempotent(app: App, modifiers: set<Modifier>)
    requires app.cfg.size > 0
    ensures MoveSelectionToHome(MoveSelectionToHome(app, modifiers), modifiers)
      == MoveSelectionToHome(app, modifiers)
  {
    var once := MoveSelectionToHome(app, modifiers);
    if !IsControl(modifiers) {
      assert ColOf(once.cfg.size, once.selected) == 0;
    }
  }

  /** End (without Control) twice is End once. */
  lemma EndIdempotent(app: App)
    requires app.cfg.size > 0
    ensures MoveSelectionToEnd(MoveSelectionToEnd(app, {}).value, {}) == MoveSelectionToEnd(app, {})
  {
    var once := MoveSelectionToEnd(app, {}).value;
    assert ColOf(once.cfg.size, once.selected) == once.cfg.size - 1;
  }

  /** Up undoes a Down that moved. */
  lemma UpUndoesDown(app: App)
    requires app.cfg.size > 0
    requires RowOf(app.cfg.size, app.selected) < RowOf(app.cfg.size, app.totalBytes)
    ensures MoveSelectionUp(MoveSelectionDown(app)).selected == app.selected
  {
    DownMoves(app);
    UpMoves(MoveSelectionDown(app));
  }

  /** Left undoes a Right that moved. */
  lemma LeftUndoesRight(app: App)
    requires app.cfg.size > 0 && app.selected < app.totalBytes
    ensures MoveSelectionLeft(MoveSelectionRight(app)).selected == app.selected
  {
  }

  /** `handle_events` for one terminal event: only key presses reach the
      handlers, so only a pressed End or PageDown can panic, and no event
      changes the configuration, the data or the page height. */
  function HandleEvents(app: App, e: Event): (r: Option<App>)
    requires app.cfg.size > 0
    ensures !(e.Key? && e.key.kind == Press) ==> r == Some(app)
    ensures e.Key? && e.key.kind == Press ==> r == HandleKeyEvent(app, e.key)
    ensures r.None? ==> e.Key? && e.key.kind == Press && (e.key.code == End || e.key.code == PageDown)
    ensures r.Some? ==> r.value.cfg == app.cfg && r.value.data == app.data
    ensures r.Some? ==> r.value.totalBytes == app.totalBytes && r.value.rowsPerPage == app.rowsPerPage
  {
    match Pressed(e)
    case None => Some(app)
    case Some(key) => HandleKeyEvent(app, key)
  }

  /** The `run` loop over a session's events: one event per pass until
      `exit` is set (or the session has no more events); `None` when a
      handler panics. Drawing is left out. */
  function Run(app: App, events: seq<Event>): (r: Option<App>)
    requires app.cfg.size > 0
    ensures r.Some? ==> r.value.cfg == app.cfg && r.value.data == app.data
    ensures r.Some? ==> r.value.totalBytes == app.totalBytes && r.value.rowsPerPage == app.rowsPerPage
    decreases |events|
  {
    if app.exit || events == [] then Some(app)
    else
      match HandleEvents(app, events[0])
      case None => None
      case Some(next) => Run(next, events[1..])
  }

  /** A session without PageDown keeps the selected row on the page the
      whole way, on pages of at least two rows. */
  lemma {:induction false} RunKeepsWindow(app: App, events: seq<Event>)
    requires app.cfg.size > 0 && app.rowsPerPage >= 2 && Shows(app)
    requires forall k | 0 <= k < |events| :: !(events[k].Key? && events[k].key.code == PageDown)
    requires Run(app, events).Some?
    ensures Shows(Run(app, events).value)
    decreases |events|
  {
    if !app.exit && events != [] {
      var e := events[0];
      if Pressed(e).Some? {
        KeyKeepsWindow(app, e.key);
      }
      var next := HandleEvents(app, e).value;
      RunKeepsWindow(next, events[1..]);
    }
  }

  /** Once Esc or `q` is pressed the rest of the session is ignored. */
  lemma RunStopsOnQuit(app: App, modifiers: set<Modifier>, rest: seq<Event>)
    requires app.cfg.size > 0 && !app.exit
    ensures Run(app, [Key(KeyEvent(Char('q'), modifiers, Press))] + rest) == Some(app.(exit := true))
    ensures Run(app, [Key(KeyEvent(Esc, modifiers, Press))] + rest) == Some(app.(exit := true))
  {
    assert ([Key(KeyEvent(Char('q'), modifiers, Press))] + rest)[0] == Key(KeyEvent(Char('q'), modifiers, Press));
    assert ([Key(KeyEvent(Esc, modifiers, Press))] + rest)[0] == Key(KeyEvent(Esc, modifiers, Press));
  }
}

=== FILE: keys.dfy ===
/** The terminal input events the two interactive front ends receive, reduced
    to what they look at: the key code, the exact modifier set and the kind
    of key event. Reading events from the terminal is outside the model;
    a session is a sequence of these values. */
module Keys {
  import opened Base

  datatype Modifier = Shift | Control | Alt | Super | Hyper | Meta

  datatype KeyCode =
    | Up | Down | Left | Right
    | Home | End | PageUp | PageDown
    | Esc
    | Char(c: char)
    | Other

  datatype KeyKind = Press | Repeat | Release

  datatype KeyEvent = KeyEvent(code: KeyCode, modifiers: set<Modifier>, kind: KeyKind)

  /** A key event, or any other terminal event (mouse, focus, paste, resize). */
  datatype Event = Key(key: KeyEvent) | NonKey

  /** `modifiers == KeyModifiers::CONTROL`: Control and nothing else. */
  predicate IsControl(mods: set<Modifier>) {
    mods == {Control}
  }

  /** The guard of `handle_events`: only key presses are passed on, because
      the terminal also reports key releases and repeats. */
  function Pressed(e: Event): (r: Option<KeyEvent>)
    ensures r.Some? <==> e.Key? && e.key.kind == Press
    ensures r.Some? ==> r.value == e.key
  {
    match e
    case Key(k) => if k.kind == Press then Some(k) else None
    case NonKey => None
  }
}

=== FILE: legacy_format.dfy ===
/** The older src/format.rs. Its `Format` enum, `format` and `size` are
    token-for-token the ones of src/utils/format.rs, so they are shared with
    UtilsFormat; what differs is the `From<String>` table, which accepts
    fewer names and maps the '#'-words to the UNprefixed variants. */
module LegacyFormat {
  import opened Base
  import opened UtilsFormat
  import Numerals

  /** `Format::from(String)` of src/format.rs; `None` is the panic. */
  function FromString(s: string): Option<Format> {
    if s == "hex" then Some(Hex)
    else if s == "#hex" then Some(Hex)
    else if s == "x" then Some(Hex)
    else if s == "#x" then Some(HexWithPrefix)
    else if s == "HEX" then Some(UpperHex)
    else if s == "#HEX" then Some(UpperHex)
    else if s == "X" then Some(UpperHex)
    else if s == "#X" then Some(UpperHexWithPrefix)
    else if s == "binary" then Some(Binary)
    else if s == "#binary" then Some(Binary)
    else if s == "b" then Some(Binary)
    else if s == "#b" then Some(BinaryWithPrefix)
    else if s == "octal" then Some(Octal)
    else if s == "#octal" then Some(Octal)
    else if s == "o" then Some(Octal)
    else if s == "#o" then Some(OctalWithPrefix)
    else if s == "decimal" then Some(Decimal)
    else if s == "#decimal" then Some(Decimal)
    else if s == "d" then Some(Decimal)
    else None
  }

  /** The word and the one-letter name of each base. */
  function Word(f: Format): string {
    match f
    case Hex | HexWithPrefix => "hex"
    case UpperHex | UpperHexWithPrefix => "HEX"
    case Binary | BinaryWithPrefix => "binary"
    case Octal | OctalWithPrefix => "octal"
    case Decimal => "decimal"
  }

  function Letter(f: Format): string {
    match f
    case Hex | HexWithPrefix => "x"
    case UpperHex | UpperHexWithPrefix => "X"
    case Binary | BinaryWithPrefix => "b"
    case Octal | OctalWithPrefix => "o"
    case Decimal => "d"
  }

  /** The rule behind the table: a base's word, with or without '#', and its
      letter select the unprefixed variant; only '#' + letter selects the
      prefixed one. */
  function Names(f: Format): set<string> {
    if Prefix(f) == "" then {Word(f), "#" + Word(f), Letter(f)}
    else {"#" + Letter(f)}
  }

  lemma HashLiterals()
    ensures "#" + "hex" == "#hex" && "#" + "HEX" == "#HEX" && "#" + "binary" == "#binary"
    ensures "#" + "octal" == "#octal" && "#" + "decimal" == "#decimal"
    ensures "#" + "x" == "#x" && "#" + "X" == "#X" && "#" + "b" == "#b" && "#" + "o" == "#o"
  {
  }

  /** Exactly the nineteen names of the rule are accepted, each for its variant. */
  lemma FromStringMatchesNames(s: string, f: Format)
    ensures FromString(s) == Some(f) <==> s in Names(f)
  {
    if FromString(s) == Some(f) {
      FromStringSound(s, f);
    }
    if s in Names(f) {
      FromStringComplete(s, f);
    }
  }

  lemma FromStringSound(s: string, f: Format)
    requires FromString(s) == Some(f)
    ensures s in Names(f)
  {
    HashLiterals();
  }

  lemma FromStringComplete(s: string, f: Format)
    requires s in Names(f)
    ensures FromString(s) == Some(f)
  {
    HashLiterals();
    match f
    case Hex =>
    case HexWithPrefix =>
    case UpperHex =>
    case UpperHexWithPrefix =>
    case Binary =>
    case BinaryWithPrefix =>
    case Octal =>
    case OctalWithPrefix =>
    case Decimal =>
  }

  /** Only the four '#'-letters select a prefixed variant. */
  lemma PrefixedOnlyByHashLetter(s: string)
    ensures (FromString(s).Some? && Prefix(FromString(s).value) != "")
        <==> s in {"#x", "#X", "#b", "#o"}
  {
  }

  /** The two tables disagree: the '#'-words that src/utils/format.rs maps to
      prefixed variants are unprefixed here, and its long aliases are refused. */
  lemma DiffersFromUtilsTable()
    ensures FromString("#hex") == Some(Hex) && UtilsFormat.FromString("#hex") == Some(HexWithPrefix)
    ensures FromString("#octal") == Some(Octal) && UtilsFormat.FromString("#octal") == Some(OctalWithPrefix)
    ensures FromString("hexadecimal") == None && UtilsFormat.FromString("hexadecimal") == Some(Hex)
    ensures FromString("#decimal") == Some(Decimal) && UtilsFormat.FromString("#decimal") == None
  {
  }

  /** Whatever name is accepted, the rendering has exactly `size()` characters
      and decodes back to the byte. */
  lemma AcceptedFormatsRoundTrip(s: string, b: byte)
    requires FromString(s).Some?
    ensures var f := FromString(s).value;
      && |FormatByte(f, b)| == Size(f)
      && Numerals.Value(FormatByte(f, b)[|Prefix(f)|..], Radix(f)) == b
  {
    FormatDecodes(FromString(s).value, b);
  }
}

=== FILE: numerals.dfy ===
/** Positional numerals as Rust's `format!` writes them for unsigned integers:
    fixed-width zero-padded digits (`{:02x}`, `{:08b}`, `{:03o}`, `{:03}`, ...)
    and the plain decimal form (`{}`), together with a decoder, so that every
    rendering can be checked to stand for the value it was given. */
module Numerals {

  function Pow(base: nat, e: nat): (r: nat)
    ensures base >= 1 ==> r >= 1
  {
    if e == 0 then 1 else base * Pow(base, e - 1)
  }

  /** The character for digit `d`; letters are upper- or lower-case as asked. */
  function DigitChar(d: nat, upper: bool): char
    requires d < 16
  {
    if d < 10 then (48 + d) as char
    else if upper then (55 + d) as char
    else (87 + d) as char
  }

  /** The value of a digit character, in either case (0 for non-digits). */
  function DigitValue(c: char): nat {
    if '0' <= c <= '9' then c as nat - 48
    else if 'a' <= c <= 'f' then c as nat - 87
    else if 'A' <= c <= 'F' then c as nat - 55
    else 0
  }

  /** `c` is a digit below `base`, written in the requested letter case. */
  predicate IsDigitOf(c: char, base: nat, upper: bool) {
    DigitValue(c) < base && DigitValue(c) < 16 && DigitChar(DigitValue(c), upper) == c
  }

  lemma DigitCharValue(d: nat, upper: bool)
    requires d < 16
    ensures DigitValue(DigitChar(d, upper)) == d
  {
  }

  /** The `width` least significant base-`base` digits of `v`, most significant first. */
  function Digits(v: nat, base: nat, width: nat, upper: bool): (r: string)
    requires 2 <= base <= 16
    ensures |r| == width
    ensures forall i | 0 <= i < width :: IsDigitOf(r[i], base, upper)
    decreases width
  {
    if width == 0 then []
    else
      DigitCharValue(v % base, upper);
      Digits(v / base, base, width - 1, upper) + [DigitChar(v % base, upper)]
  }

  /** Reads a digit string, most significant digit first. */
  function Value(s: string, base: nat): nat {
    if |s| == 0 then 0 else Value(s[..|s| - 1], base) * base + DigitValue(s[|s| - 1])
  }

  lemma ValueSnoc(s: string, c: char, base: nat)
    ensures Value(s + [c], base) == Value(s, base) * base + DigitValue(c)
  {
    assert (s + [c])[..|s|] == s;
  }

  lemma DivMod(v: nat, b: nat)
    requires b > 0
    ensures v == (v / b) * b + v % b
  {
  }

  lemma DivNat(v: nat, b: nat)
    requires b > 0
    ensures 0 <= v / b && 0 <= v % b < b
  {
  }

  lemma DivBelowPow(v: nat, base: nat, width: nat)
    requires base >= 2 && width >= 1 && v < Pow(base, width)
    ensures v / base < Pow(base, width - 1)
  {
  }

  /** Fixed-width digits lose nothing when the value fits in the width. */
  lemma {:induction false} DigitsRoundTrip(v: nat, base: nat, width: nat, upper: bool)
    requires 2 <= base <= 16
    requires v < Pow(base, width)
    ensures Value(Digits(v, base, width, upper), base) == v
    decreases width
  {
    if width == 0 {
    } else {
      DivNat(v, base);
      var q, m := v / base, v % base;
      DivBelowPow(v, base, width);
      DivMod(v, base);
      DigitsRoundTrip(q, base, width - 1, upper);
      var prefix := Digits(q, base, width - 1, upper);
      assert Digits(v, base, width, upper) == prefix + [DigitChar(m, upper)];
      ValueSnoc(prefix, DigitChar(m, upper), base);
      DigitCharValue(m, upper);
      assert Value(Digits(v, base, width, upper), base) == Value(prefix, base) * base + m;
    }
  }

  /** Rust's `{}` for an unsigned integer: decimal, no padding, no sign. */
  function Decimal(n: nat): (r: string)
    ensures 1 <= |r|
    ensures |r| > 1 ==> r[0] != '0'
    ensures forall i | 0 <= i < |r| :: '0' <= r[i] <= '9'
  {
    if n < 10 then [DigitChar(n, false)]
    else Decimal(n / 10) + [DigitChar(n % 10, false)]
  }

  lemma {:induction false} DecimalRoundTrip(n: nat)
    ensures Value(Decimal(n), 10) == n
  {
    if n < 10 {
      DigitCharValue(n, false);
    } else {
      DecimalRoundTrip(n / 10);
      DivMod(n, 10);
      ValueSnoc(Decimal(n / 10), DigitChar(n % 10, false), 10);
      DigitCharValue(n % 10, false);
    }
  }
}

=== FILE: output.dfy ===
/** src/cli/cmd/output.rs: the plain value stream. `dump` reads at most 16
    bytes at a time and prints every byte it read as `format(b)` followed
    by the separator, with no offsets, columns or line breaks. The start
    offset it is given is never used. Every `print!` is appended to one
    string. */
module OutputCmd {
  import opened Base
  import opened UtilsFormat
  import Numerals
  import Reading

  /** The `output` arguments after parsing. */
  datatype Output = Output(
    filepath: Option<string>,
    offset: int,
    limit: Option<nat>,
    format: Format,
    separator: string)

  /** The length of the buffer `dump` reads into. */
  const WIDTH: nat := 16

  /** Each byte's rendering followed by the separator, in order. */
  function Emit(f: Format, sep: string, bytes: seq<byte>): string {
    if bytes == [] then ""
    else FormatByte(f, bytes[0]) + sep + Emit(f, sep, bytes[1..])
  }

  /** Every byte takes `size()` characters and the separator's. */
  lemma {:induction false} EmitLength(f: Format, sep: string, bytes: seq<byte>)
    ensures |Emit(f, sep, bytes)| == |bytes| * (Size(f) + |sep|)
  {
    if bytes != [] {
      EmitLength(f, sep, bytes[1..]);
      MulSucc(|bytes| - 1, Size(f) + |sep|);
    }
  }

  lemma MulSucc(n: nat, w: nat)
    ensures (n + 1) * w == n * w + w
  {
  }

  /** Emitting two runs of bytes one after the other emits their
      concatenation. */
  lemma {:induction false} EmitAppend(f: Format, sep: string, a: seq<byte>, b: seq<byte>)
    ensures Emit(f, sep, a + b) == Emit(f, sep, a) + Emit(f, sep, b)
    decreases |a|
  {
    if a == [] {
      assert a + b == b;
    } else {
      assert (a + b)[0] == a[0];
      assert (a + b)[1..] == a[1..] + b;
      EmitAppend(f, sep, a[1..], b);
    }
  }

  /** The first `n` bytes of the buffer, as `iter().take(n)` yields them. */
  function Take(buffer: seq<byte>, n: nat): (r: seq<byte>)
    ensures |r| == Min(n, |buffer|)
  {
    buffer[..Min(n, |buffer|)]
  }

  /** What the loop prints, read by read: the bytes each read put at the
      front of the buffer. */
  function Printed(f: Format, sep: string, chunks: seq<Reading.Chunk>): string {
    if chunks == [] then ""
    else
      var last := chunks[|chunks| - 1];
      Printed(f, sep, chunks[..|chunks| - 1]) + Emit(f, sep, Take(last.buffer, last.count))
  }

  /** Printing read by read is printing the stream of consumed bytes. */
  lemma {:induction false} PrintedStream(f: Format, sep: string, chunks: seq<Reading.Chunk>)
    requires forall k | 0 <= k < |chunks| :: chunks[k].count <= |chunks[k].buffer|
    ensures Printed(f, sep, chunks) == Emit(f, sep, Reading.Stream(chunks))
  {
    if chunks != [] {
      var init := chunks[..|chunks| - 1];
      var last := chunks[|chunks| - 1];
      PrintedStream(f, sep, init);
      EmitAppend(f, sep, Reading.Stream(init), last.buffer[..last.count]);
    }
  }

  /** Every read stops within the buffer: no count exceeds 16. */
  lemma ReadsFit(replies: seq<Reading.Reply>, limit: Option<nat>)
    ensures forall k | 0 <= k < |Reading.Loop(replies, WIDTH, limit).chunks| ::
      Reading.Loop(replies, WIDTH, limit).chunks[k].count <= WIDTH
      <= |Reading.Loop(replies, WIDTH, limit).chunks[k].buffer|
  {
    var d := Reading.Loop(replies, WIDTH, limit);
    forall k | 0 <= k < |d.chunks|
      ensures d.chunks[k].count <= WIDTH <= |d.chunks[k].buffer|
    {
      Reading.DrainReads(replies, 0, WIDTH, Reading.Budget(limit), Zeros(WIDTH), k);
    }
  }

  /** What `dump` printed, and whether a read error ended it. */
  datatype Dumped = Dumped(text: string, failed: bool)

  /** `dump` over the reader's replies. */
  function Dump(o: Output, replies: seq<Reading.Reply>): Dumped {
    var d := Reading.Loop(replies, WIDTH, o.limit);
    Dumped(Printed(o.format, o.separator, d.chunks), d.failed)
  }

  /** The bytes `dump` consumed, in stream order. */
  function Consumed(o: Output, replies: seq<Reading.Reply>): (r: seq<byte>)
    ensures |r| == Reading.Total(Reading.Loop(replies, WIDTH, o.limit).chunks) <= Reading.Budget(o.limit)
  {
    ReadsFit(replies, o.limit);
    Reading.Stream(Reading.Loop(replies, WIDTH, o.limit).chunks)
  }

  /** The text is the rendering and separator of every consumed byte, in
      stream order, so it is `n * (size() + |separator|)` long for the `n`
      consumed bytes, and `n` is at most the limit. */
  lemma DumpText(o: Output, replies: seq<Reading.Reply>)
    ensures Dump(o, replies).text == Emit(o.format, o.separator, Consumed(o, replies))
    ensures |Dump(o, replies).text| == |Consumed(o, replies)| * (Size(o.format) + |o.separator|)
    ensures |Consumed(o, replies)| <= Reading.Budget(o.limit)
    ensures Dump(o, replies).failed == Reading.Loop(replies, WIDTH, o.limit).failed
  {
    var d := Reading.Loop(replies, WIDTH, o.limit);
    ReadsFit(replies, o.limit);
    PrintedStream(o.format, o.separator, d.chunks);
    EmitLength(o.format, o.separator, Consumed(o, replies));
  }

  /** The text of `bytes` around byte `k`. */
  lemma EmitSplit(f: Format, sep: string, bytes: seq<byte>, k: nat)
    requires k < |bytes|
    ensures Emit(f, sep, bytes)
      == Emit(f, sep, bytes[..k]) + (FormatByte(f, bytes[k]) + sep) + Emit(f, sep, bytes[k + 1..])
  {
    var rest := [bytes[k]] + bytes[k + 1..];
    assert bytes == bytes[..k] + rest;
    EmitAppend(f, sep, bytes[..k], rest);
    assert rest[1..] == bytes[k + 1..];
  }

  /** Byte `k` of `bytes` is emitted at `p == k * (size() + |separator|)`:
      its rendering, whose digits read back as the byte, then the separator. */
  lemma EmitAt(f: Format, sep: string, bytes: seq<byte>, k: nat, p: nat)
    requires k < |bytes| && p == k * (Size(f) + |sep|)
    ensures p + Size(f) + |sep| <= |Emit(f, sep, bytes)|
    ensures Emit(f, sep, bytes)[p..p + Size(f)] == FormatByte(f, bytes[k])
    ensures Emit(f, sep, bytes)[p + Size(f)..p + Size(f) + |sep|] == sep
    ensures Numerals.Value(Emit(f, sep, bytes)[p + |Prefix(f)|..p + Size(f)], Radix(f)) == bytes[k]
  {
    var cell := FormatByte(f, bytes[k]) + sep;
    var head := Emit(f, sep, bytes[..k]);
    var r := Emit(f, sep, bytes);
    EmitSplit(f, sep, bytes, k);
    EmitLength(f, sep, bytes[..k]);
    CellAt(r, head, cell, Emit(f, sep, bytes[k + 1..]), Size(f));
    DigitsAt(r, p, f, bytes[k]);
  }

  /** The parts of a cell found after `head`. */
  lemma CellAt(r: string, head: string, cell: string, tail: string, n: nat)
    requires r == head + cell + tail && n <= |cell|
    ensures r[|head|..|head| + n] == cell[..n]
    ensures r[|head| + n..|head| + |cell|] == cell[n..]
  {
  }

  /** The loop ends at the first read that returns no bytes or an error, or
      when the limit is used up: after the last read there is a call that,
      with the budget left, stops it. */
  lemma DumpStops(o: Output, replies: seq<Reading.Reply>)
    ensures Reading.Ended(replies, 0, WIDTH, Reading.Budget(o.limit), Reading.Loop(replies, WIDTH, o.limit))
    ensures Dump(o, replies).failed == Reading.Loop(replies, WIDTH, o.limit).failed
  {
    Reading.DrainStops(replies, 0, WIDTH, Reading.Budget(o.limit), Zeros(WIDTH));
  }

  /** Each read asks for `min(bytes_remaining, 16)` bytes and gets what
      the reply holds, but at least one byte. */
  lemma DumpReads(o: Output, replies: seq<Reading.Reply>, k: nat)
    requires k < |Reading.Loop(replies, WIDTH, o.limit).chunks|
    ensures var d := Reading.Loop(replies, WIDTH, o.limit);
      && Reading.Total(d.chunks[..k]) < Reading.Budget(o.limit)
      && Reading.ReadInto(Reading.Answer(replies, k), WIDTH,
                          Reading.Budget(o.limit) - Reading.Total(d.chunks[..k]), d.chunks[k])
      && 0 < d.chunks[k].count <= Min(WIDTH, Reading.Budget(o.limit) - Reading.Total(d.chunks[..k]))
  {
    Reading.DrainReads(replies, 0, WIDTH, Reading.Budget(o.limit), Zeros(WIDTH), k);
  }
}

=== FILE: print.dfy ===
/** src/print.rs: the boxed dump of an older snapshot, written as methods
    of an `Args` type with the older src/format.rs and src/helpers.rs. Its
    top border groups the hex section by a fixed 4, its hex column pads the
    unread slots with three spaces and no group separators, and its rows
    put two spaces on either side of the hex column. Every `println!`
    becomes one string of the returned sequence; colour is a parameter,
    because the `Color` and `Colorable` names it imports from src/cli.rs
    are not part of this model. */
module LegacyPrint {
  import opened Base
  import opened UtilsFormat
  import UtilsAnsi
  import Numerals
  import Columns
  import DumpCells
  import Reading

  /** The fields of `Args` that `dump` reads. */
  datatype Args = Args(offset: int, limit: Option<nat>, size: nat, groupSize: nat, format: Format)

  /** An integer reduced to a `usize`, as a cast or a wrapping addition
      leaves it. */
  function Wrapping(x: int): (r: nat)
    ensures r < USIZE_MODULUS
  {
    x % USIZE_MODULUS
  }

  /** A value that fits a `usize` is left as it is. */
  lemma NoWrap(x: int)
    requires 0 <= x < USIZE_MODULUS
    ensures Wrapping(x) == x
  {
  }

  /** `self.offset as usize`: the two's-complement reading of the `i64`. */
  function StartOffset(offset: int): (r: nat)
    ensures r < USIZE_MODULUS
    ensures offset >= 0 && offset < USIZE_MODULUS ==> r == offset
    ensures offset < 0 && -offset <= USIZE_MODULUS ==> r == USIZE_MODULUS + offset
  {
    Wrapping(offset)
  }

  /** A border: a corner, eleven rules over the offset column, a junction,
      the hex section, a rule, a junction and a rule, the ASCII section, a
      rule and a corner. */
  function Frame(left: char, mid: char, right: char, hex: string, ascii: string): string {
    [left] + RepeatChar(DumpCells.RULE, 11) + [mid] + hex + [DumpCells.RULE, mid, DumpCells.RULE] + ascii
      + [DumpCells.RULE, right]
  }

  lemma FrameShape(left: char, mid: char, right: char, hex: string, ascii: string)
    ensures |Frame(left, mid, right, hex, ascii)| == 18 + |hex| + |ascii|
    ensures Frame(left, mid, right, hex, ascii)[0] == left
    ensures Frame(left, mid, right, hex, ascii)[12] == mid
    ensures Frame(left, mid, right, hex, ascii)[14 + |hex|] == mid
    ensures Frame(left, mid, right, hex, ascii)[17 + |hex| + |ascii|] == right
  {
    var r := Frame(left, mid, right, hex, ascii);
    var a := [left] + RepeatChar(DumpCells.RULE, 11) + [mid];
    var b := a + hex + [DumpCells.RULE, mid, DumpCells.RULE];
    assert r == b + ascii + [DumpCells.RULE, right];
    assert r[12] == a[12];
    assert r[14 + |hex|] == b[14 + |hex|];
  }

  /** A border section: `size` runs of `cell`, with `sep` before every
      `i > 0` with `i % group == 0`. */
  function Section(size: nat, cell: string, group: nat, sep: string): (r: string)
    requires Columns.GroupOk(size, group)
    ensures |r| == size * |cell| + Columns.Seps(size, group) * |sep|
  {
    Columns.UniformWidth(Columns.Copies(cell, size), |cell|);
    Columns.Join(Columns.Copies(cell, size), group, sep)
  }

  /** `print_top_line`: the hex section groups by 4, whatever the group size. */
  function TopLine(a: Args): string
    requires Columns.GroupOk(a.size, a.groupSize)
  {
    Frame('┌', '┬', '┐', Section(a.size, "───", 4, "──"), Section(a.size, "─", a.groupSize, "─"))
  }

  /** `print_bottom_line`: both sections group by the group size. */
  function BottomLine(a: Args): string
    requires Columns.GroupOk(a.size, a.groupSize)
  {
    Frame('└', '┴', '┘', Section(a.size, "───", a.groupSize, "──"), Section(a.size, "─", a.groupSize, "─"))
  }

  /** The two borders differ only in how the hex section is grouped: the
      top one is as wide as the bottom one exactly when grouping by 4 puts
      as many separators into a row as grouping by the group size, as it
      does when the group size is 4. Their second junctions stand after
      their hex sections. */
  lemma BorderWidths(a: Args)
    requires Columns.GroupOk(a.size, a.groupSize)
    ensures |TopLine(a)| == 18 + 4 * a.size + 2 * Columns.Seps(a.size, 4) + Columns.Seps(a.size, a.groupSize)
    ensures |BottomLine(a)| == 18 + 4 * a.size + 3 * Columns.Seps(a.size, a.groupSize)
    ensures |TopLine(a)| == |BottomLine(a)| <==> Columns.Seps(a.size, 4) == Columns.Seps(a.size, a.groupSize)
    ensures a.groupSize == 4 ==> |TopLine(a)| == |BottomLine(a)|
    ensures TopLine(a)[0] == '┌' && TopLine(a)[12] == '┬'
    ensures TopLine(a)[14 + 3 * a.size + 2 * Columns.Seps(a.size, 4)] == '┬'
    ensures BottomLine(a)[0] == '└' && BottomLine(a)[12] == '┴'
    ensures BottomLine(a)[14 + 3 * a.size + 2 * Columns.Seps(a.size, a.groupSize)] == '┴'
  {
    var topHex := Section(a.size, "───", 4, "──");
    var bottomHex := Section(a.size, "───", a.groupSize, "──");
    var ascii := Section(a.size, "─", a.groupSize, "─");
    FrameShape('┌', '┬', '┐', topHex, ascii);
    FrameShape('└', '┴', '┘', bottomHex, ascii);
  }

  /** Sixteen bytes in groups of 8 give a top border four characters wider
      than the bottom one. */
  lemma BordersDiffer()
    ensures |TopLine(Args(0, None, 16, 8, Hex))| == |BottomLine(Args(0, None, 16, 8, Hex))| + 4
  {
    Columns.SepsClosedForm(16, 4);
    Columns.SepsClosedForm(16, 8);
    BorderWidths(Args(0, None, 16, 8, Hex));
  }

  /** `format_offset`: the octal digits of `offset as u8`, after a space and
      black dots up to eight. The digits are always three, so the
      `len() > 8` branch is never taken. */
  function FormatOffset(offset: nat, color: bool): (r: string)
    ensures !color ==> |r| == 9 && r[..6] == [' '] + RepeatChar(DumpCells.DOT, 5)
    ensures !color ==> Numerals.Value(r[6..], 8) == offset % 256
  {
    var res := FormatByte(Octal, offset % 256);
    FormatDecodes(Octal, offset % 256);
    if |res| > 8 then res
    else
      var dots := Repeat(UtilsAnsi.Ansi([DumpCells.DOT], UtilsAnsi.Black, color), 8 - |res|);
      assert !color ==> dots == RepeatChar(DumpCells.DOT, 5) by {
        if !color {
          DumpCells.RepeatDot(5);
        }
      }
      [' '] + dots + UtilsAnsi.Ansi(res, UtilsAnsi.White, color)
  }

  /** How many of the buffer's bytes `take(bytes_read)` yields. */
  function Written(chunk: seq<byte>, bytesRead: nat): nat {
    Min(bytesRead, |chunk|)
  }

  /** The written part of the hex column: a cell per byte taken, with a
      space before every group start. */
  function HexWritten(a: Args, chunk: seq<byte>, bytesRead: nat, color: bool): (r: string)
    requires Columns.GroupOk(Written(chunk, bytesRead), a.groupSize)
    ensures !color ==>
      |r| == Written(chunk, bytesRead) * (Size(a.format) + 1) + Columns.Seps(Written(chunk, bytesRead), a.groupSize)
  {
    var n := Written(chunk, bytesRead);
    var cells := DumpCells.HexCells(chunk[..n], n, a.format, color);
    assert !color ==> Columns.Width(cells) == n * (Size(a.format) + 1) by {
      if !color {
        DumpCells.HexCellsUniform(chunk[..n], n, a.format);
        Columns.UniformWidth(cells, Size(a.format) + 1);
      }
    }
    Columns.Join(cells, a.groupSize, " ")
  }

  /** `format_hex_values`: the written part, then three spaces for each
      slot from `bytes_read` to the end of the buffer, without separators. */
  function FormatHexValues(a: Args, chunk: seq<byte>, bytesRead: nat, color: bool): (r: string)
    requires Columns.GroupOk(Written(chunk, bytesRead), a.groupSize)
  {
    HexWritten(a, chunk, bytesRead, color) + RepeatChar(' ', 3 * (|chunk| - Written(chunk, bytesRead)))
  }

  /** Without colour, a byte `k` that was taken sits at its grouped slot
      `p` of the written part, rendered and followed by a space. */
  lemma HexWrittenAt(a: Args, chunk: seq<byte>, bytesRead: nat, k: nat, p: nat)
    requires Columns.GroupOk(Written(chunk, bytesRead), a.groupSize) && k < Written(chunk, bytesRead)
    requires p == Columns.Start(k, Size(a.format) + 1, a.groupSize, 1)
    ensures p + Size(a.format) + 1 <= |HexWritten(a, chunk, bytesRead, false)|
    ensures HexWritten(a, chunk, bytesRead, false)[p..p + Size(a.format) + 1] == FormatByte(a.format, chunk[k]) + " "
  {
    var n := Written(chunk, bytesRead);
    var cells := DumpCells.HexCells(chunk[..n], n, a.format, false);
    DumpCells.HexCellsAt(chunk[..n], n, a.format, false, k);
    DumpCells.HexCellsUniform(chunk[..n], n, a.format);
    Columns.JoinCell(cells, a.groupSize, " ", Size(a.format) + 1, k);
    assert HexWritten(a, chunk, bytesRead, false) == Columns.Join(cells, a.groupSize, " ");
  }

  /** Without colour, a byte `k` that was taken sits at its grouped slot
      `p` of the hex column, rendered and followed by a space (so its
      digits read back as the byte, by `FormatDecodes`). */
  lemma HexColumnWritten(a: Args, chunk: seq<byte>, bytesRead: nat, k: nat, p: nat)
    requires Columns.GroupOk(Written(chunk, bytesRead), a.groupSize) && k < Written(chunk, bytesRead)
    requires p == Columns.Start(k, Size(a.format) + 1, a.groupSize, 1)
    ensures p + Size(a.format) + 1 <= |FormatHexValues(a, chunk, bytesRead, false)|
    ensures FormatHexValues(a, chunk, bytesRead, false)[p..p + Size(a.format) + 1] == FormatByte(a.format, chunk[k]) + " "
  {
    var w := HexWritten(a, chunk, bytesRead, false);
    var pad := RepeatChar(' ', 3 * (|chunk| - Written(chunk, bytesRead)));
    HexWrittenAt(a, chunk, bytesRead, k, p);
    Inside(FormatHexValues(a, chunk, bytesRead, false), w, pad, p, Size(a.format) + 1);
  }

  /** A slice of `w` is found at the same place in `w + v`. */
  lemma Inside(r: string, w: string, v: string, p: nat, n: nat)
    requires r == w + v && p + n <= |w|
    ensures r[p..p + n] == w[p..p + n]
  {
  }

  /** Without colour, the slots after the written part are three spaces
      each, one after the other with no separator between them: slot `j`
      starts `3 * (j - bytes_read)` after the written part. */
  lemma HexColumnPadding(a: Args, chunk: seq<byte>, bytesRead: nat, j: nat, p: nat)
    requires Columns.GroupOk(Written(chunk, bytesRead), a.groupSize) && bytesRead <= j < |chunk|
    requires p == |HexWritten(a, chunk, bytesRead, false)| + 3 * (j - bytesRead)
    ensures p + 3 <= |FormatHexValues(a, chunk, bytesRead, false)|
    ensures FormatHexValues(a, chunk, bytesRead, false)[p..p + 3] == "   "
  {
    var w := HexWritten(a, chunk, bytesRead, false);
    var pad := RepeatChar(' ', 3 * (|chunk| - bytesRead));
    var r := FormatHexValues(a, chunk, bytesRead, false);
    var q := 3 * (j - bytesRead);
    assert q + 3 <= |pad|;
    assert r[|w| + q..|w| + q + 3] == pad[q..q + 3];
  }

  /** `format_ascii_representation`, with the printable test of
      src/helpers.rs. */
  function FormatAsciiRepresentation(a: Args, chunk: seq<byte>, bytesRead: nat, color: bool): (r: string)
    requires Columns.GroupOk(|chunk|, a.groupSize)
    ensures !color ==> |r| == |chunk| + Columns.Seps(|chunk|, a.groupSize)
  {
    var cells := DumpCells.AsciiCells(chunk, bytesRead, true, color);
    assert !color ==> Columns.Width(cells) == |chunk| by {
      if !color {
        DumpCells.AsciiCellsUniform(chunk, bytesRead, true);
        Columns.UniformWidth(cells, 1);
      }
    }
    Columns.Join(cells, a.groupSize, " ")
  }

  /** Without colour, slot `k` of the ASCII column is one character: the
      byte when read and printable, the dot when read and unprintable, a
      space past `bytes_read`; separators stand before the group starts. */
  lemma AsciiColumnSlots(a: Args, chunk: seq<byte>, bytesRead: nat, k: nat)
    requires Columns.GroupOk(|chunk|, a.groupSize) && k < |chunk|
    ensures var p := Columns.Start(k, 1, a.groupSize, 1);
      && p < |FormatAsciiRepresentation(a, chunk, bytesRead, false)|
      && (k < bytesRead && DumpCells.Printable(chunk[k], true) ==>
            FormatAsciiRepresentation(a, chunk, bytesRead, false)[p] as int == chunk[k])
      && (k < bytesRead && !DumpCells.Printable(chunk[k], true) ==>
            FormatAsciiRepresentation(a, chunk, bytesRead, false)[p] == DumpCells.DOT)
      && (k >= bytesRead ==> FormatAsciiRepresentation(a, chunk, bytesRead, false)[p] == ' ')
  {
    var cells := DumpCells.AsciiCells(chunk, bytesRead, true, false);
    DumpCells.AsciiCellsUniform(chunk, bytesRead, true);
    DumpCells.AsciiCellsAt(chunk, bytesRead, true, false, k);
    Columns.JoinCell(cells, a.groupSize, " ", 1, k);
    var r := FormatAsciiRepresentation(a, chunk, bytesRead, false);
    var p := Columns.Start(k, 1, a.groupSize, 1);
    assert r[p..p + 1] == cells[k];
    assert r[p] == cells[k][0];
  }

  /** The three columns `print_line` formats for one row. */
  datatype Row = Row(offset: string, hex: string, ascii: string)

  /** The text `print_line` prints for a row: `"│ {} │  {}  │ {} │"`. */
  function Text(row: Row): string {
    [DumpCells.BAR, ' '] + row.offset + [' ', DumpCells.BAR, ' ', ' '] + row.hex + [' ', ' ', DumpCells.BAR, ' ']
      + row.ascii + [' ', DumpCells.BAR]
  }

  /** With a nine-character offset, each column of a row's text can be read
      back at its place, between bars at 0, 12, `17 + |hex|` and the end. */
  lemma TextShape(row: Row)
    requires |row.offset| == 9
    ensures |Text(row)| == 21 + |row.hex| + |row.ascii|
    ensures Text(row)[0] == DumpCells.BAR && Text(row)[12] == DumpCells.BAR
    ensures Text(row)[17 + |row.hex|] == DumpCells.BAR
    ensures Text(row)[20 + |row.hex| + |row.ascii|] == DumpCells.BAR
    ensures Text(row)[2..11] == row.offset
    ensures Text(row)[15..15 + |row.hex|] == row.hex
    ensures Text(row)[19 + |row.hex|..19 + |row.hex| + |row.ascii|] == row.ascii
  {
    var r := Text(row);
    var a := [DumpCells.BAR, ' '] + row.offset + [' ', DumpCells.BAR, ' ', ' '];
    var b := a + row.hex + [' ', ' ', DumpCells.BAR, ' '];
    assert r == b + row.ascii + [' ', DumpCells.BAR];
    assert r[..|b|] == b;
    assert r[12] == a[12];
    assert r[17 + |row.hex|] == b[17 + |row.hex|];
    assert r[2..11] == a[2..11];
    assert r[15..15 + |row.hex|] == b[15..15 + |row.hex|];
  }

  /** The arguments of one `print_line` call. */
  datatype Call = Call(buffer: seq<byte>, bytesRead: nat, offset: nat)

  /** `print_line`: the columns of the row for the call's `bytes_read`
      bytes of its buffer at its stream offset. */
  function PrintLine(a: Args, c: Call, color: bool): Row
    requires Columns.GroupOk(|c.buffer|, a.groupSize)
  {
    Row(FormatOffset(c.offset, color), FormatHexValues(a, c.buffer, c.bytesRead, color),
        FormatAsciiRepresentation(a, c.buffer, c.bytesRead, color))
  }

  /** What `dump` did: print the top border, call `print_line` once per
      read, and print the bottom border, which `?` skips (`None`) when a
      read fails. */
  datatype Dumped = Dumped(top: string, calls: seq<Call>, bottom: Option<string>)

  /** Every call's buffer can be grouped. */
  predicate Groupable(a: Args, calls: seq<Call>) {
    forall k | 0 <= k < |calls| :: Columns.GroupOk(|calls[k].buffer|, a.groupSize)
  }

  /** The printed lines, in order: the top border, the text of each
      call, and the bottom border when there is one. */
  function Lines(a: Args, d: Dumped, color: bool): (r: seq<string>)
    requires Groupable(a, d.calls)
    ensures |r| == 1 + |d.calls| + (if d.bottom.Some? then 1 else 0)
  {
    [d.top] + seq(|d.calls|, k requires 0 <= k < |d.calls| => Text(PrintLine(a, d.calls[k], color)))
      + (match d.bottom case Some(b) => [b] case None => [])
  }

  /** One `print_line` call per read, labelled `self.offset as usize +
      total_bytes_read`. The `usize` addition wraps, as a release build does:
      from a negative offset it passes `usize::MAX` once more than `-offset`
      bytes have been read. */
  function Calls(chunks: seq<Reading.Chunk>, start: nat): (r: seq<Call>)
    ensures |r| == |chunks|
    ensures forall k | 0 <= k < |chunks| :: r[k].buffer == chunks[k].buffer && r[k].bytesRead == chunks[k].count
    ensures forall k | 0 <= k < |chunks| :: r[k].offset < USIZE_MODULUS
  {
    var starts := Reading.Offsets(chunks, start);
    seq(|chunks|, k requires 0 <= k < |chunks| => Call(chunks[k].buffer, chunks[k].count, Wrapping(starts[k])))
  }

  /** `dump` over the reader's replies. */
  function Dump(a: Args, replies: seq<Reading.Reply>): Dumped
    requires Columns.GroupOk(a.size, a.groupSize)
  {
    var d := Reading.Loop(replies, a.size, a.limit);
    var calls := Calls(d.chunks, StartOffset(a.offset));
    if d.failed then Dumped(TopLine(a), calls, None) else Dumped(TopLine(a), calls, Some(BottomLine(a)))
  }

  /** `dump` for every group size: the top border's ASCII section divides
      by a group size of 0, and panics (`None`), before the first read
      whenever a row has two or more bytes. */
  function GuardedDump(a: Args, replies: seq<Reading.Reply>): (r: Option<Dumped>)
    ensures r.None? <==> a.groupSize == 0 && a.size >= 2
    ensures r.Some? ==> Columns.GroupOk(a.size, a.groupSize) && r.value == Dump(a, replies)
  {
    if Columns.GroupOk(a.size, a.groupSize) then Some(Dump(a, replies)) else None
  }

  /** The dump is the top border, a row per read, and the bottom border
      exactly when no read failed; every row can be printed, and the bytes
      read are at most the limit. */
  lemma DumpShape(a: Args, replies: seq<Reading.Reply>)
    requires Columns.GroupOk(a.size, a.groupSize)
    ensures Dump(a, replies).top == TopLine(a)
    ensures |Dump(a, replies).calls| == |Reading.Loop(replies, a.size, a.limit).chunks|
    ensures Dump(a, replies).bottom.None? <==> Reading.Loop(replies, a.size, a.limit).failed
    ensures Dump(a, replies).bottom.Some? ==> Dump(a, replies).bottom.value == BottomLine(a)
    ensures Groupable(a, Dump(a, replies).calls)
    ensures Reading.Total(Reading.Loop(replies, a.size, a.limit).chunks) <= Reading.Budget(a.limit)
  {
  }

  /** The dump makes one `print_line` call per read, in order. */
  lemma DumpCalls(a: Args, replies: seq<Reading.Reply>)
    requires Columns.GroupOk(a.size, a.groupSize)
    ensures Dump(a, replies).calls == Calls(Reading.Loop(replies, a.size, a.limit).chunks, StartOffset(a.offset))
  {
  }

  /** The call for read `k` prints the whole buffer and its count, labelled
      with the signed start offset plus the bytes of the reads before it,
      reduced to a `usize` (`CallAt` shows it is the plain sum when nothing
      wraps). */
  lemma DumpRow(a: Args, replies: seq<Reading.Reply>, k: nat)
    requires k < |Reading.Loop(replies, a.size, a.limit).chunks|
    ensures Calls(Reading.Loop(replies, a.size, a.limit).chunks, StartOffset(a.offset))[k]
      == Call(Reading.Loop(replies, a.size, a.limit).chunks[k].buffer,
              Reading.Loop(replies, a.size, a.limit).chunks[k].count,
              Wrapping(a.offset + Reading.Total(Reading.Loop(replies, a.size, a.limit).chunks[..k])))
  {
    CallAt(Reading.Loop(replies, a.size, a.limit).chunks, a.offset, k);
  }

  /** Call `k` is read `k`, labelled with the signed offset plus the bytes
      before it, wrapped, which is the plain sum when nothing wraps. */
  lemma CallAt(chunks: seq<Reading.Chunk>, offset: int, k: nat)
    requires k < |chunks|
    ensures Calls(chunks, StartOffset(offset))[k]
      == Call(chunks[k].buffer, chunks[k].count, Wrapping(offset + Reading.Total(chunks[..k])))
    ensures StartOffset(offset) + Reading.Total(chunks[..k]) < USIZE_MODULUS
      ==> Calls(chunks, StartOffset(offset))[k].offset == StartOffset(offset) + Reading.Total(chunks[..k])
  {
    var t := Reading.Total(chunks[..k]);
    assert Calls(chunks, StartOffset(offset))[k].offset == Wrapping(StartOffset(offset) + t);
    WrappedSum(offset, t);
    if StartOffset(offset) + t < USIZE_MODULUS {
      NoWrap(StartOffset(offset) + t);
    }
  }

  /** Adding to `offset as usize` and wrapping is adding to the signed
      offset and wrapping. */
  lemma WrappedSum(offset: int, t: nat)
    ensures Wrapping(StartOffset(offset) + t) == Wrapping(offset + t)
  {
    var q := offset / USIZE_MODULUS;
    assert StartOffset(offset) + t == (offset + t) - q * USIZE_MODULUS;
  }

  /** From offset -1, the second of two 16-byte reads is labelled 15, where
      the unbounded sum would be `usize::MAX + 16`. */
  lemma NegativeOffsetWraps(b: seq<byte>)
    requires |b| == 16
    ensures Calls([Reading.Chunk(b, 16), Reading.Chunk(b, 16)], StartOffset(-1))[1].offset == 15
  {
    var chunks := [Reading.Chunk(b, 16), Reading.Chunk(b, 16)];
    assert chunks[..1] == [chunks[0]];
    assert Reading.Total(chunks[..1]) == 16;
    assert StartOffset(-1) == USIZE_MAX;
  }

  /** Reading `as usize` and then `as u8` keeps the low byte of the signed
      sum. */
  lemma LowByte(offset: int, t: nat)
    ensures (StartOffset(offset) + t) % 256 == (offset + t) % 256
  {
    var q := offset / USIZE_MODULUS;
    assert StartOffset(offset) + t == (offset + t) - 256 * (q * 0x100_0000_0000_0000);
  }

  /** Call `k` of a run of reads is labelled with the low byte of the
      signed offset plus the bytes read before it. */
  lemma CallLabel(chunks: seq<Reading.Chunk>, offset: int, k: nat)
    requires k < |chunks|
    ensures Calls(chunks, StartOffset(offset))[k].offset % 256 == (offset + Reading.Total(chunks[..k])) % 256
  {
    CallAt(chunks, offset, k);
    WrappedLowByte(offset + Reading.Total(chunks[..k]));
  }

  /** Wrapping to a `usize` keeps the low byte. */
  lemma WrappedLowByte(x: int)
    ensures Wrapping(x) % 256 == x % 256
  {
    var j := x / USIZE_MODULUS * 0x100_0000_0000_0000;
    var r := Wrapping(x);
    assert x == j * 256 + r;
  }

  /** Each read asks for `min(bytes_remaining, size)` bytes and gets at
      least one. */
  lemma DumpReads(a: Args, replies: seq<Reading.Reply>, k: nat)
    requires k < |Reading.Loop(replies, a.size, a.limit).chunks|
    ensures var d := Reading.Loop(replies, a.size, a.limit);
      && Reading.Total(d.chunks[..k]) < Reading.Budget(a.limit)
      && Reading.ReadInto(Reading.Answer(replies, k), a.size,
                          Reading.Budget(a.limit) - Reading.Total(d.chunks[..k]), d.chunks[k])
      && 0 < d.chunks[k].count <= Min(a.size, Reading.Budget(a.limit) - Reading.Total(d.chunks[..k]))
  {
    Reading.DrainReads(replies, 0, a.size, Reading.Budget(a.limit), Zeros(a.size), k);
  }
}

=== FILE: reading.dfy ===
/** The chunked read loop every command of the program repeats:

      while bytes_remaining > 0 {
        want = min(bytes_remaining, size); n = reader.read(&mut buffer[0..want])?;
        if n == 0 { break }  ... use buffer, n ...;  bytes_remaining -= n
      }

    The reader is a sequence of replies, one per `read` call: `Data(bytes)`
    returns those bytes (cut to the slice length, as the `Read` contract
    guarantees `n <= buf.len()`), `Fault` is an I/O error, and a reader with
    no replies left is at end of stream. The buffer keeps whatever a shorter
    read did not overwrite. */
module Reading {
  import opened Base

  datatype Reply = Data(bytes: seq<byte>) | Fault

  /** One iteration's result: the whole buffer after the read, and the count read. */
  datatype Chunk = Chunk(buffer: seq<byte>, count: nat)

  /** All iterations of one loop, and whether it ended on an I/O error. */
  datatype Drained = Drained(chunks: seq<Chunk>, failed: bool)

  /** `limit.unwrap_or(usize::MAX)`. */
  function Budget(limit: Option<nat>): nat {
    limit.GetOr(USIZE_MAX)
  }

  /** The reply to call number `i`. */
  function Answer(replies: seq<Reply>, i: nat): Reply {
    if i < |replies| then replies[i] else Data([])
  }

  /** The count `read` returns for a slice of `want` bytes. */
  function Taken(reply: Reply, want: nat): nat
    requires reply.Data?
  {
    Min(|reply.bytes|, want)
  }

  /** Sum of the counts. */
  function Total(chunks: seq<Chunk>): nat {
    if chunks == [] then 0 else chunks[0].count + Total(chunks[1..])
  }

  lemma {:induction false} TotalAppend(a: seq<Chunk>, b: seq<Chunk>)
    ensures Total(a + b) == Total(a) + Total(b)
    decreases |a|
  {
    if a == [] {
      assert a + b == b;
    } else {
      assert (a + b)[1..] == a[1..] + b;
      TotalAppend(a[1..], b);
    }
  }

  lemma TotalCons(c: Chunk, rest: seq<Chunk>)
    ensures Total([c] + rest) == c.count + Total(rest)
  {
    assert ([c] + rest)[1..] == rest;
  }

  lemma TotalSnoc(init: seq<Chunk>, c: Chunk)
    ensures Total(init + [c]) == Total(init) + c.count
  {
    TotalAppend(init, [c]);
    assert [c][1..] == [];
  }

  /** The bytes before iteration `k` of a loop that began with chunk `c`. */
  lemma TotalConsPrefix(c: Chunk, rest: seq<Chunk>, k: nat)
    requires 0 < k <= |rest| + 1
    ensures Total(([c] + rest)[..k]) == c.count + Total(rest[..k - 1])
  {
    assert ([c] + rest)[..k] == [c] + rest[..k - 1];
    TotalCons(c, rest[..k - 1]);
  }

  /** What one pass of the loop body does in a state: stop (`failed` when
      the read returned an error), or read a chunk. */
  datatype Outcome = Stop(failed: bool) | Go(chunk: Chunk)

  /** One pass of the loop body with `remaining` bytes still allowed: the
      loop condition, then one `read` into the first `min(remaining, size)`
      bytes of the buffer, then the `n == 0` exit. */
  function Step(reply: Reply, width: nat, remaining: nat, buffer: seq<byte>): Outcome
    requires |buffer| == width
  {
    if remaining == 0 then Stop(false)
    else
      match reply
      case Fault => Stop(true)
      case Data(bytes) =>
        var n := Min(|bytes|, Min(remaining, width));
        if n == 0 then Stop(false)
        else Go(Chunk(bytes[..n] + buffer[n..], n))
  }

  /** What a pass that reads `c` with `left` bytes allowed has done: asked
      for `min(left, size)` bytes, got what the reply allows (at least one),
      and holds the reply's bytes at the front of a buffer of the same
      length. */
  predicate ReadInto(reply: Reply, width: nat, left: nat, c: Chunk) {
    && left > 0
    && reply.Data?
    && 0 < c.count == Taken(reply, Min(left, width))
    && |c.buffer| == width
    && c.buffer[..c.count] == reply.bytes[..c.count]
  }

  /** A pass stops with `failed` exactly on an error reply while bytes are
      still allowed; otherwise it stops only on an exhausted budget or an
      empty read. */
  lemma StepStops(reply: Reply, width: nat, remaining: nat, buffer: seq<byte>, failed: bool)
    requires |buffer| == width && Step(reply, width, remaining, buffer) == Stop(failed)
    ensures failed <==> remaining > 0 && reply.Fault?
    ensures !failed ==> remaining == 0 || (reply.Data? && Taken(reply, Min(remaining, width)) == 0)
  {
  }

  /** A pass that reads leaves the reply's bytes in front and the old bytes
      behind. */
  lemma StepGoes(reply: Reply, width: nat, remaining: nat, buffer: seq<byte>, c: Chunk)
    requires |buffer| == width && Step(reply, width, remaining, buffer) == Go(c)
    ensures ReadInto(reply, width, remaining, c)
    ensures c.buffer[c.count..] == buffer[c.count..]
  {
  }

  /** The loop from call `i` on, with `remaining` bytes still allowed and the
      buffer as the previous pass left it. */
  function Drain(replies: seq<Reply>, i: nat, width: nat, remaining: nat, buffer: seq<byte>): (d: Drained)
    requires |buffer| == width
    ensures Total(d.chunks) <= remaining
    decreases remaining
  {
    match Step(Answer(replies, i), width, remaining, buffer)
    case Stop(failed) => Drained([], failed)
    case Go(c) =>
      StepGoes(Answer(replies, i), width, remaining, buffer, c);
      var rest := Drain(replies, i + 1, width, remaining - c.count, c.buffer);
      TotalCons(c, rest.chunks);
      Drained([c] + rest.chunks, rest.failed)
  }

  /** The buffer pass `k` starts from: the initial one, or the one pass `k - 1` left. */
  function Before(buffer: seq<byte>, chunks: seq<Chunk>, k: nat): seq<byte>
    requires k <= |chunks|
  {
    if k == 0 then buffer else chunks[k - 1].buffer
  }

  /** A pass that reads a chunk is followed by the rest of the loop, from
      the state it leaves. */
  lemma DrainGo(replies: seq<Reply>, i: nat, width: nat, remaining: nat, buffer: seq<byte>, c: Chunk)
    requires |buffer| == width && Step(Answer(replies, i), width, remaining, buffer) == Go(c)
    ensures c.count <= remaining && |c.buffer| == width
    ensures Drain(replies, i, width, remaining, buffer).chunks
      == [c] + Drain(replies, i + 1, width, remaining - c.count, c.buffer).chunks
    ensures Drain(replies, i, width, remaining, buffer).failed
      == Drain(replies, i + 1, width, remaining - c.count, c.buffer).failed
  {
    StepGoes(Answer(replies, i), width, remaining, buffer, c);
  }

  /** A pass that stops ends the loop. */
  lemma DrainStop(replies: seq<Reply>, i: nat, width: nat, remaining: nat, buffer: seq<byte>, failed: bool)
    requires |buffer| == width && Step(Answer(replies, i), width, remaining, buffer) == Stop(failed)
    ensures Drain(replies, i, width, remaining, buffer) == Drained([], failed)
  {
  }

  /** Pass `k` of a loop that read `chunks` is the step taken from the state
      the earlier passes left: the budget less what they consumed, and their
      buffer. */
  predicate Passes(replies: seq<Reply>, i: nat, width: nat, remaining: nat, buffer: seq<byte>, chunks: seq<Chunk>, k: nat) {
    && k < |chunks|
    && Total(chunks[..k]) <= remaining
    && |Before(buffer, chunks, k)| == width
    && Step(Answer(replies, i + k), width, remaining - Total(chunks[..k]), Before(buffer, chunks, k)) == Go(chunks[k])
  }

  lemma {:induction false} DrainChunk(replies: seq<Reply>, i: nat, width: nat, remaining: nat, buffer: seq<byte>, k: nat)
    requires |buffer| == width
    requires k < |Drain(replies, i, width, remaining, buffer).chunks|
    ensures Passes(replies, i, width, remaining, buffer, Drain(replies, i, width, remaining, buffer).chunks, k)
    decreases k
  {
    match Step(Answer(replies, i), width, remaining, buffer)
    case Stop(failed) =>
      DrainStop(replies, i, width, remaining, buffer, failed);
    case Go(c) =>
      DrainGo(replies, i, width, remaining, buffer, c);
      var rest := Drain(replies, i + 1, width, remaining - c.count, c.buffer);
      if k == 0 {
        assert ([c] + rest.chunks)[..0] == [];
      } else {
        assert k - 1 < |rest.chunks|;
        DrainChunk(replies, i + 1, width, remaining - c.count, c.buffer, k - 1);
        PassesCons(replies, i, width, remaining, buffer, c, rest.chunks, k);
      }
  }

  /** Pass `k - 1` of the rest of the loop is pass `k` of the loop. */
  lemma PassesCons(replies: seq<Reply>, i: nat, width: nat, remaining: nat, buffer: seq<byte>, c: Chunk, rest: seq<Chunk>, k: nat)
    requires 0 < k && c.count <= remaining
    requires Passes(replies, i + 1, width, remaining - c.count, c.buffer, rest, k - 1)
    ensures Passes(replies, i, width, remaining, buffer, [c] + rest, k)
  {
    TotalConsPrefix(c, rest, k);
    assert ([c] + rest)[k] == rest[k - 1];
    assert Before(buffer, [c] + rest, k) == Before(c.buffer, rest, k - 1);
    assert (i + 1) + (k - 1) == i + k;
  }

  /** How a loop that made its last read before call `n` ended, with `left`
      of the budget: on an error (reported), on an empty read, or on an
      exhausted budget. */
  predicate Ends(replies: seq<Reply>, n: nat, width: nat, left: nat, failed: bool) {
    var reply := Answer(replies, n);
    && (failed <==> left > 0 && reply.Fault?)
    && (!failed ==> left == 0 || (reply.Data? && Taken(reply, Min(left, width)) == 0))
  }

  /** `d` is a loop from call `i` with `remaining` allowed that ended as
      `Ends` says. */
  predicate Ended(replies: seq<Reply>, i: nat, width: nat, remaining: nat, d: Drained) {
    Total(d.chunks) <= remaining && Ends(replies, i + |d.chunks|, width, remaining - Total(d.chunks), d.failed)
  }

  /** The loop ends on the first call that, with what is left of the budget,
      gets an error (then it reports the error), an empty read, or no budget. */
  lemma {:induction false} DrainStops(replies: seq<Reply>, i: nat, width: nat, remaining: nat, buffer: seq<byte>)
    requires |buffer| == width
    ensures Ended(replies, i, width, remaining, Drain(replies, i, width, remaining, buffer))
    decreases remaining
  {
    match Step(Answer(replies, i), width, remaining, buffer)
    case Stop(failed) =>
      DrainStop(replies, i, width, remaining, buffer, failed);
      StepStops(Answer(replies, i), width, remaining, buffer, failed);
      assert Total([]) == 0;
    case Go(c) =>
      DrainGo(replies, i, width, remaining, buffer, c);
      var rest := Drain(replies, i + 1, width, remaining - c.count, c.buffer);
      DrainStops(replies, i + 1, width, remaining - c.count, c.buffer);
      EndsCons(replies, i, width, remaining, c, rest);
      assert Drain(replies, i, width, remaining, buffer) == Drained([c] + rest.chunks, rest.failed);
  }

  /** The end of the rest of the loop is the end of the loop. */
  lemma EndsCons(replies: seq<Reply>, i: nat, width: nat, remaining: nat, c: Chunk, rest: Drained)
    requires c.count <= remaining
    requires Ended(replies, i + 1, width, remaining - c.count, rest)
    ensures Ended(replies, i, width, remaining, Drained([c] + rest.chunks, rest.failed))
  {
    TotalCons(c, rest.chunks);
    assert (i + 1) + |rest.chunks| == i + |[c] + rest.chunks|;
  }

  /** The reading of pass `k` in the loop's own terms: it found budget left
      after the earlier passes, and read from the reply to call `i + k`. */
  lemma DrainReads(replies: seq<Reply>, i: nat, width: nat, remaining: nat, buffer: seq<byte>, k: nat)
    requires |buffer| == width
    requires k < |Drain(replies, i, width, remaining, buffer).chunks|
    ensures Total(Drain(replies, i, width, remaining, buffer).chunks[..k]) < remaining
    ensures ReadInto(Answer(replies, i + k), width,
                     remaining - Total(Drain(replies, i, width, remaining, buffer).chunks[..k]),
                     Drain(replies, i, width, remaining, buffer).chunks[k])
  {
    DrainChunk(replies, i, width, remaining, buffer, k);
    var d := Drain(replies, i, width, remaining, buffer);
    StepGoes(Answer(replies, i + k), width, remaining - Total(d.chunks[..k]), Before(buffer, d.chunks, k), d.chunks[k]);
  }

  /** The whole loop as every command starts it: a buffer of `width` zeros,
      at most `limit` bytes in all. Every buffer it leaves is as long as the
      one it started with. */
  function Loop(replies: seq<Reply>, width: nat, limit: Option<nat>): (d: Drained)
    ensures Total(d.chunks) <= Budget(limit)
    ensures forall k | 0 <= k < |d.chunks| :: |d.chunks[k].buffer| == width
  {
    DrainBuffers(replies, width, Budget(limit));
    Drain(replies, 0, width, Budget(limit), Zeros(width))
  }

  lemma DrainBuffers(replies: seq<Reply>, width: nat, budget: nat)
    ensures forall k | 0 <= k < |Drain(replies, 0, width, budget, Zeros(width)).chunks| ::
      |Drain(replies, 0, width, budget, Zeros(width)).chunks[k].buffer| == width
  {
    var d := Drain(replies, 0, width, budget, Zeros(width));
    forall k | 0 <= k < |d.chunks|
      ensures |d.chunks[k].buffer| == width
    {
      DrainReads(replies, 0, width, budget, Zeros(width), k);
    }
  }

  /** Where each iteration's bytes begin in the stream: `start` plus the
      bytes consumed before it. */
  function Offsets(chunks: seq<Chunk>, start: nat): (r: seq<nat>)
    ensures |r| == |chunks|
    ensures forall k | 0 <= k < |chunks| :: r[k] == start + Total(chunks[..k])
  {
    if chunks == [] then []
    else
      var init := chunks[..|chunks| - 1];
      var r := Offsets(init, start);
      assert forall k | 0 <= k < |init| :: init[..k] == chunks[..k];
      assert chunks[..|init|] == init;
      r + [start + Total(init)]
  }

  /** Consecutive iterations are contiguous in the stream. */
  lemma OffsetsContiguous(chunks: seq<Chunk>, start: nat, k: nat)
    requires k + 1 < |chunks|
    ensures Offsets(chunks, start)[k + 1] == Offsets(chunks, start)[k] + chunks[k].count
  {
    assert chunks[..k + 1] == chunks[..k] + [chunks[k]];
    TotalSnoc(chunks[..k], chunks[k]);
  }

  /** The bytes the loop consumed, in stream order. */
  function Stream(chunks: seq<Chunk>): (r: seq<byte>)
    requires forall k | 0 <= k < |chunks| :: chunks[k].count <= |chunks[k].buffer|
    ensures |r| == Total(chunks)
  {
    if chunks == [] then []
    else
      var init := chunks[..|chunks| - 1];
      var last := chunks[|chunks| - 1];
      assert Total(chunks) == Total(init) + last.count by {
        assert chunks == init + [last];
        TotalSnoc(init, last);
      }
      Stream(init) + last.buffer[..last.count]
  }
}

=== FILE: tui_app.dfy ===
/** src/cli/cmd/tui/app.rs: the state of the older full-screen viewer, its
    ingestion loop and its one key binding. Rendering is left out. */
module TuiApp {
  import opened Base
  import Reading
  import ViewCmd
  import TuiRow
  import Keys

  datatype App = App(data: seq<TuiRow.Row>, totalBytes: nat, size: nat, exit: bool)

  /** The rows `parse` pushes for the reads `chunks`: one per read, each
      with the read's whole buffer, its count, and the same `offset` and
      group size. */
  function ParsedRows(chunks: seq<Reading.Chunk>, offset: nat, groupSize: nat): (r: seq<TuiRow.Row>)
    ensures |r| == |chunks|
  {
    if chunks == [] then []
    else
      [TuiRow.Parse(chunks[0].buffer, offset, groupSize, chunks[0].count)]
      + ParsedRows(chunks[1..], offset, groupSize)
  }

  lemma ParsedRowsCons(c: Reading.Chunk, rest: seq<Reading.Chunk>, offset: nat, groupSize: nat)
    ensures ParsedRows([c] + rest, offset, groupSize)
      == [TuiRow.Parse(c.buffer, offset, groupSize, c.count)] + ParsedRows(rest, offset, groupSize)
  {
    assert ([c] + rest)[1..] == rest;
  }

  /** Row `k` carries read `k`'s buffer and count, and the offset `parse`
      was given, whatever was read before it. */
  lemma {:induction false} ParsedRowAt(chunks: seq<Reading.Chunk>, offset: nat, groupSize: nat, k: nat)
    requires k < |chunks|
    ensures ParsedRows(chunks, offset, groupSize)[k]
      == TuiRow.Row(chunks[k].buffer, offset, groupSize, chunks[k].count)
  {
    if k > 0 {
      ParsedRowAt(chunks[1..], offset, groupSize, k - 1);
    }
  }

  /** Mid-way through `parse`: the rows and byte count the whole loop `d`
      adds to `prior` and `base` are the ones already pushed (`data`,
      `totalBytes`) followed by the ones the loop resumed at call `i` will
      push; and that resumed loop ends the way `d` does. */
  predicate Remains(d: Reading.Drained, replies: seq<Reading.Reply>, i: nat, size: nat, remaining: nat,
                    buffer: seq<byte>, prior: seq<TuiRow.Row>, base: nat, offset: nat, groupSize: nat,
                    data: seq<TuiRow.Row>, totalBytes: nat)
  {
    && |buffer| == size
    && d.failed == Reading.Drain(replies, i, size, remaining, buffer).failed
    && prior + ParsedRows(d.chunks, offset, groupSize)
       == data + ParsedRows(Reading.Drain(replies, i, size, remaining, buffer).chunks, offset, groupSize)
    && base + Reading.Total(d.chunks)
       == totalBytes + Reading.Total(Reading.Drain(replies, i, size, remaining, buffer).chunks)
  }

  /** A pass that reads `c` pushes its row and counts its bytes. */
  lemma ParseGo(d: Reading.Drained, replies: seq<Reading.Reply>, i: nat, size: nat, remaining: nat,
                buffer: seq<byte>, prior: seq<TuiRow.Row>, base: nat, offset: nat, groupSize: nat,
                data: seq<TuiRow.Row>, totalBytes: nat, c: Reading.Chunk)
    requires Remains(d, replies, i, size, remaining, buffer, prior, base, offset, groupSize, data, totalBytes)
    requires Reading.Step(Reading.Answer(replies, i), size, remaining, buffer) == Reading.Go(c)
    ensures c.count <= remaining
    ensures Remains(d, replies, i + 1, size, remaining - c.count, c.buffer, prior, base, offset, groupSize,
                    data + [TuiRow.Parse(c.buffer, offset, groupSize, c.count)], totalBytes + c.count)
  {
    Reading.DrainGo(replies, i, size, remaining, buffer, c);
    var rest := Reading.Drain(replies, i + 1, size, remaining - c.count, c.buffer).chunks;
    ParsedRowsCons(c, rest, offset, groupSize);
    Reading.TotalCons(c, rest);
    var row := TuiRow.Parse(c.buffer, offset, groupSize, c.count);
    assert data + ([row] + ParsedRows(rest, offset, groupSize))
      == (data + [row]) + ParsedRows(rest, offset, groupSize);
  }

  /** A pass that stops ends the loop with everything pushed. */
  lemma ParseStop(d: Reading.Drained, replies: seq<Reading.Reply>, i: nat, size: nat, remaining: nat,
                  buffer: seq<byte>, prior: seq<TuiRow.Row>, base: nat, offset: nat, groupSize: nat,
                  data: seq<TuiRow.Row>, totalBytes: nat, failed: bool)
    requires Remains(d, replies, i, size, remaining, buffer, prior, base, offset, groupSize, data, totalBytes)
    requires Reading.Step(Reading.Answer(replies, i), size, remaining, buffer) == Reading.Stop(failed)
    ensures d.failed == failed
    ensures data == prior + ParsedRows(d.chunks, offset, groupSize)
    ensures totalBytes == base + Reading.Total(d.chunks)
  {
    assert data + [] == data;
  }

  /** `App::parse`: the row size is taken from the configuration, then the
      reading loop runs, one pass of its body being `Reading.Step`, and
      pushes a row per read. The state is returned even when a read fails
      (`ok` false), with the rows pushed before the error. */
  method Parse(app: App, cfg: ViewCmd.View, replies: seq<Reading.Reply>, offset: nat) returns (res: App, ok: bool)
    ensures ok == !Reading.Loop(replies, cfg.size, cfg.limit).failed
    ensures res.size == cfg.size && res.exit == app.exit
    ensures res.data == app.data + ParsedRows(Reading.Loop(replies, cfg.size, cfg.limit).chunks, offset, cfg.groupSize)
    ensures res.totalBytes == app.totalBytes + Reading.Total(Reading.Loop(replies, cfg.size, cfg.limit).chunks)
  {
    var size: nat := cfg.size;
    var buffer := Zeros(size);
    var bytesRemaining: nat := Reading.Budget(cfg.limit);
    var i: nat := 0;
    ghost var d := Reading.Loop(replies, size, cfg.limit);
    var data := app.data;
    var totalBytes: nat := app.totalBytes;
    while true
      invariant Remains(d, replies, i, size, bytesRemaining, buffer, app.data, app.totalBytes, offset,
                        cfg.groupSize, data, totalBytes)
      decreases bytesRemaining
    {
      match Reading.Step(Reading.Answer(replies, i), size, bytesRemaining, buffer)
      case Stop(failed) =>
        ParseStop(d, replies, i, size, bytesRemaining, buffer, app.data, app.totalBytes, offset,
                  cfg.groupSize, data, totalBytes, failed);
        return App(data, totalBytes, size, app.exit), !failed;
      case Go(c) =>
        ParseGo(d, replies, i, size, bytesRemaining, buffer, app.data, app.totalBytes, offset,
                cfg.groupSize, data, totalBytes, c);
        data := data + [TuiRow.Parse(c.buffer, offset, cfg.groupSize, c.count)];
        totalBytes := totalBytes + c.count;
        bytesRemaining := bytesRemaining - c.count;
        buffer := c.buffer;
        i := i + 1;
    }
  }

  /** `handle_key_event`: only `q` does anything, and it only sets `exit`. */
  function HandleKeyEvent(app: App, key: Keys.KeyEvent): (r: App)
    ensures key.code == Keys.Char('q') ==> r == app.(exit := true)
    ensures key.code != Keys.Char('q') ==> r == app
  {
    match key.code
    case Char(c) => if c == 'q' then Exit(app) else app
    case _ => app
  }

  /** `exit`. */
  function Exit(app: App): (r: App)
    ensures r.exit && r.(exit := app.exit) == app
  {
    app.(exit := true)
  }
  /** `handle_events` for one terminal event: only key presses reach
      `handle_key_event`, so a release or repeat of `q`, or a non-key event,
      leaves the app as it was. */
  function HandleEvents(app: App, e: Keys.Event): (r: App)
    ensures !(e.Key? && e.key.kind == Keys.Press) ==> r == app
    ensures r.exit <==> app.exit || (e.Key? && e.key.kind == Keys.Press && e.key.code == Keys.Char('q'))
    ensures r == app.(exit := r.exit)
  {
    match Keys.Pressed(e)
    case None => app
    case Some(key) => HandleKeyEvent(app, key)
  }

  /** The `run` loop over a session's events: one event per pass until
      `exit` is set (or the session has no more events). Drawing is left
      out. Nothing but `exit` ever changes. */
  function Run(app: App, events: seq<Keys.Event>): (r: App)
    ensures r == app.(exit := r.exit)
    decreases |events|
  {
    if app.exit || events == [] then app
    else Run(HandleEvents(app, events[0]), events[1..])
  }

  /** A pressed `q`. */
  predicate QuitPressed(e: Keys.Event) {
    Keys.Pressed(e).Some? && e.key.code == Keys.Char('q')
  }

  /** A session ends with `exit` set exactly when it was set already or
      one of its events is a press of `q`. */
  lemma {:induction false} RunExits(app: App, events: seq<Keys.Event>)
    ensures Run(app, events).exit <==> app.exit || exists k | 0 <= k < |events| :: QuitPressed(events[k])
    decreases |events|
  {
    if !app.exit && events != [] {
      var next := HandleEvents(app, events[0]);
      RunExits(next, events[1..]);
      if exists k | 0 <= k < |events[1..]| :: QuitPressed(events[1..][k]) {
        var k :| 0 <= k < |events[1..]| && QuitPressed(events[1..][k]);
        assert QuitPressed(events[k + 1]);
      }
      if exists k | 0 <= k < |events| :: QuitPressed(events[k]) {
        var k :| 0 <= k < |events| && QuitPressed(events[k]);
        if k > 0 {
          assert QuitPressed(events[1..][k - 1]);
        }
      }
    }
  }
}

=== FILE: tui_events.dfy ===
/** src/cli/cmd/tui/events.rs: an older four-direction navigation. It is
    written against an application state with a selection, a row size and
    a byte count, which the viewer state of src/cli/cmd/tui/app.rs does not
    have, and src/cli/cmd/tui/mod.rs does not declare it; it is modelled
    over a state of its own. The two horizontal handlers have swapped
    names: Right calls `move_selection_left`, which increments the
    selection, and Left calls `move_selection_right`, which decrements it,
    so each key moves the way its label says. */
module TuiEvents {
  import opened Base
  import opened Keys

  /** The fields the handlers read and write: `cfg.size`, `total_bytes`,
      `selected` and `exit`. */
  datatype Nav = Nav(size: nat, totalBytes: nat, selected: nat, exit: bool)

  /** `move_selection_up`: one row back, only when the selection is past
      the first row's width (a strict test). */
  function MoveSelectionUp(nav: Nav): (r: Nav)
    ensures r == nav.(selected := r.selected)
    ensures nav.selected > nav.size ==> r.selected + nav.size == nav.selected
    ensures nav.selected <= nav.size ==> r == nav
  {
    if nav.selected > nav.size then nav.(selected := nav.selected - nav.size) else nav
  }

  /** `move_selection_right`: one byte back, unless at the first byte. */
  function MoveSelectionRight(nav: Nav): (r: Nav)
    ensures r == nav.(selected := r.selected)
    ensures r.selected == SaturatingSub(nav.selected, 1)
  {
    if nav.selected > 0 then nav.(selected := nav.selected - 1) else nav
  }

  /** `move_selection_down`: one row on, while that stays before
      `total_bytes`. */
  function MoveSelectionDown(nav: Nav): (r: Nav)
    ensures r == nav.(selected := r.selected)
    ensures nav.selected + nav.size < nav.totalBytes ==> r.selected == nav.selected + nav.size
    ensures nav.selected + nav.size >= nav.totalBytes ==> r == nav
  {
    if nav.selected + nav.size < nav.totalBytes then nav.(selected := nav.selected + nav.size) else nav
  }

  /** `move_selection_left`: one byte on, while before the last byte.
      `total_bytes - 1` underflows when there are no bytes, which is a
      panic (`None`) in a debug build. */
  function MoveSelectionLeft(nav: Nav): (r: Option<Nav>)
    ensures r.None? <==> nav.totalBytes == 0
    ensures r.Some? ==> r.value == nav.(selected := r.value.selected)
    ensures r.Some? ==>
      r.value.selected == if nav.selected + 1 < nav.totalBytes then nav.selected + 1 else nav.selected
  {
    if nav.totalBytes == 0 then None
    else if nav.selected < nav.totalBytes - 1 then Some(nav.(selected := nav.selected + 1))
    else Some(nav)
  }

  /** `exit`. */
  function Exit(nav: Nav): (r: Nav)
    ensures r.exit && r.(exit := nav.exit) == nav
  {
    nav.(exit := true)
  }

  /** `handle_key_event`; `None` is a handler that panics. */
  function HandleKeyEvent(nav: Nav, key: KeyEvent): (r: Option<Nav>)
    ensures r.Some? ==> r.value.size == nav.size && r.value.totalBytes == nav.totalBytes
    ensures r.None? ==> key.code == Right && nav.totalBytes == 0
  {
    match key.code
    case Char(c) => if c == 'q' then Some(Exit(nav)) else Some(nav)
    case Up => Some(MoveSelectionUp(nav))
    case Right => MoveSelectionLeft(nav)
    case Down => Some(MoveSelectionDown(nav))
    case Left => Some(MoveSelectionRight(nav))
    case _ => Some(nav)
  }

  /** The Right key increments and the Left key decrements, each only
      within the bytes there are. */
  lemma ArrowKeysMoveAsLabelled(nav: Nav, mods: set<Modifier>, kind: KeyKind)
    requires nav.totalBytes > 0
    ensures HandleKeyEvent(nav, KeyEvent(Right, mods, kind)).value.selected
      == if nav.selected + 1 < nav.totalBytes then nav.selected + 1 else nav.selected
    ensures HandleKeyEvent(nav, KeyEvent(Left, mods, kind)).value.selected
      == if nav.selected > 0 then nav.selected - 1 else nav.selected
  {
  }

  /** The selection is on one of the bytes. */
  predicate InRange(nav: Nav) {
    nav.selected < nav.totalBytes
  }

  /** Every key keeps the selection on one of the bytes. */
  lemma KeyKeepsInRange(nav: Nav, key: KeyEvent)
    requires InRange(nav)
    ensures HandleKeyEvent(nav, key).Some?
    ensures InRange(HandleKeyEvent(nav, key).value)
  {
  }

  /** `q` sets `exit` and changes nothing else; no other key sets it. */
  lemma QuitOnly(nav: Nav, key: KeyEvent)
    requires !nav.exit && HandleKeyEvent(nav, key).Some?
    ensures HandleKeyEvent(nav, key).value.exit <==> key.code == Char('q')
    ensures key.code == Char('q') ==> HandleKeyEvent(nav, key) == Some(nav.(exit := true))
  {
  }

  /** Up undoes a Down that moved, except from the first byte: Down from
      0 lands on `size`, where the strict test keeps Up from moving. */
  lemma UpUndoesDown(nav: Nav)
    requires nav.selected + nav.size < nav.totalBytes
    ensures MoveSelectionUp(MoveSelectionDown(nav)).selected == nav.selected <==> nav.selected > 0 || nav.size == 0
  {
  }
  /** `handle_events` for one terminal event: only key presses reach
      `handle_key_event`, and the only panic is a pressed Right over empty
      data. */
  function HandleEvents(nav: Nav, e: Event): (r: Option<Nav>)
    ensures !(e.Key? && e.key.kind == Press) ==> r == Some(nav)
    ensures e.Key? && e.key.kind == Press ==> r == HandleKeyEvent(nav, e.key)
    ensures r.None? <==> e.Key? && e.key.kind == Press && e.key.code == Right && nav.totalBytes == 0
    ensures r.Some? ==> r.value.size == nav.size && r.value.totalBytes == nav.totalBytes
  {
    match Pressed(e)
    case None => Some(nav)
    case Some(key) => HandleKeyEvent(nav, key)
  }
}

=== FILE: tui_row.dfy ===
/** src/cli/cmd/tui/row.rs: one line of the older full-screen viewer. The
    row keeps the whole buffer it was read into, the offset and group size
    it was given, and how many bytes of the buffer the read filled. Its
    columns are never painted and always use the lower-case hex format. */
module TuiRow {
  import opened Base
  import opened UtilsFormat
  import Numerals
  import Columns
  import DumpCells

  datatype Row = Row(data: seq<byte>, offset: nat, groupSize: nat, bytesRead: nat)

  /** `Row::parse`: a copy of the whole buffer and the three numbers, as
      given. */
  function Parse(buffer: seq<byte>, offset: nat, groupSize: nat, bytesRead: nat): (r: Row)
    ensures r.data == buffer && r.offset == offset && r.groupSize == groupSize && r.bytesRead == bytesRead
  {
    Row(buffer, offset, groupSize, bytesRead)
  }

  /** `format_offset`: a space, five middle dots and the three octal digits
      of `offset as u8`. The digits are always three, so the `len() > 8`
      branch is never taken. */
  function FormatOffset(row: Row): (r: string)
    ensures |r| == 9 && r[..6] == [' '] + RepeatChar(DumpCells.DOT, 5)
    ensures forall i | 6 <= i < 9 :: Numerals.IsDigitOf(r[i], 8, false)
    ensures Numerals.Value(r[6..], 8) == row.offset % 256
  {
    var res := FormatByte(Octal, row.offset % 256);
    FormatDecodes(Octal, row.offset % 256);
    if |res| > 8 then res
    else
      var r := [' '] + RepeatChar(DumpCells.DOT, 8 - |res|) + res;
      assert r[6..] == res;
      r
  }

  /** `format_hex_values`: the written bytes, then the blank slots, each
      preceded by a space at a group start. */
  function FormatHexValues(row: Row): (r: string)
    requires Columns.GroupOk(|row.data|, row.groupSize)
    ensures |r| == |row.data| * 3 + Columns.Seps(|row.data|, row.groupSize)
  {
    var cells := DumpCells.HexCells(row.data, row.bytesRead, Hex, false);
    DumpCells.HexCellsUniform(row.data, row.bytesRead, Hex);
    Columns.UniformWidth(cells, 3);
    Columns.Join(cells, row.groupSize, " ")
  }

  /** Where slot `k` of either column begins, for cells `w` wide. */
  function Slot(row: Row, k: nat, w: nat): nat
    requires Columns.GroupOk(k + 1, row.groupSize)
  {
    Columns.Start(k, w, row.groupSize, 1)
  }

  /** Slot `k` of the hex column holds the cell of byte `k`: its two
      lower-case digits and a space when it was read, three spaces
      otherwise. */
  lemma HexCellAt(row: Row, k: nat)
    requires Columns.GroupOk(|row.data|, row.groupSize) && k < |row.data|
    ensures Slot(row, k, 3) + 3 <= |FormatHexValues(row)|
    ensures FormatHexValues(row)[Slot(row, k, 3)..Slot(row, k, 3) + 3]
         == if k < row.bytesRead then FormatByte(Hex, row.data[k]) + " " else "   "
  {
    var cells := DumpCells.HexCells(row.data, row.bytesRead, Hex, false);
    DumpCells.HexCellsAt(row.data, row.bytesRead, Hex, false, k);
    DumpCells.HexCellsUniform(row.data, row.bytesRead, Hex);
    Columns.JoinCell(cells, row.groupSize, " ", 3, k);
  }

  /** A byte `k` that was read appears at its slot as two lower-case hex
      digits that read back as the byte, followed by a space. */
  lemma HexColumnWritten(row: Row, k: nat)
    requires Columns.GroupOk(|row.data|, row.groupSize) && k < |row.data| && k < row.bytesRead
    ensures Slot(row, k, 3) + 3 <= |FormatHexValues(row)|
    ensures FormatHexValues(row)[Slot(row, k, 3)..Slot(row, k, 3) + 2] == FormatByte(Hex, row.data[k])
    ensures FormatHexValues(row)[Slot(row, k, 3) + 2] == ' '
    ensures Numerals.Value(FormatHexValues(row)[Slot(row, k, 3)..Slot(row, k, 3) + 2], 16) == row.data[k]
  {
    var r := FormatHexValues(row);
    var p := Slot(row, k, 3);
    HexCellAt(row, k);
    DumpCells.HexCellText(r, p, Hex, row.data[k]);
  }

  /** A slot at or past `bytes_read` is three spaces. */
  lemma HexColumnPadding(row: Row, k: nat)
    requires Columns.GroupOk(|row.data|, row.groupSize) && row.bytesRead <= k < |row.data|
    ensures Slot(row, k, 3) + 3 <= |FormatHexValues(row)|
    ensures FormatHexValues(row)[Slot(row, k, 3)..Slot(row, k, 3) + 3] == "   "
  {
    HexCellAt(row, k);
  }

  /** `format_ascii_representation`: one character per slot, each preceded
      by a space at a group start. */
  function FormatAsciiRepresentation(row: Row): (r: string)
    requires Columns.GroupOk(|row.data|, row.groupSize)
    ensures |r| == |row.data| + Columns.Seps(|row.data|, row.groupSize)
  {
    var cells := DumpCells.AsciiCells(row.data, row.bytesRead, false, false);
    DumpCells.AsciiCellsUniform(row.data, row.bytesRead, false);
    Columns.UniformWidth(cells, 1);
    Columns.Join(cells, row.groupSize, " ")
  }

  /** Slot `k` of the ASCII column: the byte itself when read and
      printable, the dot when read and unprintable, a space otherwise. */
  lemma AsciiColumnSlots(row: Row, k: nat)
    requires Columns.GroupOk(|row.data|, row.groupSize) && k < |row.data|
    ensures Slot(row, k, 1) < |FormatAsciiRepresentation(row)|
    ensures k < row.bytesRead && DumpCells.Printable(row.data[k], false) ==>
      FormatAsciiRepresentation(row)[Slot(row, k, 1)] as int == row.data[k]
    ensures k < row.bytesRead && !DumpCells.Printable(row.data[k], false) ==>
      FormatAsciiRepresentation(row)[Slot(row, k, 1)] == DumpCells.DOT
    ensures k >= row.bytesRead ==> FormatAsciiRepresentation(row)[Slot(row, k, 1)] == ' '
  {
    var cells := DumpCells.AsciiCells(row.data, row.bytesRead, false, false);
    DumpCells.AsciiCellsUniform(row.data, row.bytesRead, false);
    DumpCells.AsciiCellsAt(row.data, row.bytesRead, false, false, k);
    Columns.JoinCell(cells, row.groupSize, " ", 1, k);
    var r := FormatAsciiRepresentation(row);
    var p := Slot(row, k, 1);
    assert r[p..p + 1] == cells[k];
    assert r[p] == cells[k][0];
  }

  /** The hex and ASCII columns put a group separator before the same
      slots: slot `k` of either sits after `k` cells and as many separators. */
  lemma SlotsAligned(row: Row, k: nat)
    requires Columns.GroupOk(k + 1, row.groupSize)
    ensures Slot(row, k, 3) - 3 * k == Slot(row, k, 1) - k == Columns.Seps(k + 1, row.groupSize)
  {
  }

  /** `to_string`: the three columns between bars. */
  function ToString(row: Row): (r: string)
    requires Columns.GroupOk(|row.data|, row.groupSize)
  {
    DumpCells.BoxedRow(FormatOffset(row), FormatHexValues(row), FormatAsciiRepresentation(row))
  }

  /** `to_string` for every group size: a group size of 0 divides by zero,
      and panics (`None`), once the hex column reaches its second slot. */
  function GuardedToString(row: Row): (r: Option<string>)
    ensures r.None? <==> row.groupSize == 0 && |row.data| >= 2
    ensures r.Some? ==> Columns.GroupOk(|row.data|, row.groupSize) && r.value == ToString(row)
  {
    if Columns.GroupOk(|row.data|, row.groupSize) then Some(ToString(row)) else None
  }

  /** The line is as wide as its columns and five separating spaces, with
      bars at the left edge, after the offset, after the hex column and at
      the right edge. */
  lemma ToStringBars(row: Row)
    requires Columns.GroupOk(|row.data|, row.groupSize)
    ensures |ToString(row)| == 19 + |FormatHexValues(row)| + |FormatAsciiRepresentation(row)|
    ensures ToString(row)[0] == DumpCells.BAR && ToString(row)[12] == DumpCells.BAR
    ensures ToString(row)[15 + |FormatHexValues(row)|] == DumpCells.BAR
    ensures ToString(row)[18 + |FormatHexValues(row)| + |FormatAsciiRepresentation(row)|] == DumpCells.BAR
  {
    DumpCells.Boxed(FormatOffset(row), FormatHexValues(row), FormatAsciiRepresentation(row));
  }

  /** Between the bars, each column of the line can be read back at its
      place. */
  lemma ToStringParts(row: Row)
    requires Columns.GroupOk(|row.data|, row.groupSize)
    ensures |ToString(row)| == 19 + |FormatHexValues(row)| + |FormatAsciiRepresentation(row)|
    ensures ToString(row)[2..11] == FormatOffset(row)
    ensures ToString(row)[14..14 + |FormatHexValues(row)|] == FormatHexValues(row)
    ensures ToString(row)[17 + |FormatHexValues(row)|..17 + |FormatHexValues(row)| + |FormatAsciiRepresentation(row)|]
         == FormatAsciiRepresentation(row)
  {
    DumpCells.BoxedParts(FormatOffset(row), FormatHexValues(row), FormatAsciiRepresentation(row));
  }
}

=== FILE: utils_format.dfy ===
/** The output formats of src/utils/format.rs: the `Format` enum, its
    `From<String>` alias table, `Format::format` (one byte to text) and
    `Format::size` (the width of that text). */
module UtilsFormat {
  import opened Base
  import Numerals

  datatype Format =
    | Hex | HexWithPrefix
    | UpperHex | UpperHexWithPrefix
    | Binary | BinaryWithPrefix
    | Octal | OctalWithPrefix
    | Decimal

  /** `Format::from(String)`. `None` stands for the `panic!("Invalid output format")`. */
  function FromString(s: string): Option<Format> {
    if s == "hex" || s == "x" || s == "hexadecimal" then Some(Hex)
    else if s == "#hex" || s == "#x" || s == "#hexadecimal" then Some(HexWithPrefix)
    else if s == "HEX" || s == "X" || s == "Hex" || s == "Hexadecimal" then Some(UpperHex)
    else if s == "#HEX" || s == "#X" || s == "#Hex" || s == "#Hexadecimal" then Some(UpperHexWithPrefix)
    else if s == "binary" || s == "b" || s == "bin" then Some(Binary)
    else if s == "#binary" || s == "#b" || s == "#bin" then Some(BinaryWithPrefix)
    else if s == "octal" || s == "o" || s == "oct" then Some(Octal)
    else if s == "#octal" || s == "#o" || s == "#oct" then Some(OctalWithPrefix)
    else if s == "decimal" || s == "d" || s == "dec" then Some(Decimal)
    else None
  }

  /** `Format::size`: the number of characters `format` produces. */
  function Size(f: Format): nat {
    match f
    case Hex => 2
    case HexWithPrefix => 4
    case UpperHex => 2
    case UpperHexWithPrefix => 4
    case Binary => 8
    case BinaryWithPrefix => 10
    case Octal => 3
    case OctalWithPrefix => 5
    case Decimal => 3
  }

  /** The numeral base a variant writes in. */
  function Radix(f: Format): nat {
    match f
    case Hex | HexWithPrefix | UpperHex | UpperHexWithPrefix => 16
    case Binary | BinaryWithPrefix => 2
    case Octal | OctalWithPrefix => 8
    case Decimal => 10
  }

  /** The alternate-form prefix `{:#..}` adds; Rust writes it lower-case even for `{:#X}`. */
  function Prefix(f: Format): string {
    match f
    case HexWithPrefix | UpperHexWithPrefix => "0x"
    case BinaryWithPrefix => "0b"
    case OctalWithPrefix => "0o"
    case _ => ""
  }

  predicate IsUpper(f: Format) {
    f == UpperHex || f == UpperHexWithPrefix
  }

  /** The variant a prefixed variant adds its prefix to. */
  function Unprefixed(f: Format): Format {
    match f
    case HexWithPrefix => Hex
    case UpperHexWithPrefix => UpperHex
    case BinaryWithPrefix => Binary
    case OctalWithPrefix => Octal
    case _ => f
  }

  /** `Format::format(data)`: the `format!` string of each variant written out;
      the padded width of `{:#04x}` and friends includes the prefix. */
  function FormatByte(f: Format, b: byte): (r: string)
    ensures |r| == Size(f)
  {
    match f
    case Hex => Numerals.Digits(b, 16, 2, false)
    case HexWithPrefix => "0x" + Numerals.Digits(b, 16, 2, false)
    case UpperHex => Numerals.Digits(b, 16, 2, true)
    case UpperHexWithPrefix => "0x" + Numerals.Digits(b, 16, 2, true)
    case Binary => Numerals.Digits(b, 2, 8, false)
    case BinaryWithPrefix => "0b" + Numerals.Digits(b, 2, 8, false)
    case Octal => Numerals.Digits(b, 8, 3, false)
    case OctalWithPrefix => "0o" + Numerals.Digits(b, 8, 3, false)
    case Decimal => Numerals.Digits(b, 10, 3, false)
  }

  /** Every rendering is its prefix followed by digits of the variant's base,
      in the variant's letter case, that read back as the byte. */
  lemma FormatDecodes(f: Format, b: byte)
    ensures |Prefix(f)| <= Size(f)
    ensures FormatByte(f, b)[..|Prefix(f)|] == Prefix(f)
    ensures Numerals.Value(FormatByte(f, b)[|Prefix(f)|..], Radix(f)) == b
    ensures forall i | |Prefix(f)| <= i < Size(f) :: Numerals.IsDigitOf(FormatByte(f, b)[i], Radix(f), IsUpper(f))
  {
    FormatByteShape(f, b);
    ByteFits(f, b);
    Numerals.DigitsRoundTrip(b, Radix(f), Size(f) - |Prefix(f)|, IsUpper(f));
    PrefixedDigits(FormatByte(f, b), Prefix(f), Numerals.Digits(b, Radix(f), Size(f) - |Prefix(f)|, IsUpper(f)),
                   Radix(f), IsUpper(f), b);
  }

  /** Wherever a rendering of `b` is found in a text, its digits after the
      prefix read back as `b`. */
  lemma DigitsAt(r: string, p: nat, f: Format, b: byte)
    requires p + Size(f) <= |r| && r[p..p + Size(f)] == FormatByte(f, b)
    ensures Numerals.Value(r[p + |Prefix(f)|..p + Size(f)], Radix(f)) == b
  {
    FormatDecodes(f, b);
    assert r[p + |Prefix(f)|..p + Size(f)] == r[p..p + Size(f)][|Prefix(f)|..];
  }

  /** A prefix followed by digits that read as `v` splits back into the two. */
  lemma PrefixedDigits(r: string, p: string, d: string, base: nat, upper: bool, v: nat)
    requires r == p + d && Numerals.Value(d, base) == v
    requires forall i | 0 <= i < |d| :: Numerals.IsDigitOf(d[i], base, upper)
    ensures r[..|p|] == p && Numerals.Value(r[|p|..], base) == v
    ensures forall i | |p| <= i < |r| :: Numerals.IsDigitOf(r[i], base, upper)
  {
    assert r[|p|..] == d;
    assert forall i | |p| <= i < |r| :: r[i] == d[i - |p|];
  }

  /** Every variant writes its prefix and then `size()` less the prefix
      digits, zero-padded. */
  lemma FormatByteShape(f: Format, b: byte)
    ensures |Prefix(f)| <= Size(f) && 2 <= Radix(f) <= 16
    ensures FormatByte(f, b) == Prefix(f) + Numerals.Digits(b, Radix(f), Size(f) - |Prefix(f)|, IsUpper(f))
  {
  }

  /** The digits of every variant are enough for any byte. */
  lemma ByteFits(f: Format, b: byte)
    ensures |Prefix(f)| <= Size(f) && b < Numerals.Pow(Radix(f), Size(f) - |Prefix(f)|)
  {
    assert Numerals.Pow(16, 2) == 256;
    assert Numerals.Pow(2, 8) == 256;
    assert Numerals.Pow(8, 3) == 512;
    assert Numerals.Pow(10, 3) == 1000;
  }

  /** A prefixed variant is its prefix in front of the unprefixed rendering. */
  lemma PrefixedVariants(f: Format, b: byte)
    ensures FormatByte(f, b) == Prefix(f) + FormatByte(Unprefixed(f), b)
    ensures Size(f) == |Prefix(f)| + Size(Unprefixed(f))
  {
  }

  /** The bare spellings of each base, in the order of the `match` arms. */
  function BareNames(f: Format): seq<string> {
    match f
    case Hex | HexWithPrefix => ["hex", "x", "hexadecimal"]
    case UpperHex | UpperHexWithPrefix => ["HEX", "X", "Hex", "Hexadecimal"]
    case Binary | BinaryWithPrefix => ["binary", "b", "bin"]
    case Octal | OctalWithPrefix => ["octal", "o", "oct"]
    case Decimal => ["decimal", "d", "dec"]
  }

  /** Every name with a leading '#'. */
  function Hashed(names: seq<string>): (r: seq<string>)
    ensures |r| == |names|
    ensures forall i | 0 <= i < |names| :: r[i] == "#" + names[i]
  {
    if names == [] then [] else ["#" + names[0]] + Hashed(names[1..])
  }

  /** The accepted spellings of each variant: the bare names of its base,
      each with a leading '#' for a prefixed variant. */
  function Names(f: Format): seq<string> {
    if Prefix(f) == "" then BareNames(f) else Hashed(BareNames(f))
  }

  /** The names of each variant written out. */
  lemma NamesListed(f: Format)
    ensures Names(f) == match f
      case Hex => ["hex", "x", "hexadecimal"]
      case HexWithPrefix => ["#hex", "#x", "#hexadecimal"]
      case UpperHex => ["HEX", "X", "Hex", "Hexadecimal"]
      case UpperHexWithPrefix => ["#HEX", "#X", "#Hex", "#Hexadecimal"]
      case Binary => ["binary", "b", "bin"]
      case BinaryWithPrefix => ["#binary", "#b", "#bin"]
      case Octal => ["octal", "o", "oct"]
      case OctalWithPrefix => ["#octal", "#o", "#oct"]
      case Decimal => ["decimal", "d", "dec"]
  {
    match f
    case HexWithPrefix =>
      assert "#" + "hex" == "#hex" && "#" + "x" == "#x" && "#" + "hexadecimal" == "#hexadecimal";
    case UpperHexWithPrefix =>
      assert "#" + "HEX" == "#HEX" && "#" + "X" == "#X" && "#" + "Hex" == "#Hex";
      assert "#" + "Hexadecimal" == "#Hexadecimal";
    case BinaryWithPrefix =>
      assert "#" + "binary" == "#binary" && "#" + "b" == "#b" && "#" + "bin" == "#bin";
    case OctalWithPrefix =>
      assert "#" + "octal" == "#octal" && "#" + "o" == "#o" && "#" + "oct" == "#oct";
    case _ =>
  }

  /** The alias table: a string selects a variant exactly when it is one of
      that variant's names, so '#' in front of a bare name selects the
      prefixed variant, and every other string is refused. */
  lemma FromStringMatchesNames(s: string, f: Format)
    ensures FromString(s) == Some(f) <==> s in Names(f)
  {
    NamesListed(f);
    if FromString(s) == Some(f) {
      FromStringSound(s, f);
    }
    if s in Names(f) {
      FromStringComplete(s, f);
    }
  }

  lemma FromStringSound(s: string, f: Format)
    requires FromString(s) == Some(f)
    ensures s in Names(f)
  {
    NamesListed(f);
  }

  lemma FromStringComplete(s: string, f: Format)
    requires s in Names(f)
    ensures FromString(s) == Some(f)
  {
    NamesSelect(f);
  }

  /** Each name of each variant selects it. */
  lemma NamesSelect(f: Format)
    ensures forall n | n in Names(f) :: FromString(n) == Some(f)
  {
    NamesListed(f);
    match f
    case Hex => SelectsHex();
    case HexWithPrefix => SelectsHexWithPrefix();
    case UpperHex => SelectsUpperHex();
    case UpperHexWithPrefix => SelectsUpperHexWithPrefix();
    case Binary => SelectsBinary();
    case BinaryWithPrefix => SelectsBinaryWithPrefix();
    case Octal => SelectsOctal();
    case OctalWithPrefix => SelectsOctalWithPrefix();
    case Decimal => SelectsDecimal();
  }

  lemma SelectsHex()
    ensures FromString("hex") == FromString("x") == FromString("hexadecimal") == Some(Hex)
  {
  }

  lemma SelectsHexWithPrefix()
    ensures FromString("#hex") == FromString("#x") == FromString("#hexadecimal") == Some(HexWithPrefix)
  {
  }

  lemma SelectsUpperHex()
    ensures FromString("HEX") == FromString("X") == FromString("Hex") == FromString("Hexadecimal") == Some(UpperHex)
  {
  }

  lemma SelectsUpperHexWithPrefix()
    ensures FromString("#HEX") == FromString("#X") == FromString("#Hex") == FromString("#Hexadecimal") == Some(UpperHexWithPrefix)
  {
  }

  lemma SelectsBinary()
    ensures FromString("binary") == FromString("b") == FromString("bin") == Some(Binary)
  {
  }

  lemma SelectsBinaryWithPrefix()
    ensures FromString("#binary") == FromString("#b") == FromString("#bin") == Some(BinaryWithPrefix)
  {
  }

  lemma SelectsOctal()
    ensures FromString("octal") == FromString("o") == FromString("oct") == Some(Octal)
  {
  }

  lemma SelectsOctalWithPrefix()
    ensures FromString("#octal") == FromString("#o") == FromString("#oct") == Some(OctalWithPrefix)
  {
  }

  lemma SelectsDecimal()
    ensures FromString("decimal") == FromString("d") == FromString("dec") == Some(Decimal)
  {
  }

  /** There is no prefixed decimal: a '#' in front of a decimal name is refused. */
  lemma NoPrefixedDecimal(n: string)
    requires n in Names(Decimal)
    ensures FromString("#" + n) == None
  {
    NamesListed(Decimal);
    assert "#" + n == "#decimal" || "#" + n == "#d" || "#" + n == "#dec";
  }
}

=== FILE: view.dfy ===
/** src/cli/cmd/view.rs: the boxed (or, with `--simple`, plain) hex dump.
    Every `println!` becomes one string of the returned sequence, without
    its line terminator. Colour is a parameter: `init` sets NO_COLOR=true
    when `--no-color` or `--simple` is given, and `ansi` then reads it. */
module ViewCmd {
  import opened Base
  import opened UtilsFormat
  import UtilsAnsi
  import Numerals
  import Columns
  import DumpCells
  import Reading

  /** The `view` arguments after parsing. */
  datatype View = View(
    filepath: Option<string>,
    offset: int,
    limit: Option<nat>,
    size: nat,
    format: Format,
    groupSize: nat,
    noColor: bool,
    simple: bool)

  /** NO_COLOR as `ansi` sees it after `View::init`. */
  function EnvAfterInit(v: View, noColorEnv: Option<string>): Option<string> {
    if v.noColor || v.simple then Some("true") else noColorEnv
  }

  /** Whether the strings of this command are painted. */
  function ColorOn(v: View, noColorEnv: Option<string>): (r: bool)
    ensures r ==> !v.noColor && !v.simple
    ensures !v.noColor && !v.simple ==> r == UtilsAnsi.IsColorEnabled(noColorEnv)
  {
    assert UtilsAnsi.ToLower("true") == "true";
    UtilsAnsi.IsColorEnabled(EnvAfterInit(v, noColorEnv))
  }

  /** `format_offset`: the octal digits of `offset as u8`, '0'-padded to
      eight in simple mode, otherwise a space and black dots up to eight.
      The digits are always three, so the `len() > 8` test never holds. */
  function FormatOffset(v: View, offset: nat, color: bool): (r: string)
    ensures v.simple ==> |r| == 8 && r[..5] == "00000"
    ensures !v.simple && !color ==> |r| == 9 && r[..6] == [' '] + RepeatChar(DumpCells.DOT, 5)
    ensures v.simple || !color ==> Numerals.Value(r[|r| - 3..], 8) == offset % 256
  {
    var res := FormatByte(Octal, offset % 256);
    FormatDecodes(Octal, offset % 256);
    if |res| > 8 || v.simple then
      (if |res| >= 8 then res else RepeatChar('0', 8 - |res|) + res)
    else
      var dots := Repeat(UtilsAnsi.Ansi([DumpCells.DOT], UtilsAnsi.Black, color), 8 - |res|);
      assert !color ==> dots == RepeatChar(DumpCells.DOT, 5) by {
        if !color {
          DumpCells.RepeatDot(5);
        }
      }
      [' '] + dots + UtilsAnsi.Ansi(res, UtilsAnsi.White, color)
  }

  /** `format_hex_values`: both loops, with the group separator before every
      group start, written bytes and padding slots alike. */
  function FormatHexValues(v: View, chunk: seq<byte>, bytesRead: nat, color: bool): (r: string)
    requires Columns.GroupOk(|chunk|, v.groupSize)
    ensures !color ==> |r| == |chunk| * (Size(v.format) + 1) + Columns.Seps(|chunk|, v.groupSize)
  {
    var cells := DumpCells.HexCells(chunk, bytesRead, v.format, color);
    assert !color ==> Columns.Width(cells) == |chunk| * (Size(v.format) + 1) by {
      if !color {
        DumpCells.HexCellsUniform(chunk, bytesRead, v.format);
        Columns.UniformWidth(cells, Size(v.format) + 1);
      }
    }
    Columns.Join(cells, v.groupSize, " ")
  }

  /** Where slot `k` of the hex column begins without colour. */
  function HexSlot(v: View, k: nat): nat
    requires Columns.GroupOk(k + 1, v.groupSize)
  {
    Columns.Start(k, Size(v.format) + 1, v.groupSize, 1)
  }

  /** Where slot `k` of the ASCII column begins without colour. */
  function AsciiSlot(v: View, k: nat): nat
    requires Columns.GroupOk(k + 1, v.groupSize)
  {
    Columns.Start(k, 1, v.groupSize, 1)
  }

  /** Without colour, slot `k` of the hex column holds the cell of byte `k`:
      its rendering and a space when it was read, `size() + 1` spaces
      otherwise. */
  lemma HexColumnSlots(v: View, chunk: seq<byte>, bytesRead: nat, k: nat)
    requires Columns.GroupOk(|chunk|, v.groupSize) && k < |chunk|
    ensures HexSlot(v, k) + Size(v.format) + 1 <= |FormatHexValues(v, chunk, bytesRead, false)|
    ensures FormatHexValues(v, chunk, bytesRead, false)[HexSlot(v, k)..HexSlot(v, k) + Size(v.format) + 1]
         == if k < bytesRead then FormatByte(v.format, chunk[k]) + " " else RepeatChar(' ', Size(v.format) + 1)
  {
    var cells := DumpCells.HexCells(chunk, bytesRead, v.format, false);
    var w, sep := Size(v.format) + 1, " ";
    var p := Columns.Start(k, w, v.groupSize, |sep|);
    var r := Columns.Join(cells, v.groupSize, sep);
    DumpCells.HexCellsUniform(chunk, bytesRead, v.format);
    Columns.JoinCell(cells, v.groupSize, sep, w, k);
    assert p == HexSlot(v, k);
    assert FormatHexValues(v, chunk, bytesRead, false) == r;
    DumpCells.PlainHexCellAt(chunk, bytesRead, v.format, k);
  }

  /** `format_ascii_representation`. */
  function FormatAsciiRepresentation(v: View, chunk: seq<byte>, bytesRead: nat, color: bool): (r: string)
    requires Columns.GroupOk(|chunk|, v.groupSize)
    ensures !color ==> |r| == |chunk| + Columns.Seps(|chunk|, v.groupSize)
  {
    var cells := DumpCells.AsciiCells(chunk, bytesRead, false, color);
    assert !color ==> Columns.Width(cells) == |chunk| by {
      if !color {
        DumpCells.AsciiCellsUniform(chunk, bytesRead, false);
        Columns.UniformWidth(cells, 1);
      }
    }
    Columns.Join(cells, v.groupSize, " ")
  }

  /** Without colour, slot `k` of the ASCII column is one character: the
      byte itself when read and printable (so it reads back as the byte),
      the dot when read and unprintable, a space past `bytes_read`. */
  lemma AsciiColumnSlots(v: View, chunk: seq<byte>, bytesRead: nat, k: nat)
    requires Columns.GroupOk(|chunk|, v.groupSize) && k < |chunk|
    ensures AsciiSlot(v, k) < |FormatAsciiRepresentation(v, chunk, bytesRead, false)|
    ensures k < bytesRead && DumpCells.Printable(chunk[k], false) ==>
      FormatAsciiRepresentation(v, chunk, bytesRead, false)[AsciiSlot(v, k)] as int == chunk[k]
    ensures k < bytesRead && !DumpCells.Printable(chunk[k], false) ==>
      FormatAsciiRepresentation(v, chunk, bytesRead, false)[AsciiSlot(v, k)] == DumpCells.DOT
    ensures k >= bytesRead ==>
      FormatAsciiRepresentation(v, chunk, bytesRead, false)[AsciiSlot(v, k)] == ' '
  {
    var cells := DumpCells.AsciiCells(chunk, bytesRead, false, false);
    DumpCells.AsciiCellsUniform(chunk, bytesRead, false);
    DumpCells.AsciiCellsAt(chunk, bytesRead, false, false, k);
    Columns.JoinCell(cells, v.groupSize, " ", 1, k);
    var r := FormatAsciiRepresentation(v, chunk, bytesRead, false);
    var p := AsciiSlot(v, k);
    assert r[p..p + 1] == cells[k];
    assert r[p] == cells[k][0];
  }

  /** Width of the hex column of a full row without colour. */
  function HexWidth(v: View): nat
    requires Columns.GroupOk(v.size, v.groupSize)
  {
    v.size * (Size(v.format) + 1) + Columns.Seps(v.size, v.groupSize)
  }

  /** Width of the ASCII column of a full row. */
  function AsciiWidth(v: View): nat
    requires Columns.GroupOk(v.size, v.groupSize)
  {
    v.size + Columns.Seps(v.size, v.groupSize)
  }

  /** The positions of the corners and junctions in a border, under which
      a boxed row has its bars. */
  function Glyphs(v: View): set<nat>
    requires Columns.GroupOk(v.size, v.groupSize)
  {
    {0, 12, 15 + HexWidth(v), 18 + HexWidth(v) + AsciiWidth(v)}
  }

  /** The hex section of a border: `size` runs of `size() + 1` rules, with a
      rule as the group separator. */
  function HexRule(v: View): string
    requires Columns.GroupOk(v.size, v.groupSize)
  {
    Columns.Join(Columns.Copies(RepeatChar(DumpCells.RULE, Size(v.format) + 1), v.size), v.groupSize, [DumpCells.RULE])
  }

  /** The ASCII section of a border: one rule per byte and per separator. */
  function AsciiRule(v: View): string
    requires Columns.GroupOk(v.size, v.groupSize)
  {
    Columns.Join(Columns.Copies([DumpCells.RULE], v.size), v.groupSize, [DumpCells.RULE])
  }

  /** The column sections of a border are runs of rules as wide as the columns. */
  lemma BorderRules(v: View)
    requires Columns.GroupOk(v.size, v.groupSize)
    ensures |HexRule(v)| == HexWidth(v) && Columns.AllChar(HexRule(v), DumpCells.RULE)
    ensures |AsciiRule(v)| == AsciiWidth(v) && Columns.AllChar(AsciiRule(v), DumpCells.RULE)
  {
    var hexCells := Columns.Copies(RepeatChar(DumpCells.RULE, Size(v.format) + 1), v.size);
    var asciiCells := Columns.Copies([DumpCells.RULE], v.size);
    Columns.UniformWidth(hexCells, Size(v.format) + 1);
    Columns.UniformWidth(asciiCells, 1);
    Columns.JoinAllChar(hexCells, v.groupSize, [DumpCells.RULE], DumpCells.RULE);
    Columns.JoinAllChar(asciiCells, v.groupSize, [DumpCells.RULE], DumpCells.RULE);
  }

  /** The concatenation both border functions perform: a corner, ten rules
      over the offset column, a junction, the hex section, a junction, the
      ASCII section, a corner. */
  function Frame(left: char, mid: char, right: char, hex: string, ascii: string): string {
    [left, DumpCells.RULE] + RepeatChar(DumpCells.RULE, 8 + 2) + [mid, DumpCells.RULE] + hex + [DumpCells.RULE, mid, DumpCells.RULE] + ascii + [DumpCells.RULE, right]
  }

  lemma FrameShape(left: char, mid: char, right: char, hex: string, ascii: string)
    requires Columns.AllChar(hex, DumpCells.RULE) && Columns.AllChar(ascii, DumpCells.RULE)
    ensures |Frame(left, mid, right, hex, ascii)| == 19 + |hex| + |ascii|
    ensures Frame(left, mid, right, hex, ascii)[0] == left
    ensures Frame(left, mid, right, hex, ascii)[12] == mid
    ensures Frame(left, mid, right, hex, ascii)[15 + |hex|] == mid
    ensures Frame(left, mid, right, hex, ascii)[18 + |hex| + |ascii|] == right
    ensures forall i | 0 <= i < 19 + |hex| + |ascii| && i !in {0, 12, 15 + |hex|, 18 + |hex| + |ascii|} ::
      Frame(left, mid, right, hex, ascii)[i] == DumpCells.RULE
  {
    var r := Frame(left, mid, right, hex, ascii);
    var a := [left, DumpCells.RULE] + RepeatChar(DumpCells.RULE, 8 + 2) + [mid, DumpCells.RULE];
    var b := a + hex + [DumpCells.RULE, mid, DumpCells.RULE];
    assert r == b + ascii + [DumpCells.RULE, right];
    assert |a| == 14;
    forall i | 0 <= i < |r| && i !in {0, 12, 15 + |hex|, 18 + |hex| + |ascii|}
      ensures r[i] == DumpCells.RULE
    {
      if i < 14 {
        assert r[i] == a[i];
      } else if i < 14 + |hex| {
        assert r[i] == hex[i - 14];
      } else if i < |b| {
        assert r[i] == b[i];
      } else if i < |b| + |ascii| {
        assert r[i] == ascii[i - |b|];
      }
    }
  }

  /** A border with the given corner and junction glyphs. */
  function Border(v: View, left: char, mid: char, right: char): (r: string)
    requires Columns.GroupOk(v.size, v.groupSize)
    ensures |r| == 19 + HexWidth(v) + AsciiWidth(v)
    ensures r[0] == left && r[12] == mid && r[15 + HexWidth(v)] == mid
    ensures r[18 + HexWidth(v) + AsciiWidth(v)] == right
    ensures forall i | 0 <= i < |r| && i !in Glyphs(v) :: r[i] == DumpCells.RULE
  {
    BorderRules(v);
    FrameShape(left, mid, right, HexRule(v), AsciiRule(v));
    Frame(left, mid, right, HexRule(v), AsciiRule(v))
  }

  /** `print_top_line`: nothing in simple mode. */
  function TopLine(v: View): seq<string>
    requires Columns.GroupOk(v.size, v.groupSize)
  {
    if v.simple then [] else [Border(v, '┌', '┬', '┐')]
  }

  /** `print_bottom_line`: nothing in simple mode. */
  function BottomLine(v: View): seq<string>
    requires Columns.GroupOk(v.size, v.groupSize)
  {
    if v.simple then [] else [Border(v, '└', '┴', '┘')]
  }

  /** The borders are one line each, as wide as each other, and agree
      everywhere but at the four glyph positions, where the top has
      ┌ ┬ ┬ ┐ and the bottom └ ┴ ┴ ┘. */
  lemma BordersMatch(v: View)
    requires Columns.GroupOk(v.size, v.groupSize) && !v.simple
    ensures |TopLine(v)| == 1 && |BottomLine(v)| == 1
    ensures |TopLine(v)[0]| == |BottomLine(v)[0]| == 19 + HexWidth(v) + AsciiWidth(v)
    ensures forall i | 0 <= i < |TopLine(v)[0]| && i !in Glyphs(v) :: TopLine(v)[0][i] == BottomLine(v)[0][i] == DumpCells.RULE
    ensures TopLine(v)[0][0] == '┌' && BottomLine(v)[0][0] == '└'
    ensures TopLine(v)[0][12] == '┬' && BottomLine(v)[0][12] == '┴'
    ensures TopLine(v)[0][|TopLine(v)[0]| - 1] == '┐' && BottomLine(v)[0][|BottomLine(v)[0]| - 1] == '┘'
  {
    var top := Border(v, '┌', '┬', '┐');
    var bottom := Border(v, '└', '┴', '┘');
    assert TopLine(v) == [top] && BottomLine(v) == [bottom];
  }

  /** `print_line`: one table row. */
  function PrintLine(v: View, buffer: seq<byte>, bytesRead: nat, offset: nat, color: bool): string
    requires Columns.GroupOk(|buffer|, v.groupSize)
  {
    var off := FormatOffset(v, offset, color);
    var hex := FormatHexValues(v, buffer, bytesRead, color);
    var ascii := FormatAsciiRepresentation(v, buffer, bytesRead, color);
    if v.simple then off + ":  " + hex + "  | " + ascii
    else DumpCells.BoxedRow(off, hex, ascii)
  }

  /** Without colour a boxed row of a full buffer lines up with the borders:
      it is as wide, and its bars stand exactly under the corners and
      junctions, whatever the number of bytes read. */
  lemma RowAlignsWithBorders(v: View, buffer: seq<byte>, bytesRead: nat, offset: nat)
    requires Columns.GroupOk(v.size, v.groupSize) && !v.simple && |buffer| == v.size
    ensures |PrintLine(v, buffer, bytesRead, offset, false)| == |TopLine(v)[0]|
    ensures PrintLine(v, buffer, bytesRead, offset, false)[0] == DumpCells.BAR
    ensures PrintLine(v, buffer, bytesRead, offset, false)[12] == DumpCells.BAR
    ensures PrintLine(v, buffer, bytesRead, offset, false)[15 + HexWidth(v)] == DumpCells.BAR
    ensures PrintLine(v, buffer, bytesRead, offset, false)[18 + HexWidth(v) + AsciiWidth(v)] == DumpCells.BAR
  {
    var off := FormatOffset(v, offset, false);
    var hex := FormatHexValues(v, buffer, bytesRead, false);
    var ascii := FormatAsciiRepresentation(v, buffer, bytesRead, false);
    assert |ascii| == |buffer| + Columns.Seps(|buffer|, v.groupSize);
    DumpCells.Boxed(off, hex, ascii);
  }

  /** `print_total`: nothing in simple mode, and otherwise one line that
      reads "Read ", a decimal count, " bytes" and a blank line, where the
      count reads back as `n`. */
  function PrintTotal(v: View, n: nat): (r: seq<string>)
    ensures v.simple <==> r == []
    ensures !v.simple ==> |r| == 1 && 13 <= |r[0]|
    ensures !v.simple ==> r[0][..5] == "Read " && r[0][|r[0]| - 7..] == " bytes\n"
    ensures !v.simple ==> forall i | 5 <= i < |r[0]| - 7 :: '0' <= r[0][i] <= '9'
    ensures !v.simple ==> Numerals.Value(r[0][5..|r[0]| - 7], 10) == n
  {
    if v.simple then []
    else
      var digits := Numerals.Decimal(n);
      var line := "Read " + digits + " bytes\n";
      Numerals.DecimalRoundTrip(n);
      assert line[5..|line| - 7] == digits;
      [line]
  }

  /** `print_file_name`: nothing in simple mode, and otherwise one line
      naming the file after "Source: ", or STDIN when there is none. */
  function PrintFileName(v: View): (r: seq<string>)
    ensures v.simple <==> r == []
    ensures !v.simple ==> |r| == 1 && 8 <= |r[0]| && r[0][..8] == "Source: "
    ensures !v.simple ==> r[0][8..] == v.filepath.GetOr("STDIN")
  {
    if v.simple then []
    else match v.filepath
      case Some(p) => ["Source: " + p]
      case None => ["Source: STDIN"]
  }

  /** The header line cannot tell standard input from a file named STDIN. */
  lemma StdinNamedLikeFile(v: View)
    ensures PrintFileName(v.(filepath := None)) == PrintFileName(v.(filepath := Some("STDIN")))
  {
    var a, b := PrintFileName(v.(filepath := None)), PrintFileName(v.(filepath := Some("STDIN")));
    if !v.simple {
      assert a[0] == a[0][..8] + a[0][8..];
      assert b[0] == b[0][..8] + b[0][8..];
    }
  }

  /** What `dump` prints before the rows. */
  function Header(v: View): seq<string>
    requires Columns.GroupOk(v.size, v.groupSize)
  {
    PrintFileName(v) + TopLine(v)
  }

  /** What `dump` prints after the rows when every read succeeded. */
  function Footer(v: View, n: nat): seq<string>
    requires Columns.GroupOk(v.size, v.groupSize)
  {
    BottomLine(v) + PrintTotal(v, n)
  }

  /** The reads of `dump`. */
  function Reads(v: View, replies: seq<Reading.Reply>): Reading.Drained {
    Reading.Loop(replies, v.size, v.limit)
  }

  /** One `print_line` per chunk, at the start offset plus the bytes before it. */
  function TableRows(v: View, chunks: seq<Reading.Chunk>, offset: nat, color: bool): (r: seq<string>)
    requires forall k | 0 <= k < |chunks| :: Columns.GroupOk(|chunks[k].buffer|, v.groupSize)
    ensures |r| == |chunks|
  {
    var starts := Reading.Offsets(chunks, offset);
    seq(|chunks|, k requires 0 <= k < |chunks| =>
      PrintLine(v, chunks[k].buffer, chunks[k].count, starts[k], color))
  }

  lemma TableRowAt(v: View, chunks: seq<Reading.Chunk>, offset: nat, color: bool, k: nat)
    requires forall k | 0 <= k < |chunks| :: Columns.GroupOk(|chunks[k].buffer|, v.groupSize)
    requires k < |chunks|
    ensures TableRows(v, chunks, offset, color)[k]
      == PrintLine(v, chunks[k].buffer, chunks[k].count, Reading.Offsets(chunks, offset)[k], color)
  {
  }

  /** What `dump` prints: the file name and top border, one row per
      non-empty read, then, unless a read failed and `?` returned early,
      the bottom border and the byte count. */
  datatype Dumped = Dumped(lines: seq<string>, failed: bool)

  function Dump(v: View, replies: seq<Reading.Reply>, offset: nat, color: bool): Dumped
    requires Columns.GroupOk(v.size, v.groupSize)
  {
    var d := Reads(v, replies);
    Assemble(Header(v), TableRows(v, d.chunks, offset, color), d.failed, Footer(v, Reading.Total(d.chunks)))
  }

  /** `dump` for every group size. A group size of 0 divides by zero, and
      panics (`None`), as soon as a border or a row of two or more cells is
      built: at the top border, or in simple mode at the first row. In
      simple mode with no rows nothing is printed. */
  function GuardedDump(v: View, replies: seq<Reading.Reply>, offset: nat, color: bool): (r: Option<Dumped>)
    ensures r.None? <==> !Columns.GroupOk(v.size, v.groupSize) && (!v.simple || |Reads(v, replies).chunks| > 0)
    ensures Columns.GroupOk(v.size, v.groupSize) ==> r == Some(Dump(v, replies, offset, color))
    ensures r.Some? && !Columns.GroupOk(v.size, v.groupSize) ==> r.value == Dumped([], Reads(v, replies).failed)
  {
    if Columns.GroupOk(v.size, v.groupSize) then Some(Dump(v, replies, offset, color))
    else if v.simple && |Reads(v, replies).chunks| == 0 then Some(Dumped([], Reads(v, replies).failed))
    else None
  }

  /** The header, the rows, and the footer unless `?` returned early. */
  function Assemble(head: seq<string>, body: seq<string>, failed: bool, tail: seq<string>): Dumped {
    if failed then Dumped(head + body, true) else Dumped(head + body + tail, false)
  }

  lemma AssembleRow(head: seq<string>, body: seq<string>, failed: bool, tail: seq<string>, k: nat)
    requires k < |body|
    ensures |head| + k < |Assemble(head, body, failed, tail).lines|
    ensures Assemble(head, body, failed, tail).lines[|head| + k] == body[k]
  {
  }

  /** Row `k` of the dump, after the header, is read `k` printed at its
      offset: the start offset plus the bytes of the earlier reads. */
  lemma DumpRow(v: View, replies: seq<Reading.Reply>, offset: nat, color: bool, k: nat)
    requires Columns.GroupOk(v.size, v.groupSize)
    requires k < |Reads(v, replies).chunks|
    ensures |Header(v)| + k < |Dump(v, replies, offset, color).lines|
    ensures Dump(v, replies, offset, color).lines[|Header(v)| + k]
      == PrintLine(v, Reads(v, replies).chunks[k].buffer, Reads(v, replies).chunks[k].count,
                   Reading.Offsets(Reads(v, replies).chunks, offset)[k], color)
  {
    var d := Reads(v, replies);
    var rows := TableRows(v, d.chunks, offset, color);
    assert Dump(v, replies, offset, color) == Assemble(Header(v), rows, d.failed, Footer(v, Reading.Total(d.chunks)));
    AssembleRow(Header(v), rows, d.failed, Footer(v, Reading.Total(d.chunks)), k);
    TableRowAt(v, d.chunks, offset, color, k);
  }

  /** The dump in the loop's terms: a header of two lines unless simple, one
      row per read, and, when no read failed, the bottom border and a total
      that is the sum of the reads and at most the limit; a failed dump
      stops after the rows and reports the failure. */
  lemma DumpShape(v: View, replies: seq<Reading.Reply>, offset: nat, color: bool)
    requires Columns.GroupOk(v.size, v.groupSize)
    ensures Dump(v, replies, offset, color).failed == Reads(v, replies).failed
    ensures |Header(v)| == if v.simple then 0 else 2
    ensures |Dump(v, replies, offset, color).lines|
      == |Header(v)| + |Reads(v, replies).chunks| + (if Reads(v, replies).failed || v.simple then 0 else 2)
    ensures !Reads(v, replies).failed && !v.simple ==>
      Dump(v, replies, offset, color).lines[|Dump(v, replies, offset, color).lines| - 1]
        == "Read " + Numerals.Decimal(Reading.Total(Reads(v, replies).chunks)) + " bytes\n"
  {
  }
}
